=== FILE: README.md ===
# rt: triangle BVH, scene flattening and image container in Dafny

This project models the ray-query core of the `rt` path tracer (Jacajack/rt).

**Triangle BVH (bvh_tree.cpp).** This is a bounding volume hierarchy over one flat array of triangles. It answers one question: what is the closest triangle hit along a ray?
- The builder keeps an explicit work list of leaves. For each leaf it sorts a copy of the leaf's range by centroid along each axis and sweeps every split position with the surface area heuristic (SAH). It takes the cheapest axis. It then either keeps the leaf or writes the winning order back into the shared array and emplaces two children.
- The tree lives in an array-backed binary tree that grows on demand.
- Traversal is an explicit loop over a fixed-capacity stack of 256 node intersections. It prunes by the best hit so far and visits the nearer child first.

**Supporting structures:**
- box arithmetic;
- the array-backed tree and the fixed-capacity stack;
- the leaf-level closest-hit scan of `primitive_soup.hpp`;
- the older recursive BVH of `bvh_accelerator.cpp`;
- scene flattening (`primitive_soup.cpp`) and per-object material assignment (`primitive_collection.cpp`);
- face, material and camera assembly in the Blender JSON scene loader;
- the image container's indexing and its `+=`/`+` operators.

**Modelling conventions:**
- Coordinates are `real`.
- A distance or cost is a `Float`: `NegInf`, `Fin(r)` or `PosInf`. `PosInf` plays `HUGE_VALF`, which is also `ray_miss`.
- Every C++ exception becomes the failure case of a `Result` or `Outcome`.
- The `unsigned int` node index of the tree iterator wraps modulo 2^32, as in C++.
- Imperative code stays imperative:
  - the tree, the stack, the SAH tree, the primitive collection and the image are classes whose methods change their fields;
  - loops are `while`/`for` loops with invariants;
  - each method is proved against a specification function.
- The older BVH holds its children by value (`std::vector<bvh_node>`), so its node is a datatype. Its in-place operations are methods that return the updated node.

**Main results:**
- `BvhTrees.BvhTree.BuildTree`:
  - the builder keeps the triangle array a permutation of the scene's triangles;
  - it keeps the tree in a shape where the leaves partition the array and every volume contains its triangles' boxes;
  - every leaf it leaves is one the heuristic does not split (for the stable sort order the model uses, see below).
- `BvhTrees.BvhTree.CastRay` returns exactly the closer of the given sphere and plane distances and a linear scan over all of the scene's triangles, unless the 256-entry stack overflows.
- `BvhAccelerators.BuildTree` and `BvhAccelerators.AcceleratorFindsClosest` prove the same for the older BVH: its leaves hold at most four triangles, no triangle is lost or duplicated, and its ray cast matches the scan.

**Quirks of the source.** The model keeps these as written:
- **Ties in the SAH builder.**
  - A leaf is split when its best cost *equals* `n * ci`. Only a strictly greater cost keeps it (`BvhSplits.StaysLeaf`).
  - Axis ties prefer x, then y (`BvhSplits.PickAxis`).
- **Emplace growth.**
  - `linear_tree::iterator::emplace` grows the storage at most one layer. The comment at `linear_tree.hpp:162-163` says one layer always suffices. It does not suffice for the right child of the last slot, which lands exactly at the doubled capacity, so `.at` throws there (`LinearTrees.EmplaceReach`, `LinearTrees.LinearTree.Emplace`).
  - The builder always emplaces the left child first, so it grows once more and succeeds. `BvhTrees.BvhTree.BuildTree` can fail only by passing the height ceiling of 25.
- **Subdividing to zero triangles.** `bvh_node::recursively_subdivide(0)` never returns once a node holds a triangle. The median split of a one-triangle node gives the left child nothing and hands the triangle to the right child, which is subdivided again (`BvhAccelerators.SplitPoint`). The model's `RecursivelySubdivide` therefore asks for a count of at least one.
- **Split axis of the older BVH.** Its axis choice falls through to z on any tie between x and y, even when z is the shortest extent (`BvhAccelerators.SplitAxisTie`).
- **The image operators.**
  - `operator+=` and both `operator+` *assign* the right operand's pixels rather than add them (`Images.OverwriteAll`).
  - `operator+=` lacks its `return *this`.
  - Both `operator+` write through the `const` `operator[]`, so they would not compile if instantiated. The model gives them the evident element overwrite.
  - The `(w, h)` constructor only reserves room, so a fresh image holds no pixels and every `at_pixel` fails (`Images.Image.Blank`).
- **Header against implementation.**
  - `bvh_accelerator.hpp` declares `m_left`/`m_right` while `bvh_accelerator.cpp` uses `m_children`. The model follows the `.cpp`.
  - The header's `m_children_overlap` flag is never read or written by the `.cpp`, so it is not modelled.

## Model

| member | source | states |
|---|---|---|
| Vectors.LtTotal | src/aabb.hpp:137-140 | the order on extended floats used by every distance comparison is total |
| Vectors.FMinAlgebra | src/bvh_accelerator.cpp:98 | `std::min` on distances is associative and commutative, so folding hits in any grouping gives the same closest distance |
| Aabb.Size | src/aabb.hpp:21 | `size` is the vector that takes `min` to `max` |
| Aabb.HalfSize | src/aabb.hpp:22 | `half_size` is half of `size` |
| Aabb.Center | src/aabb.hpp:23 | `center` is `min + half_size` and `max - half_size`, the midpoint |
| Aabb.Union | src/aabb.hpp:26-32 | the union box contains both argument boxes |
| Aabb.UnionLeast | src/aabb.hpp:26-32 | any box containing both arguments contains their union, so the union is the smallest such box |
| Aabb.UnionCommutative | src/aabb.hpp:26-32 | the union does not depend on argument order |
| Aabb.UnionIdempotent | src/aabb.hpp:26-32 | the union of a box with itself is that box |
| Aabb.UnionAssociative | src/aabb.hpp:26-32 | growing a box one box at a time gives the same result in any grouping |
| Aabb.UnionOrdered | src/aabb.hpp:26-32 | the union of two ordered boxes is ordered |
| Aabb.UnionContainsPoints | src/aabb.hpp:92-97 | a point inside either box is inside their union |
| Aabb.ContainsPoint | src/aabb.hpp:92-97 | a point inside a contained box is inside the containing box |
| Aabb.OverlapSymmetric | src/aabb.hpp:81-86 | the overlap test is symmetric |
| Aabb.TouchingFacesDoNotOverlap | src/aabb.hpp:81-86 | boxes that only share a face do not overlap, because every axis test is strict |
| Aabb.Overlap | src/aabb.hpp:81-86 | boxes with a common strictly interior point overlap; conversely, boxes of positive extent that overlap have one |
| Aabb.PointInside | src/aabb.hpp:92-97 | a point is inside with tolerance `eps` exactly when, as a degenerate box, it lies in the box grown by `eps` on every face; with `eps >= 0` every strictly interior point is inside |
| Aabb.PointInsideMonotone | src/aabb.hpp:92-97 | a point inside with tolerance `eps` is inside with any larger tolerance |
| Aabb.CenterInside | src/aabb.hpp:92-97 | the centre of an ordered box is inside it, faces included |
| Aabb.SurfaceArea | src/aabb.hpp:65-68 | the surface area of an ordered box is non-negative |
| Aabb.SurfaceAreaMonotone | src/aabb.hpp:65-68 | a contained ordered box has no larger surface area |
| Aabb.RayDistance | src/aabb.hpp:132-142 | the slab distance is the miss sentinel exactly when `tmax < 0` or `tmin > tmax`; otherwise it is `tmin`, with `tmin <= tmax` and `tmax >= 0` |
| Aabb.SlabNearNotAllNegInf | src/aabb.hpp:137 | the near slab bound is never minus infinity, because the direction is non-zero |
| Aabb.RayIntersect | src/aabb.hpp:104-117 | `ray_intersect` returns `check_ray_intersect`; on a hit it writes the slab distance, the hit point, the ray direction and the reversed ray direction as normal, and on a miss it leaves the record unchanged |
| Aabb.CheckRayIntersect | src/aabb.hpp:122-125 | on an ordered box, the slab test reports a hit exactly when some point of the ray at a non-negative parameter lies in the box, faces included |
| Aabb.RayDistanceAtMost | src/aabb.hpp:132-142 | if the ray is inside the box at parameter `t >= 0`, the slab test reports a hit no farther than `t` |
| Aabb.SlabsContain | src/aabb.hpp:134-138 | a parameter at which the ray is inside the box lies between the near and far slab bounds |
| Aabb.RayDistanceEnters | src/aabb.hpp:132-142 | when a hit is reported on an ordered box, the ray meets the box at some non-negative parameter |
| Aabb.SlabsEnter | src/aabb.hpp:134-138 | a parameter between the slab bounds gives a point inside the box |
| Primitives.TriBox | src/primitive.hpp:97-101 | a triangle's box is ordered and holds its three vertices |
| Primitives.CentroidInBox | src/bvh_tree.cpp:76-77 | a triangle's centroid, the sort key of both builders, lies in the triangle's box |
| SoupTriangles.Solve | src/primitive_soup.hpp:62-72 | the `t, u, v` solve is skipped exactly when the determinant is zero |
| SoupTriangles.SolveHitPoint | src/primitive_soup.hpp:67-72 | the solved `t, u, v` satisfy origin + t·dir = v0 + u·e1 + v·e2 |
| SoupTriangles.SolveValue | src/primitive_soup.hpp:67-72 | the solution is the one Cramer's rule gives for the source's cross and dot products |
| SoupTriangles.CandInBox | src/primitive_soup.hpp:75-84 | an accepted hit point lies inside the triangle's box |
| SoupTriangles.CandInsideVolume | src/bvh_tree.cpp:225-226 | a triangle inside a volume cannot be hit nearer than the ray enters the volume, which is what pruning by volume distance relies on |
| SoupTriangles.MinCandIsMin | src/primitive_soup.hpp:49-109 | the reference closest distance is at most every triangle's accepted distance and is one of them, or the miss sentinel |
| SoupTriangles.MinCandUnique | src/primitive_soup.hpp:49-109 | any value that is a lower bound and is attained is the reference closest distance |
| SoupTriangles.MinCandPermutation | src/bvh_tree.cpp:163 | the closest distance does not depend on triangle order, so reordering by the builder loses nothing |
| SoupTriangles.MinCandAppend | src/primitive_soup.hpp:49-109 | the closest distance over a concatenation is the smaller of the two parts' |
| SoupTriangles.ScanTriangles | src/primitive_soup.hpp:49-109 | the loop finds a hit iff some triangle of the range is accepted with `t` within the start bound; it reports that triangle, its solution and its distance, the last among equal distances; and the distance is the minimum of the start bound and the reference closest distance |
| SoupTriangles.ScanIsMin | src/primitive_soup.hpp:83-89 | a best value that is a lower bound, attained or equal to the start, is the minimum of the start and the closest distance |
| SoupTriangles.IntersectTriangles | src/primitive_soup.hpp:49-109 | `intersect_triangles` on soup triangles: on a hit the distance is the closest accepted one within the start bound, the position is `origin + t·direction` and the direction the ray's; the normal and object are those of a triangle accepted at that distance after which every triangle is strictly farther (the last of the ties), the normal interpolated at its solution; with no accepted triangle the distance is `HUGE_VALF` |
| SoupTriangles.CastRayWith | src/primitive_soup.hpp:29-44 | the wrapper returns true iff the intersection exists; it copies the intersection's fields and the owning object on a hit and leaves the hit unchanged otherwise |
| SoupTriangles.TriangleIntersect | src/primitive_soup.hpp:29-33 | the assumed single-triangle test (its body is not part of this model): it accepts exactly when the range scan accepts the triangle with no bound; an accepted hit is the point of the ray at that distance, which is the point of the triangle at the solution's barycentric coordinates `(u, v)`, with the ray's direction and the vertex normals interpolated at `(u, v)` |
| SoupTriangles.SoupTriangleCastRay | src/primitive_soup.hpp:29-44 | under the assumed triangle test, `soup_triangle::cast_ray` is true iff the triangle is accepted; it reports that distance, hit point, ray direction and interpolated normal and tags the hit with the owning object; on a miss the record is unchanged |
| SoupTriangles.SoupSphereCastRay | src/primitive_soup.hpp:119-135 | `soup_sphere::cast_ray` is true iff the given sphere test hits; it copies the intersection's distance, position, direction and normal and tags the owning object, and leaves the record unchanged on a miss |
| SoupTriangles.SoupPlaneCastRay | src/primitive_soup.hpp:144-160 | `soup_plane::cast_ray` is true iff the given plane test hits; it copies the intersection's distance, position, direction and normal and tags the owning object, and leaves the record unchanged on a miss |
| SoupTriangles.CastRayMatchesScan | src/primitive_soup.hpp:29-44 | under the assumed triangle test, a single triangle's `cast_ray` hits iff the scan of that one triangle hits, at the same distance; this follows from the assumption itself |
| CentroidSort.Insert | src/bvh_tree.cpp:75-79 | inserting into the sorted prefix adds exactly one element and loses none |
| CentroidSort.InsertSorted | src/bvh_tree.cpp:75-79 | inserting into a sequence sorted by centroid keeps it sorted |
| CentroidSort.SortByKey | src/bvh_tree.cpp:75-79 | the centroid sort is sorted along the axis and a permutation of its input |
| CentroidSort.SortIdempotent | src/bvh_accelerator.cpp:56-60 | sorting a sorted sequence gives it back |
| CentroidSort.LowerBound | src/bvh_accelerator.cpp:63-65 | `std::lower_bound` returns the first position whose key is not below the value |
| CentroidSort.LowerBoundPartitions | src/bvh_accelerator.cpp:63-65 | on a sorted sequence every key from the lower bound on is at least the value |
| CentroidSort.SortedPrefix | src/bvh_tree.cpp:75-79 | a prefix of a sorted sequence is sorted |
| CentroidSort.InsertLast | src/bvh_tree.cpp:75-79 | an element whose key is not below the last one is appended |
| BvhSplits.HullContains | src/bvh_tree.cpp:13-21 | the volume grown over a range is ordered and holds every triangle's box |
| BvhSplits.HullLeast | src/bvh_tree.cpp:13-21 | that volume is the smallest box holding every triangle's box |
| BvhSplits.NewNode | src/bvh_tree.cpp:13-21 | the node constructor's loop sets the range and grows the volume over every triangle of the non-empty range |
| BvhSplits.Cost | src/bvh_tree.cpp:103 | the split cost formula, finite or the miss sentinel when the parent area is zero |
| BvhSplits.SplitCosts | src/bvh_tree.cpp:89-103 | the sweep evaluates split sizes `1..n-1`, entry `k-1` being the cost of split `k` |
| BvhSplits.BestOfIsFirstMin | src/bvh_tree.cpp:104-108 | the strict comparison keeps the first minimal cost: the chosen cost is minimal, and every earlier split is strictly worse |
| BvhSplits.SweepSplits | src/bvh_tree.cpp:82-109 | the sweep loop returns the first cheapest split and its cost |
| BvhSplits.SweepIsFirstMin | src/bvh_tree.cpp:82-109 | the sweep's split is at least as cheap as every other split and strictly cheaper than every earlier one |
| BvhSplits.FindBestSplit | src/bvh_tree.cpp:70-112 | `find_best_split` returns the sorted copy of the range along the axis together with the sweep's result on it |
| BvhSplits.PickAxis | src/bvh_tree.cpp:137-156 | the chosen axis has the smallest cost; y wins only if strictly cheaper than x, and z only if strictly cheaper than both |
| BvhSplits.SweepSplitRange | src/bvh_tree.cpp:82-83 | when no split beats `HUGE_VALF` the split stays 0, and otherwise it lies strictly inside the range, so a one-triangle node keeps `HUGE_VALF` |
| BvhSplits.SplitIsProper | src/bvh_tree.cpp:159-164 | a node the heuristic splits has both child ranges non-empty |
| BvhSplits.StaysLeaf | src/bvh_tree.cpp:159-160 | a node stays a leaf when its best split cost exceeds `np * ci`; with no split candidate (cost HUGE_VALF) it always stays one, and an equal cost splits |
| LinearTrees.Pow2Monotone | src/linear_tree.hpp:46 | the storage size `1 << (h - 1)` grows with the height |
| LinearTrees.HeightBound | src/linear_tree.hpp:42-46 | a height `set_height` accepts gives at most `2^24` slots |
| LinearTrees.Log2 | src/linear_tree.hpp:86-89 | the integer floor of the base-2 logarithm |
| LinearTrees.Layer | src/linear_tree.hpp:86-89 | `get_layer` is the layer `k` with `2^k - 1 <= i < 2^(k+1) - 1` |
| LinearTrees.RootParentWraps | src/linear_tree.hpp:91-99 | the parent of the root is `(0 - 1) / 2` in unsigned arithmetic, `2^31 - 1` |
| LinearTrees.ParentOfChildren | src/linear_tree.hpp:91-129 | without wrap-around, `left(i) = 2i+1`, `right(i) = 2i+2`, and both have parent `i` |
| LinearTrees.ChildOfParent | src/linear_tree.hpp:91-129 | a non-root node's parent is smaller, and the node is its left or right child by parity |
| LinearTrees.LayerOfChildren | src/linear_tree.hpp:86-129 | children lie one layer below their parent |
| LinearTrees.LayerUnique | src/linear_tree.hpp:86-89 | the layer is the only `k` whose range holds the index |
| LinearTrees.Resize | src/linear_tree.hpp:46 | `resize` keeps the slots below both sizes and empties the new ones |
| LinearTrees.EmplaceReach | src/linear_tree.hpp:160-168 | a slot that may be emplaced lies within twice the storage, and reaches it exactly for the right child of the last slot, the one case where one layer of growth is not enough |
| LinearTrees.ChildrenCanEmplace | src/linear_tree.hpp:149-152 | both children of a populated slot may be emplaced |
| LinearTrees.RootHasNoParent | src/linear_tree.hpp:136-152 | the wrapped parent of the root holds no value in any tree of legal size |
| LinearTrees.ClearedIsSubtree | src/linear_tree.hpp:178-183 | the slots `remove` clears are the node and exactly its populated descendants |
| LinearTrees.LinearTree.constructor | src/linear_tree.hpp:22-25 | a new tree has the initial height and all slots empty |
| LinearTrees.LinearTree.SetHeight | src/linear_tree.hpp:40-47 | a height above 25 throws overflow and changes nothing; otherwise the storage becomes `2^(h-1)` slots, keeping the existing ones |
| LinearTrees.LinearTree.GrowLayer | src/linear_tree.hpp:52-55 | growing raises the height by one, doubling the storage, unless it is already 25 |
| LinearTrees.LinearTree.Emplace | src/linear_tree.hpp:157-173 | a slot that may not be emplaced throws out_of_range and changes nothing; one in storage is set; one beyond grows a layer and is set, or throws from `.at` if still beyond; the no-orphans rule is kept |
| LinearTrees.LinearTree.Get | src/linear_tree.hpp:188-206 | dereferencing succeeds exactly on a populated slot and yields its value, and otherwise throws bad_optional_access |
| LinearTrees.LinearTree.Update | src/linear_tree.hpp:188-206 | assigning through the iterator changes only a populated slot |
| LinearTrees.LinearTree.Remove | src/linear_tree.hpp:178-183 | `remove` empties the node and its populated descendants and nothing else |
| LinearTrees.RemoveKeepsNoOrphans | src/linear_tree.hpp:178-183 | removal keeps every populated non-root slot's parent populated |
| LinearTrees.GrowKeepsNoOrphans | src/linear_tree.hpp:52-55 | growing keeps the no-orphans rule and every slot that could be emplaced still can |
| LinearTrees.EmplaceKeepsNoOrphans | src/linear_tree.hpp:141-152 | setting a slot that may be emplaced keeps the no-orphans rule |
| LinearStacks.LinearStack.constructor | src/linear_stack.hpp:55-56 | a new stack is empty with capacity `N` |
| LinearStacks.LinearStack.Empty | src/linear_stack.hpp:49-52 | `empty()` holds iff nothing is on the stack |
| LinearStacks.LinearStack.Push | src/linear_stack.hpp:26-33 | on a full stack, push throws overflow and changes nothing; otherwise the element goes on top of the unchanged contents |
| LinearStacks.LinearStack.Emplace | src/linear_stack.hpp:15-23 | emplace behaves as push does |
| LinearStacks.LinearStack.Pop | src/linear_stack.hpp:35-40 | on an empty stack, pop throws underflow; otherwise only the top element is removed |
| LinearStacks.LinearStack.Top | src/linear_stack.hpp:42-47 | top throws out_of_range exactly on an empty stack, and otherwise returns the last element pushed and not popped |
| LinearStacks.PushThenPop | src/linear_stack.hpp:15-40 | a push followed by a pop restores the contents, and top in between sees the pushed element |
| BvhShapes.EmptyShape | src/bvh_tree.cpp:37-41 | with no triangles the empty tree has the builder's shape |
| BvhShapes.RootShape | src/bvh_tree.cpp:37-41 | the root alone over every triangle has the builder's shape |
| BvhShapes.SplitKeepsShape | src/bvh_tree.cpp:162-184 | one commit keeps the shape: ranges split in two, volumes containing their triangles, parents interior, leaves separate |
| BvhShapes.WriteBackPermutes | src/bvh_tree.cpp:163 | copying a permuted range back permutes the array in place and leaves the rest unchanged |
| BvhShapes.LeavesPartition | src/bvh_tree.cpp:175-180 | every triangle of the array lies in exactly one leaf's `[begin, end)` |
| BvhShapes.LeavesDisjoint | src/bvh_tree.cpp:175-180 | two different leaves have disjoint ranges |
| BvhTrees.Gather | src/bvh_tree.cpp:29-35 | the constructor's loop appends each object's triangles, spheres and planes in object order |
| BvhTrees.ChooseSplit | src/bvh_tree.cpp:114-156 | the three per-axis sweeps, run one after the other, yield the chosen axis's sorted copy, its first cheapest split and its cost |
| BvhTrees.PlanSplit | src/bvh_tree.cpp:158-164 | a leaf is kept exactly when the heuristic says so; otherwise the result is a permutation of its range with a split strictly inside |
| BvhTrees.ProperSplit | src/bvh_tree.cpp:159-164 | the sorted copy of a split node is a permutation of its range, and the split lies strictly inside |
| BvhTrees.SettledAfterSplit | src/bvh_tree.cpp:162-184 | a split does not change the verdict on any leaf outside the split range |
| BvhTrees.LeafCostFrame | src/bvh_tree.cpp:61-62 | a leaf's cost depends only on its own range |
| BvhTrees.SplitShrinks | src/bvh_tree.cpp:49-185 | replacing a leaf by two non-empty parts of its range reduces the work left, so the build loop terminates |
| BvhTrees.EmplaceChild | src/bvh_tree.cpp:177-178 | emplacing a child of a populated node can fail only by passing the height ceiling, and sets only that slot |
| BvhTrees.BvhTree.constructor | src/bvh_tree.cpp:23-42 | primitives are gathered in object order, the tree starts at height 4 with 8 slots, and with triangles the root is emplaced over the whole array and every other slot is empty |
| BvhTrees.BvhTree.BuildTree | src/bvh_tree.cpp:44-186 | the build keeps the array a permutation of the gathered triangles, fails only by passing the height ceiling, and on success leaves the shape valid with every leaf one the heuristic keeps |
| BvhTrees.BvhTree.ProcessLast | src/bvh_tree.cpp:49-185 | one round pops the last leaf, keeps or splits it, and keeps the shape and work list valid while the work left shrinks |
| BvhTrees.BvhTree.SplitLeaf | src/bvh_tree.cpp:162-184 | a split leaf's children join the work list in its place |
| BvhTrees.BvhTree.WriteBack | src/bvh_tree.cpp:162-163 | the winning order is copied back over the leaf's range only |
| BvhTrees.BvhTree.EmplaceChildren | src/bvh_tree.cpp:175-180 | the left child gets `[b, m)`, the right child `[m, e)`, and the parent's range becomes empty |
| BvhTrees.BvhTree.CommitSplit | src/bvh_tree.cpp:162-180 | write-back and emplacing together make one split step |
| BvhTrees.FirstHit | src/bvh_tree.cpp:190-203 | the hit left by the sphere and plane scans is at the closer of the two distances; it names a sphere or a plane at that distance, or nothing exactly when both missed |
| BvhTrees.StartStack | src/bvh_tree.cpp:206-215 | the stack starts with the root exactly when there is one and the ray enters its volume |
| BvhTrees.VolumeBound | src/bvh_tree.cpp:225-226 | a triangle under a node whose volume the ray enters no nearer than the best hit cannot beat it |
| BvhTrees.PrunedCovers | src/bvh_tree.cpp:226 | skipping a popped entry farther than the best hit loses no better triangle |
| BvhTrees.LeafCovers | src/bvh_tree.cpp:230-236 | after a leaf's scan none of its triangles beats the new best hit |
| BvhTrees.VisitLeaf | src/bvh_tree.cpp:230-236 | a leaf's triangles are scanned with the best hit as bound, and a triangle found takes over the hit |
| BvhTrees.ChildOrderHandled | src/bvh_tree.cpp:246-261 | the pushed children are at most the two children, each entered by the ray; a child left off is entered no nearer than the best hit |
| BvhTrees.ChildOrder | src/bvh_tree.cpp:246-261 | `cast_ray` pushes at most the two children, only ones the ray enters; a child left off is entered no nearer than the best hit; the child pushed last, popped first, is the nearest |
| BvhTrees.ChildrenPushed | src/bvh_tree.cpp:238-262 | replacing an interior node by the pushed children loses no better triangle and shrinks the work left |
| BvhTrees.PushChildren | src/bvh_tree.cpp:238-262 | nothing is pushed if both children are missed; otherwise the farther child is pushed first, and only if nearer than the best hit, and the nearer child follows |
| BvhTrees.Step | src/bvh_tree.cpp:218-262 | one round of the traversal keeps every triangle that could beat the best hit on the stack, fails only on stack overflow, and shrinks the work left |
| BvhTrees.ClosestFound | src/bvh_tree.cpp:217-265 | a best value that bounds every triangle and is attained or initial is the minimum of the initial hit and the closest triangle |
| BvhTrees.TraversalDone | src/bvh_tree.cpp:217-265 | with the stack empty, the best hit is the closer of the first hit and the closest triangle of the scene in any order |
| BvhTrees.BvhTree.CastRay | src/bvh_tree.cpp:188-266 | unless the stack overflows, the distance is the closest of the sphere, plane and every triangle hit, as a linear scan finds it; the result is true iff that is not the miss sentinel, and the hit's source agrees with it |
| PrimitiveCollections.Assigned | src/primitive_collection.cpp:42-52 | a primitive keeps its own material and gets the new one only when it had none |
| PrimitiveCollections.PrimitiveCollection.FromMesh | src/primitive_collection.cpp:5-13 | the mesh constructors take the mesh's triangles unchanged, and no spheres or planes |
| PrimitiveCollections.PrimitiveCollection.FromTriangle | src/primitive_collection.cpp:15-18 | one triangle, the other vectors empty |
| PrimitiveCollections.PrimitiveCollection.FromSphere | src/primitive_collection.cpp:20-23 | one sphere, the other vectors empty |
| PrimitiveCollections.PrimitiveCollection.FromPlane | src/primitive_collection.cpp:25-28 | one plane, the other vectors empty |
| PrimitiveCollections.PrimitiveCollection.ApplyTransform | src/primitive_collection.cpp:30-40 | every primitive is replaced by its transformed copy, and the lengths are kept |
| PrimitiveCollections.PrimitiveCollection.AssignMaterial | src/primitive_collection.cpp:42-52 | only primitives without a material get the new one, and the lengths are kept |
| PrimitiveCollections.PrimitiveCollection.SetMaterial | src/primitive_collection.cpp:54-63 | every primitive gets the material, nothing else changes, and the lengths are kept |
| PrimitiveCollections.AssignTwice | src/primitive_collection.cpp:42-52 | assigning the same material twice is assigning it once |
| PrimitiveCollections.SetThenAssign | src/primitive_collection.cpp:42-63 | after setting a non-null material, assigning any material changes nothing |
| PrimitiveSoups.MeshTriangles | src/primitive_soup.cpp:38-39 | a mesh contributes one soup triangle per triangle, in mesh order, each tagged with the object |
| PrimitiveSoups.ObjectTriangles | src/primitive_soup.cpp:35-49 | every triangle an object contributes is tagged with that object |
| PrimitiveSoups.MakeSoup | src/primitive_soup.cpp:9-53 | the loop succeeds iff every object is a plane, sphere, mesh or triangle, throws otherwise, and builds the three vectors object by object |
| PrimitiveSoups.AppendMesh | src/primitive_soup.cpp:38-39 | the mesh loop appends the mesh's tagged triangles |
| PrimitiveSoups.TrianglesTagged | src/primitive_soup.cpp:13-47 | every soup triangle comes from an earlier object |
| PrimitiveSoups.TrianglesInObjectOrder | src/primitive_soup.cpp:13-47 | soup triangles appear in object order |
| PrimitiveSoups.TaggedTrianglesAreObjects | src/primitive_soup.cpp:35-49 | the soup triangles tagged with an object are exactly that object's triangles, in order |
| PrimitiveSoups.MeshContributes | src/primitive_soup.cpp:35-41 | the triangles tagged with a mesh object are the mesh's triangles, in mesh order |
| PrimitiveSoups.PlanesTagged | src/primitive_soup.cpp:19-24 | every plane entry is tagged with a plane object, in object order |
| PrimitiveSoups.PlanesComplete | src/primitive_soup.cpp:19-24 | every plane object adds its plane |
| PrimitiveSoups.SpheresTagged | src/primitive_soup.cpp:27-32 | every sphere entry is tagged with a sphere object that is not a plane, in object order |
| PrimitiveSoups.SpheresComplete | src/primitive_soup.cpp:27-32 | every sphere object adds its sphere |
| BvhAccelerators.NodeVolumeContains | src/bvh_accelerator.cpp:24-35 | the volume contains the degenerate origin box, every child's volume and every triangle's box |
| BvhAccelerators.NodeVolumeLeast | src/bvh_accelerator.cpp:24-35 | the volume is the smallest such box |
| BvhAccelerators.CalculateVolume | src/bvh_accelerator.cpp:24-35 | the two accumulation loops compute that volume |
| BvhAccelerators.NewNode | src/bvh_accelerator.hpp:54-59 | a node built around a range holds it with no children and the computed volume |
| BvhAccelerators.NewNodeCovered | src/bvh_accelerator.hpp:54-59 | a new node's volume contains all its triangles' boxes |
| BvhAccelerators.SplitAxisLongest | src/bvh_accelerator.cpp:46-52 | an axis with strictly the largest extent is chosen |
| BvhAccelerators.SplitAxis | src/bvh_accelerator.cpp:46-52 | x or y is chosen only when strictly the longest; z otherwise |
| BvhAccelerators.SplitAxisTie | src/bvh_accelerator.cpp:46-52 | an x-y tie chooses z even when z is the shortest |
| BvhAccelerators.SplitPoint | src/bvh_accelerator.cpp:62-69 | the split lies in the range; with at least two triangles both children get some; with one the left child gets nothing; a midpoint split that leaves both sides non-empty is used |
| BvhAccelerators.SplitPointSeparates | src/bvh_accelerator.cpp:62-69 | when the midpoint split leaves both sides non-empty it is used, and separates centroids below the centre from the rest |
| BvhAccelerators.Subdivide | src/bvh_accelerator.cpp:37-76 | subdivide throws exactly on a node without triangles, and otherwise sorts along the split axis and hands the two halves to two new children, clearing its own list |
| BvhAccelerators.SubdivideKeepsTriangles | src/bvh_accelerator.cpp:72-75 | subdividing loses and duplicates no triangle |
| BvhAccelerators.SubdivideProper | src/bvh_accelerator.cpp:62-75 | with at least two triangles both new children get some and neither gets all |
| BvhAccelerators.SubdivideOrders | src/bvh_accelerator.cpp:56-75 | the left child's centroids are not above the right child's along the split axis |
| BvhAccelerators.SplitCovered | src/bvh_accelerator.cpp:72-75 | splitting a covered node gives a covered node |
| BvhAccelerators.SplitChildSmaller | src/bvh_accelerator.cpp:78-86 | each child of a split node has fewer triangles than the node, so the recursion terminates |
| BvhAccelerators.RecursivelySubdivide | src/bvh_accelerator.cpp:78-86 | with a positive bound the result keeps the triangles, stays covered, and has no node with more than the bound; a node within the bound is untouched |
| BvhAccelerators.BuildTree | src/bvh_accelerator.cpp:151-153 | the built tree holds exactly the soup's triangles, no node holds more than four, and every volume contains its triangles |
| BvhAccelerators.MinHit | src/bvh_accelerator.cpp:98 | `std::min` of two hits is the closer one, the first on ties |
| BvhAccelerators.ChildStep | src/bvh_accelerator.cpp:96-98 | folding in one child's result extends the children's minimum |
| BvhAccelerators.CastRay | src/bvh_accelerator.cpp:88-111 | a missed volume returns false and leaves the record untouched; otherwise the record's distance is the minimum over children and own triangles, true iff there is one; a hit record is that of some triangle of the subtree (distance, point, direction, normal, object), and with no hit only the distance was reset |
| BvhAccelerators.CastMatchesScan | src/bvh_accelerator.cpp:88-111 | a node's cast finds the closest triangle of its whole subtree, as a linear scan does |
| BvhAccelerators.ChildrenMatchScan | src/bvh_accelerator.cpp:96-98 | the children's loop finds the closest triangle among the children's subtrees |
| BvhAccelerators.AcceleratorCastRay | src/bvh_accelerator.cpp:129-148 | the caller's record gets the closest of the spheres', the planes' and the tree's hits, true iff not HUGE_VALF; a hit record is that of some sphere, plane or triangle of the tree, and with no hit only the distance was reset |
| BvhAccelerators.AcceleratorFindsClosest | src/bvh_accelerator.cpp:113-153 | on the built tree the cast returns the closest triangle of the whole soup |
| BvhAccelerators.TrisPermutation | src/bvh_accelerator.cpp:56-60 | reordering soup triangles reorders their triangles |
| JsdLoader.MakeMaterial | src/blender_jsd_loader.cpp:29-44 | non-zero transmission gives glass from the base colour and IOR; otherwise PBR with roughness `+ 0.05`, metallic and emission |
| JsdLoader.MakeCamera | src/blender_jsd_loader.cpp:49-63 | the camera fails exactly when the type is not "camera", and otherwise copies its fields |
| JsdLoader.FaceMaterial | src/blender_jsd_loader.cpp:138-146 | a material index within the object's slots selects its slot, and any other falls back to the default material |
| JsdLoader.FaceTriangle | src/blender_jsd_loader.cpp:114-149 | a face fails with out_of_range exactly when a vertex index is out of range, and otherwise has those positions, the smooth or flat normals, and its material |
| JsdLoader.SmoothNormalsNeverFail | src/blender_jsd_loader.cpp:121-136 | smooth normals use the checked vertex indices, so only a bad position index fails a face |
| JsdLoader.CollectExact | src/blender_jsd_loader.cpp:114-149 | collecting per-face results succeeds iff every face does, keeping values in order, and a failure is some face's error |
| JsdLoader.MaterialList | src/blender_jsd_loader.cpp:78 | the material list begins with the default material |
| JsdLoader.MaterialListSlots | src/blender_jsd_loader.cpp:91-96 | slot `s` of object `k` names that object's `s`-th material in the scene list |
| JsdLoader.LoadObject | src/blender_jsd_loader.cpp:86-152 | one object's loop appends its materials and assembles its faces as specified |
| JsdLoader.LoadObjects | src/blender_jsd_loader.cpp:86-152 | the objects loop assembles every object in order, and builds the material list on success |
| JsdLoader.LoadScene | src/blender_jsd_loader.cpp:74-171 | the assembly after parsing gives exactly the specified scene or error |
| JsdLoader.ObjectTrianglesError | src/blender_jsd_loader.cpp:121-123 | an object fails only with out_of_range |
| JsdLoader.LoadedError | src/blender_jsd_loader.cpp:159-165 | any other failure of the load comes from a first camera that is not a camera |
| JsdLoader.LoadedCamera | src/blender_jsd_loader.cpp:159-165 | the camera is the first listed one if any, otherwise the default camera |
| JsdLoader.LoadedObjects | src/blender_jsd_loader.cpp:168-169 | a loaded scene's triangles are the objects' in order, and its materials the scene list |
| JsdLoader.LoadedTriangle | src/blender_jsd_loader.cpp:114-149 | each face yields exactly one triangle, in face order |
| JsdLoader.TriangleMaterial | src/blender_jsd_loader.cpp:138-146 | a loaded triangle's material is its object's slot material, or the default for a bad index |
| JsdLoader.TriangleVertices | src/blender_jsd_loader.cpp:121-123 | a loaded triangle's vertices are the positions at the face's indices |
| JsdLoader.BadVertexFails | src/blender_jsd_loader.cpp:121-123 | a bad vertex index anywhere fails the whole load with out_of_range |
| Images.Mapped | src/containers/image.hpp:37-45 | conversion keeps the element count and order |
| Images.Overwritten | src/containers/image.hpp:153-154 | the first `n` elements come from the source and the rest are kept |
| Images.Image.Blank | src/containers/image.hpp:50-55 | the `(w, h)` constructor sets the dimensions with no pixels, so every checked access fails |
| Images.Image.At | src/containers/image.hpp:76-79 | `at` succeeds exactly below the data length, with that element, and throws out_of_range otherwise |
| Images.Image.AtPixel | src/containers/image.hpp:100-111 | `at_pixel` is the checked access of element `y*width + x` |
| Images.Image.Get | src/containers/image.hpp:68-71 | the unchecked `operator[]` agrees with `at` on every index in the data |
| Images.Image.Pixel | src/containers/image.hpp:84-95 | the unchecked `pixel(x, y)` agrees with `at_pixel(x, y)` wherever the address is in the data |
| Images.Image.Dimensions | src/containers/image.hpp:132-135 | the product of the two dimensions is `size()` |
| Images.Image.Size | src/containers/image.hpp:140-143 | every pixel `(x, y)` inside the dimensions has its address `y*width + x` below `size()` |
| Images.Image.Copy | src/containers/image.hpp:173 | the copy constructor, used at 173 and 194, gives the same dimensions and pixels |
| Images.Image.AddAssign | src/containers/image.hpp:148-155 | `+=` throws and changes nothing when the dimensions differ, whatever either image holds; otherwise it overwrites the first `size()` elements with the right-hand side's |
| Images.Convert | src/containers/image.hpp:21-45 | the converting constructors keep the dimensions and convert every pixel in order |
| Images.Add | src/containers/image.hpp:187-200 | `+` throws on mismatched dimensions, whatever either image holds, and otherwise gives a new image with the left operand's dimensions and the right operand's first `size()` pixels |
| Images.AddConverted | src/containers/image.hpp:166-182 | the mixed-type `+` does the same after converting the right operand |
| Images.Overwrite | src/containers/image.hpp:153-154 | the overwrite loop writes the first `size()` elements from the source |
| Images.PixelIndexInRange | src/containers/image.hpp:84-111 | coordinates inside the image address indices below `width*height` |
| Images.PixelIndexCoordinates | src/containers/image.hpp:84-111 | row-major addressing is one-to-one: an index gives back its coordinates |
| Images.FullImageAtPixel | src/containers/image.hpp:100-111 | on an image with all its pixels, every in-bounds `at_pixel` succeeds |
| Images.OverwriteAll | src/containers/image.hpp:148-155 | on a full image, `+=` with equal dimensions makes the image equal to the right operand: an assignment, not a sum |
| Images.OverwriteSelf | src/containers/image.hpp:148-155 | `+=` with the image itself changes nothing |

## Left out

- Reading the scene file and `json::parse` in `load_jsd_scene`: the parsed JSON is an input datatype.
- The loader's progress messages to `std::cerr` and `std::cout` (`blender_jsd_loader.cpp:83, 98, 110-111, 151`): output only, with no effect on the scene.
- LinearTrees.LinearTree.constructor: requires `1 <= initialHeight <= 25`, where the C++ would throw `overflow_error` from `set_height` above 25 and shift by a negative amount below 1. The only caller passes the default height 4.
- IEEE floating point:
  - coordinates are `real`;
  - rounding, NaN and the sign of zero are not modelled;
  - a zero direction component is allowed (only the zero vector is excluded); its slab is the whole line when the origin lies between the faces and empty otherwise, as IEEE infinities make it, and an origin exactly on a face, where IEEE division gives NaN, counts as inside;
  - a zero parent area makes a split cost the miss sentinel, as IEEE infinity or NaN would never compare below the best cost.
- Normalisation of the interpolated triangle normal: float vector maths.
- Sphere and plane intersection: square-root geometry, taken as intersection results passed in.
- SoupTriangles.TriangleIntersect: the body of `triangle::ray_intersect(r, isec)` is not part of this model. It is assumed to accept exactly what `intersect_triangles`' test accepts with no bound, with the same solution, and to report that point and the interpolated normal.
- SoupTriangles.SoupTriangleCastRay: its hit rests on the assumed `TriangleIntersect`, and so do the older BVH's triangle results (`BvhAccelerators.CastRay`, `BvhAccelerators.AcceleratorFindsClosest`).
- SoupTriangles.CastRayMatchesScan: holds by the definition of the assumed `TriangleIntersect`, not by a property of source code shown here.
- `rt::triangle::ray_intersect(begin, end, …)` used at a tree leaf is not part of this model. The leaf scan is modelled by `intersect_triangles`' loop.
- BvhTrees.VisitLeaf: the range forms `sphere/plane/triangle::ray_intersect(begin, end, r, isec)` are not part of this model. They are assumed to use `isec.distance` as an in/out bound, accepting only a strictly nearer hit, and to leave `isec` alone on a miss, so that `isec.distance` stays equal to `best_hit.distance`. `BvhTrees.FirstHit` (the plane wins only when not farther than the sphere) and `BvhTrees.BvhTree.CastRay`'s equality with the scan rest on this. A range scan that restarted from HUGE_VALF, as `intersect_triangles` does by default, could let a leaf overwrite a nearer hit.
- `triangle::transform`, sphere and plane transforms: parameters of `ApplyTransform`.
- The builder's `std::async` fan-out: the three per-axis sweeps run one after another.
- `std::sort` is not stable and its order among equal keys is unspecified. The model uses one legal order, a stable insertion sort. The shape and permutation results of the builder (`BvhShapes.SplitKeepsShape`, `BvhShapes.WriteBackPermutes`) hold for any permutation of a range, and `MinCandPermutation` shows the query result does not depend on the order. The result that every leaf left is one the heuristic keeps (`BvhTrees.BvhTree.BuildTree`'s `Settled`) is proved for the stable order only: with equal centroids another order may give other split costs.
- `aabb_collection` is not part of this model. It is the union of the boxes it holds.
- `ray_hit`'s `operator<` is not part of this model. `std::min` on hits compares distances.
- The hit record's `material` pointer: a hit carries only its owning object (`obj`), whose material it would point to.
- Triangle and box fields derived in the C++ (`get_aabb`, stored `size`/`center`) are functions of the stored corners.
- `image` pixel types, the tonemapping pixel constructors and colour maths: pixels are an abstract type, conversion a parameter.
- Images: `int` overflow in `y*width + x` and `width*height`, and negative sizes, are not modelled.
- Images.Image.AddAssign: the right-hand side's pixels are read as they were on entry. That is what the C++ loop reads even when the right-hand side aliases the image, since element `i` is read before it is written.
- BvhTrees.BvhTree.CastRay: a stack overflow is reported, not proved impossible. The C++ would throw `overflow_error` there too.
- Concurrency, the window, the path tracer, materials, textures, the camera's projection, the denoiser and the Assimp mesh import are outside the modelled core.
- The scene glue (`scene.cpp`/`scene.hpp`) is outside the core. The objects reach the builders as a sequence of geometry values or primitive collections.

=== FILE: aabb.dfy ===
/**
  Axis-aligned bounding boxes (src/aabb.hpp): construction, union, overlap,
  point containment, surface area and the slab ray test.
*/
module Aabb {
  import opened Vectors
  import opened Rays

  /** A box given by its two corners; size, half size and centre are derived from them. */
  datatype Box = Box(min: Vec3, max: Vec3)

  /** `min <= max` on every axis: the boxes that union and triangle bounds produce. */
  predicate Ordered(b: Box) { VLe(b.min, b.max) }

  /** Every point of `inner` lies in `outer`. */
  predicate Contains(outer: Box, inner: Box) {
    VLe(outer.min, inner.min) && VLe(inner.max, outer.max)
  }

  /** The degenerate box at the origin that the old builder starts from. */
  const OriginBox: Box := Box(Vec3(0.0, 0.0, 0.0), Vec3(0.0, 0.0, 0.0))

  /** The `size` member: the offset from the min corner to the max corner. */
  function Size(b: Box): (s: Vec3)
    ensures Add(b.min, s) == b.max
  {
    Sub(b.max, b.min)
  }

  /** The `half_size` member. */
  function HalfSize(b: Box): (h: Vec3)
    ensures Add(h, h) == Size(b)
  {
    Scale(0.5, Size(b))
  }

  /** The `center` member: half a size away from both corners. */
  function Center(b: Box): (c: Vec3)
    ensures c == Add(b.min, HalfSize(b)) && c == Sub(b.max, HalfSize(b))
  {
    Scale(0.5, Add(b.max, b.min))
  }

  /** The union constructor: a box containing both arguments (the smallest, by UnionLeast). */
  function Union(a: Box, b: Box): (r: Box)
    ensures Contains(r, a) && Contains(r, b)
  {
    Box(VMin(a.min, b.min), VMax(a.max, b.max))
  }

  /** check_aabb_overlap: strict interval overlap on all three axes. */
  predicate Overlap(a: Box, b: Box): (o: bool)
    ensures (exists p :: StrictlyInside(a, p) && StrictlyInside(b, p)) ==> o
    ensures o && Proper(a) && Proper(b) ==> exists p :: StrictlyInside(a, p) && StrictlyInside(b, p)
  {
    var o := && a.min.x < b.max.x && a.max.x > b.min.x
             && a.min.y < b.max.y && a.max.y > b.min.y
             && a.min.z < b.max.z && a.max.z > b.min.z;
    // the midpoint of the common interval on each axis
    var p := Vec3(Mid(a.min.x, a.max.x, b.min.x, b.max.x),
                  Mid(a.min.y, a.max.y, b.min.y, b.max.y),
                  Mid(a.min.z, a.max.z, b.min.z, b.max.z));
    assert o && Proper(a) && Proper(b) ==> StrictlyInside(a, p) && StrictlyInside(b, p);
    o
  }

  /**
    check_point_inside: faces included, grown by `eps` on every side; that is,
    the point, as a degenerate box, lies in the box grown by `eps`.
  */
  predicate PointInside(b: Box, p: Vec3, eps: real): (inside: bool)
    ensures inside <==> Contains(Grow(b, eps), Box(p, p))
    ensures eps >= 0.0 && StrictlyInside(b, p) ==> inside
  {
    && b.min.x - eps <= p.x && p.x <= b.max.x + eps
    && b.min.y - eps <= p.y && p.y <= b.max.y + eps
    && b.min.z - eps <= p.z && p.z <= b.max.z + eps
  }

  /** The box moved outwards by `eps` on every face. */
  function Grow(b: Box, eps: real): Box {
    Box(Vec3(b.min.x - eps, b.min.y - eps, b.min.z - eps), Vec3(b.max.x + eps, b.max.y + eps, b.max.z + eps))
  }

  /** A point strictly inside the box on every axis. */
  predicate StrictlyInside(b: Box, p: Vec3) {
    && b.min.x < p.x < b.max.x
    && b.min.y < p.y < b.max.y
    && b.min.z < p.z < b.max.z
  }

  /** get_surface_area. */
  function SurfaceArea(b: Box): (s: real)
    ensures Ordered(b) ==> s >= 0.0
  {
    var sz := Size(b);
    SurfaceAreaNonNegative(sz.x, sz.y, sz.z);
    2.0 * (sz.x * sz.y + sz.x * sz.z + sz.z * sz.y)
  }

  lemma SurfaceAreaNonNegative(a: real, b: real, c: real)
    ensures a >= 0.0 && b >= 0.0 && c >= 0.0 ==> 2.0 * (a * b + a * c + c * b) >= 0.0
  {
    if a >= 0.0 && b >= 0.0 && c >= 0.0 {
      assert a * b >= 0.0 && a * c >= 0.0 && c * b >= 0.0;
    }
  }

  // ---------------------------------------------------------------------
  // The slab test

  /**
    The entry and exit parameters of the ray for one axis' slab `[lo, hi]`:
    the smaller and the larger of `(lo - o) / d` and `(hi - o) / d`. A zero
    direction component divides by zero and yields infinities; when the origin
    also lies on a face (IEEE NaN) the slab is taken not to constrain the ray.
  */
  function AxisSlab(lo: real, hi: real, o: real, d: real): (Float, Float) {
    if d == 0.0 && (lo == o || hi == o) then (NegInf, PosInf)
    else
      var a := FDiv(lo - o, d);
      var b := FDiv(hi - o, d);
      (FMin(a, b), FMax(a, b))
  }

  function Slab(b: Box, r: Ray, a: Axis): (Float, Float) {
    AxisSlab(Get(b.min, a), Get(b.max, a), Get(r.origin, a), Get(r.direction, a))
  }

  /** `tmin`: the largest entry parameter over the three axes. */
  function TMin(b: Box, r: Ray): Float {
    FMax(FMax(Slab(b, r, X).0, Slab(b, r, Y).0), Slab(b, r, Z).0)
  }

  /** `tmax`: the smallest exit parameter over the three axes. */
  function TMax(b: Box, r: Ray): Float {
    FMin(FMin(Slab(b, r, X).1, Slab(b, r, Y).1), Slab(b, r, Z).1)
  }

  /**
    ray_intersection_distance: HUGE_VALF when `tmax < 0` or `tmin > tmax`,
    `tmin` otherwise (which is itself HUGE_VALF when an axis is parallel and
    outside, and may be negative when the origin is inside the box).
  */
  function RayDistance(b: Box, r: Ray): (t: Float)
    ensures t != NegInf
    ensures t == Huge <==> Lt(TMax(b, r), Fin(0.0)) || Lt(TMax(b, r), TMin(b, r)) || TMin(b, r) == PosInf
    ensures t != Huge ==> t == TMin(b, r) && Le(TMin(b, r), TMax(b, r)) && Le(Fin(0.0), TMax(b, r))
  {
    SlabNearNotAllNegInf(b, r);
    var tmin := TMin(b, r);
    var tmax := TMax(b, r);
    if Lt(tmax, Fin(0.0)) || Lt(tmax, tmin) then Huge else tmin
  }

  /** A ray direction has a non-zero axis, whose entry parameter is finite. */
  lemma SlabNearNotAllNegInf(b: Box, r: Ray)
    ensures TMin(b, r) != NegInf
  {
    var d := r.direction;
    if d.x != 0.0 {
      assert Slab(b, r, X).0.Fin?;
    } else if d.y != 0.0 {
      assert Slab(b, r, Y).0.Fin?;
    } else {
      assert d.z != 0.0;
      assert Slab(b, r, Z).0.Fin?;
    }
  }

  /** check_ray_intersect. */
  predicate CheckRayIntersect(b: Box, r: Ray): (hit: bool)
    ensures Ordered(b) ==> (hit <==> exists s :: s >= 0.0 && PointInside(b, PointAt(r, s), 0.0))
  {
    SlabTestExact(b, r);
    RayDistance(b, r) != Huge
  }

  /** On an ordered box the slab test reports a hit exactly when the ray meets the box ahead of its origin. */
  lemma SlabTestExact(b: Box, r: Ray)
    ensures Ordered(b) ==> (RayDistance(b, r) != Huge <==> exists s :: s >= 0.0 && PointInside(b, PointAt(r, s), 0.0))
  {
    if Ordered(b) {
      if RayDistance(b, r) != Huge {
        RayDistanceEnters(b, r);
      }
      forall s | s >= 0.0 && PointInside(b, PointAt(r, s), 0.0)
        ensures RayDistance(b, r) != Huge
      {
        RayDistanceAtMost(b, r, s);
      }
    }
  }

  /**
    aabb::ray_intersect: on a hit, overwrites the hit record with the distance,
    the point at that distance, the ray direction and the reversed direction as
    normal; on a miss the record is returned unchanged.
  */
  function RayIntersect(b: Box, r: Ray, hit: Intersection): (res: (bool, Intersection))
    ensures res.0 == CheckRayIntersect(b, r)
    ensures !res.0 ==> res.1 == hit
    ensures res.0 ==> res.1.distance == RayDistance(b, r) && res.1.distance.Fin?
    ensures res.0 ==> res.1.position == PointAt(r, RayDistance(b, r).v) && res.1.direction == r.direction
    ensures res.0 ==> res.1.normal == Neg(r.direction)
  {
    var t := RayDistance(b, r);
    if t != Huge then
      (true, Intersection(t, r.direction, PointAt(r, t.v), Neg(r.direction)))
    else
      (false, hit)
  }

  // ---------------------------------------------------------------------
  // Properties of union, overlap and containment

  /** Any box containing both arguments contains their union. */
  lemma UnionLeast(a: Box, b: Box, c: Box)
    requires Contains(c, a) && Contains(c, b)
    ensures Contains(c, Union(a, b))
  {
  }

  lemma UnionCommutative(a: Box, b: Box)
    ensures Union(a, b) == Union(b, a)
  {
  }

  lemma UnionIdempotent(a: Box)
    ensures Union(a, a) == a
  {
  }

  lemma UnionAssociative(a: Box, b: Box, c: Box)
    ensures Union(Union(a, b), c) == Union(a, Union(b, c))
  {
  }

  lemma UnionOrdered(a: Box, b: Box)
    requires Ordered(a)
    ensures Ordered(Union(a, b))
  {
  }

  /** Every point inside either argument, at any tolerance, is inside the union. */
  lemma UnionContainsPoints(a: Box, b: Box, p: Vec3, eps: real)
    requires PointInside(a, p, eps) || PointInside(b, p, eps)
    ensures PointInside(Union(a, b), p, eps)
  {
  }

  lemma ContainsTransitive(a: Box, b: Box, c: Box)
    requires Contains(a, b) && Contains(b, c)
    ensures Contains(a, c)
  {
  }

  lemma ContainsAntisymmetric(a: Box, b: Box)
    requires Contains(a, b) && Contains(b, a)
    ensures a == b
  {
  }

  lemma ContainsPoint(outer: Box, inner: Box, p: Vec3, eps: real)
    requires Contains(outer, inner) && PointInside(inner, p, eps)
    ensures PointInside(outer, p, eps)
  {
  }

  lemma OverlapSymmetric(a: Box, b: Box)
    ensures Overlap(a, b) == Overlap(b, a)
  {
  }

  /** Boxes that only touch on a face do not overlap: every test is strict. */
  lemma TouchingFacesDoNotOverlap(a: Box, b: Box, ax: Axis)
    requires Get(a.max, ax) == Get(b.min, ax)
    ensures !Overlap(a, b) && !Overlap(b, a)
  {
  }

  /** The midpoint of the common interval of two open intervals that overlap. */
  function Mid(lo1: real, hi1: real, lo2: real, hi2: real): real {
    (RMax(lo1, lo2) + RMin(hi1, hi2)) / 2.0
  }

  /** Positive extent on every axis. */
  predicate Proper(b: Box) {
    b.min.x < b.max.x && b.min.y < b.max.y && b.min.z < b.max.z
  }

  lemma PointInsideMonotone(b: Box, p: Vec3, eps: real, eps': real)
    requires eps <= eps' && PointInside(b, p, eps)
    ensures PointInside(b, p, eps')
  {
  }

  /** The centre of an ordered box lies inside it. */
  lemma CenterInside(b: Box)
    requires Ordered(b)
    ensures PointInside(b, Center(b), 0.0)
  {
  }

  /** Scaling by a non-negative factor keeps an order, by a non-positive one reverses it. */
  lemma ScaleOrder(u: real, v: real, d: real)
    requires u <= v
    ensures d >= 0.0 ==> u * d <= v * d
    ensures d <= 0.0 ==> v * d <= u * d
  {
    assert v * d - u * d == (v - u) * d;
  }

  /** Scaling by a positive factor keeps a strict order, by a negative one reverses it. */
  lemma ScaleStrict(u: real, v: real, d: real)
    requires u < v
    ensures d > 0.0 ==> u * d < v * d
    ensures d < 0.0 ==> v * d < u * d
  {
    assert v * d - u * d == (v - u) * d;
  }

  lemma MulMonotone(a: real, b: real, c: real, d: real)
    requires 0.0 <= a <= c && 0.0 <= b <= d
    ensures a * b <= c * d
  {
    ScaleOrder(a, c, b);
    ScaleOrder(b, d, c);
  }

  /** The sum of the three face areas grows with each side. */
  lemma FacesMonotone(x: real, y: real, z: real, x': real, y': real, z': real)
    requires 0.0 <= x <= x' && 0.0 <= y <= y' && 0.0 <= z <= z'
    ensures 0.0 <= x * y + x * z + z * y <= x' * y' + x' * z' + z' * y'
  {
    MulMonotone(0.0, 0.0, x, y);
    MulMonotone(0.0, 0.0, x, z);
    MulMonotone(0.0, 0.0, z, y);
    MulMonotone(x, y, x', y');
    MulMonotone(x, z, x', z');
    MulMonotone(z, y, z', y');
  }

  /** A box inside another has no larger surface area: Sl, Sr <= Sp in the SAH. */
  lemma SurfaceAreaMonotone(outer: Box, inner: Box)
    requires Ordered(inner) && Contains(outer, inner)
    ensures 0.0 <= SurfaceArea(inner) <= SurfaceArea(outer)
  {
    var s, t := Size(inner), Size(outer);
    FacesMonotone(s.x, s.y, s.z, t.x, t.y, t.z);
  }

  // ---------------------------------------------------------------------
  // The slab test finds exactly the rays that enter the box going forward

  /** The quotient by a non-zero divisor, times the divisor, is the dividend. */
  lemma DivTimes(n: real, d: real)
    requires d != 0.0
    ensures (n / d) * d == n
  {
  }

  lemma DivBounds(lo: real, hi: real, o: real, d: real, t: real)
    requires d != 0.0 && lo <= o + t * d <= hi
    ensures var a, b := (lo - o) / d, (hi - o) / d;
      RMin(a, b) <= t <= RMax(a, b)
  {
    var a, b := (lo - o) / d, (hi - o) / d;
    DivTimes(lo - o, d);
    DivTimes(hi - o, d);
    if d > 0.0 {
      if t < a { ScaleStrict(t, a, d); assert false; }
      if b < t { ScaleStrict(b, t, d); assert false; }
    } else {
      if a < t { ScaleStrict(a, t, d); assert false; }
      if t < b { ScaleStrict(t, b, d); assert false; }
    }
  }

  lemma AxisSlabContains(lo: real, hi: real, o: real, d: real, t: real)
    requires lo <= o + t * d <= hi
    ensures Le(AxisSlab(lo, hi, o, d).0, Fin(t)) && Le(Fin(t), AxisSlab(lo, hi, o, d).1)
  {
    if d != 0.0 {
      DivBounds(lo, hi, o, d, t);
    } else {
      assert lo <= o <= hi;
    }
  }

  /**
    If the point at a non-negative parameter `t` lies in the box, the slab
    test reports the box as hit, no farther than `t`. This is what makes the
    traversal's pruning safe.
  */
  lemma RayDistanceAtMost(b: Box, r: Ray, t: real)
    requires t >= 0.0 && PointInside(b, PointAt(r, t), 0.0)
    ensures RayDistance(b, r) != Huge && Le(RayDistance(b, r), Fin(t))
  {
    SlabsContain(b, r, t);
    BetweenSlabs(TMin(b, r), Fin(t), TMax(b, r));
  }

  /** Each axis' slab interval contains `t` when the point at `t` is in the box. */
  lemma SlabsContain(b: Box, r: Ray, t: real)
    requires PointInside(b, PointAt(r, t), 0.0)
    ensures Le(TMin(b, r), Fin(t)) && Le(Fin(t), TMax(b, r))
  {
    var p := PointAt(r, t);
    assert Get(b.min, X) <= Get(p, X) <= Get(b.max, X);
    assert Get(b.min, Y) <= Get(p, Y) <= Get(b.max, Y);
    assert Get(b.min, Z) <= Get(p, Z) <= Get(b.max, Z);
    SlabContains(b, r, X, t);
    SlabContains(b, r, Y, t);
    SlabContains(b, r, Z, t);
    Combine(Slab(b, r, X), Slab(b, r, Y), Slab(b, r, Z), Fin(t));
  }

  /** One axis of `SlabsContain`. */
  lemma SlabContains(b: Box, r: Ray, ax: Axis, t: real)
    requires Get(b.min, ax) <= Get(PointAt(r, t), ax) <= Get(b.max, ax)
    ensures Le(Slab(b, r, ax).0, Fin(t)) && Le(Fin(t), Slab(b, r, ax).1)
  {
    PointAtAxis(r, t, ax);
    AxisSlabContains(Get(b.min, ax), Get(b.max, ax), Get(r.origin, ax), Get(r.direction, ax), t);
  }

  lemma Combine(sx: (Float, Float), sy: (Float, Float), sz: (Float, Float), x: Float)
    requires Le(sx.0, x) && Le(sy.0, x) && Le(sz.0, x)
    requires Le(x, sx.1) && Le(x, sy.1) && Le(x, sz.1)
    ensures Le(FMax(FMax(sx.0, sy.0), sz.0), x) && Le(x, FMin(FMin(sx.1, sy.1), sz.1))
  {
    MaxLe(sx.0, sy.0, x);
    MaxLe(FMax(sx.0, sy.0), sz.0, x);
    LeMin(x, sx.1, sy.1);
    LeMin(x, FMin(sx.1, sy.1), sz.1);
  }

  lemma BetweenSlabs(tmin: Float, x: Float, tmax: Float)
    requires Le(tmin, x) && Le(x, tmax) && Le(Fin(0.0), x)
    ensures !Lt(tmax, Fin(0.0)) && !Lt(tmax, tmin)
  {
    LtTrans(tmin, x, tmax);
    LtTrans(Fin(0.0), x, tmax);
  }

  lemma AxisSlabEnters(lo: real, hi: real, o: real, d: real, s: real)
    requires lo <= hi
    requires Le(AxisSlab(lo, hi, o, d).0, Fin(s)) && Le(Fin(s), AxisSlab(lo, hi, o, d).1)
    ensures lo <= o + s * d <= hi
  {
    if d != 0.0 {
      var a, b := (lo - o) / d, (hi - o) / d;
      DivTimes(lo - o, d);
      DivTimes(hi - o, d);
      var near, far := RMin(a, b), RMax(a, b);
      assert AxisSlab(lo, hi, o, d) == (Fin(near), Fin(far));
      assert near <= s <= far;
      ScaleOrder(near, s, d);
      ScaleOrder(s, far, d);
      if a <= b {
        assert near == a && far == b;
      } else {
        assert near == b && far == a;
      }
    }
  }

  /** The coordinate of a point on the ray along one axis. */
  lemma PointAtAxis(r: Ray, s: real, ax: Axis)
    ensures Get(PointAt(r, s), ax) == Get(r.origin, ax) + s * Get(r.direction, ax)
  {
  }

  /** One axis of `SlabsEnter`. */
  lemma SlabEnters(b: Box, r: Ray, ax: Axis, s: real)
    requires Get(b.min, ax) <= Get(b.max, ax)
    requires Le(Slab(b, r, ax).0, Fin(s)) && Le(Fin(s), Slab(b, r, ax).1)
    ensures Get(b.min, ax) <= Get(PointAt(r, s), ax) <= Get(b.max, ax)
  {
    AxisSlabEnters(Get(b.min, ax), Get(b.max, ax), Get(r.origin, ax), Get(r.direction, ax), s);
    PointAtAxis(r, s, ax);
  }

  /**
    Conversely, whenever the slab test reports a hit on an ordered box, the ray
    enters the box at a non-negative parameter: the larger of `tmin` and zero.
  */
  lemma RayDistanceEnters(b: Box, r: Ray)
    requires Ordered(b) && RayDistance(b, r) != Huge
    ensures exists s :: s >= 0.0 && PointInside(b, PointAt(r, s), 0.0)
  {
    var tmin := RayDistance(b, r);
    var s := RMax(tmin.v, 0.0);
    LtTrans(Fin(s), tmin, TMax(b, r));
    SlabsEnter(b, r, s);
  }

  /** A parameter inside every slab interval gives a point of the (ordered) box. */
  lemma SlabsEnter(b: Box, r: Ray, s: real)
    requires Ordered(b) && Le(TMin(b, r), Fin(s)) && Le(Fin(s), TMax(b, r))
    ensures PointInside(b, PointAt(r, s), 0.0)
  {
    Split(Slab(b, r, X), Slab(b, r, Y), Slab(b, r, Z), Fin(s));
    SlabEnters(b, r, X, s);
    SlabEnters(b, r, Y, s);
    SlabEnters(b, r, Z, s);
  }

  lemma Split(sx: (Float, Float), sy: (Float, Float), sz: (Float, Float), x: Float)
    requires Le(FMax(FMax(sx.0, sy.0), sz.0), x) && Le(x, FMin(FMin(sx.1, sy.1), sz.1))
    ensures Le(sx.0, x) && Le(sy.0, x) && Le(sz.0, x)
    ensures Le(x, sx.1) && Le(x, sy.1) && Le(x, sz.1)
  {
    MaxLe(sx.0, sy.0, x);
    MaxLe(FMax(sx.0, sy.0), sz.0, x);
    LeMin(x, sx.1, sy.1);
    LeMin(x, FMin(sx.1, sy.1), sz.1);
  }
}

=== FILE: bvh_accelerator.dfy ===
/**
  The first, recursive BVH (src/bvh_accelerator.cpp): every node owns its
  children by value (`std::vector<bvh_node>`) and a list of soup triangles.
  A node is built around a range of triangles with a volume that is the union
  of the degenerate origin box, the children's volumes and the triangles'
  boxes; `subdivide` sorts the triangles along the longest axis and hands the
  two halves of a midpoint (or, failing that, median) split to two new
  children; `recursively_subdivide` repeats this until no node owns more than
  the given number of triangles; `cast_ray` descends into every child whose
  volume the ray meets.

  Because a node holds its children by value, a node is a datatype here and
  the in-place operations are methods that return the updated node.
*/
module BvhAccelerators {
  import opened Wrappers
  import opened Vectors
  import opened Rays
  import opened Aabb
  import opened Primitives
  import opened SoupTriangles
  import opened CentroidSort

  /** bvh_node: its volume, its children and the triangles it owns itself. */
  datatype Node = Node(volume: Box, children: seq<Node>, triangles: seq<SoupTriangle>)

  /** The runtime_error thrown by subdivide on a node without triangles. */
  datatype BuildError = NoTriangles

  /** The sort and split key: the centroid of the wrapped triangle along an axis. */
  function SoupKey(st: SoupTriangle, a: Axis): real {
    CentroidKey(st.tri, a)
  }

  // ---------------------------------------------------------------------
  // Subtrees

  /** Every triangle of a subtree: the node's own, then its children's in order. */
  function AllTris(n: Node): seq<SoupTriangle>
    decreases n, 1
  {
    n.triangles + ChildTris(n, |n.children|)
  }

  /** The triangles of the first `k` children's subtrees. */
  function ChildTris(n: Node, k: nat): seq<SoupTriangle>
    requires k <= |n.children|
    decreases n, 0, k
  {
    if k == 0 then [] else ChildTris(n, k - 1) + AllTris(n.children[k - 1])
  }

  /** Every node's volume contains the box of every triangle below it. */
  ghost predicate Covered(n: Node)
    decreases n
  {
    (forall t :: t in AllTris(n) ==> Contains(n.volume, TriBox(t.tri)))
    && forall k :: 0 <= k < |n.children| ==> Covered(n.children[k])
  }

  /** No node of the subtree owns more than `count` triangles itself. */
  ghost predicate LeavesAtMost(n: Node, count: nat)
    decreases n
  {
    |n.triangles| <= count && forall k :: 0 <= k < |n.children| ==> LeavesAtMost(n.children[k], count)
  }

  /** Every child subtree of `n` already respects the bound. */
  ghost predicate ChildrenAtMost(n: Node, count: nat) {
    forall k :: 0 <= k < |n.children| ==> LeavesAtMost(n.children[k], count)
  }

  /** A child's subtree is part of the children's triangles. */
  lemma {:induction false} ChildWithin(n: Node, k: nat, j: nat)
    requires j < k <= |n.children|
    ensures multiset(AllTris(n.children[j])) <= multiset(ChildTris(n, k))
    ensures |AllTris(n.children[j])| <= |ChildTris(n, k)|
    decreases k
  {
    if j < k - 1 {
      ChildWithin(n, k - 1, j);
    }
  }

  /** Children with the same triangles (up to order) give the same children's triangles. */
  lemma {:induction false} ChildTrisAgree(a: Node, b: Node, k: nat)
    requires k <= |a.children| && k <= |b.children|
    requires forall j :: 0 <= j < k ==> multiset(AllTris(a.children[j])) == multiset(AllTris(b.children[j]))
    ensures multiset(ChildTris(a, k)) == multiset(ChildTris(b, k))
    decreases k
  {
    if k > 0 {
      ChildTrisAgree(a, b, k - 1);
    }
  }

  /** A node without children has exactly its own triangles. */
  lemma LeafTris(n: Node)
    requires n.children == []
    ensures AllTris(n) == n.triangles
  {
  }

  // ---------------------------------------------------------------------
  // Volumes

  /** The left fold of the box union over `boxes`, starting from `vol`. */
  function GrowBy(vol: Box, boxes: seq<Box>): Box
    decreases |boxes|
  {
    if |boxes| == 0 then vol else Union(GrowBy(vol, boxes[..|boxes| - 1]), boxes[|boxes| - 1])
  }

  function Volumes(cs: seq<Node>): (vs: seq<Box>)
    ensures |vs| == |cs| && forall i :: 0 <= i < |cs| ==> vs[i] == cs[i].volume
  {
    seq(|cs|, i requires 0 <= i < |cs| => cs[i].volume)
  }

  function TriBoxes(ts: seq<SoupTriangle>): (bs: seq<Box>)
    ensures |bs| == |ts| && forall i :: 0 <= i < |ts| ==> bs[i] == TriBox(ts[i].tri)
  {
    seq(|ts|, i requires 0 <= i < |ts| => TriBox(ts[i].tri))
  }

  /** The volume calculate_volume gives a node with these children and triangles. */
  function NodeVolume(cs: seq<Node>, ts: seq<SoupTriangle>): Box {
    GrowBy(GrowBy(OriginBox, Volumes(cs)), TriBoxes(ts))
  }

  /** The fold contains its start and every box folded in. */
  lemma {:induction false} GrowByContains(vol: Box, boxes: seq<Box>)
    ensures Contains(GrowBy(vol, boxes), vol)
    ensures forall k :: 0 <= k < |boxes| ==> Contains(GrowBy(vol, boxes), boxes[k])
    decreases |boxes|
  {
    if |boxes| > 0 {
      var init := boxes[..|boxes| - 1];
      GrowByContains(vol, init);
      var g := GrowBy(vol, boxes);
      forall k | 0 <= k < |boxes|
        ensures Contains(g, boxes[k])
      {
        if k < |boxes| - 1 {
          assert init[k] == boxes[k];
          ContainsTransitive(g, GrowBy(vol, init), boxes[k]);
        }
      }
      ContainsTransitive(g, GrowBy(vol, init), vol);
    }
  }

  /** The fold is the smallest such box: any box holding the start and all boxes holds it. */
  lemma {:induction false} GrowByLeast(vol: Box, boxes: seq<Box>, c: Box)
    requires Contains(c, vol)
    requires forall k :: 0 <= k < |boxes| ==> Contains(c, boxes[k])
    ensures Contains(c, GrowBy(vol, boxes))
    decreases |boxes|
  {
    if |boxes| > 0 {
      var init := boxes[..|boxes| - 1];
      forall k | 0 <= k < |init|
        ensures Contains(c, init[k])
      {
        assert init[k] == boxes[k];
      }
      GrowByLeast(vol, init, c);
      UnionLeast(GrowBy(vol, init), boxes[|boxes| - 1], c);
    }
  }

  /** A node volume contains the origin box, every child's volume and every triangle's box. */
  lemma NodeVolumeContains(cs: seq<Node>, ts: seq<SoupTriangle>)
    ensures Contains(NodeVolume(cs, ts), OriginBox)
    ensures forall k :: 0 <= k < |cs| ==> Contains(NodeVolume(cs, ts), cs[k].volume)
    ensures forall k :: 0 <= k < |ts| ==> Contains(NodeVolume(cs, ts), TriBox(ts[k].tri))
  {
    var inner := GrowBy(OriginBox, Volumes(cs));
    GrowByContains(OriginBox, Volumes(cs));
    GrowByContains(inner, TriBoxes(ts));
    forall k | 0 <= k < |cs|
      ensures Contains(NodeVolume(cs, ts), cs[k].volume)
    {
      ContainsTransitive(NodeVolume(cs, ts), inner, Volumes(cs)[k]);
    }
    ContainsTransitive(NodeVolume(cs, ts), inner, OriginBox);
  }

  /** ... and it is the smallest box that does. */
  lemma NodeVolumeLeast(cs: seq<Node>, ts: seq<SoupTriangle>, c: Box)
    requires Contains(c, OriginBox)
    requires forall k :: 0 <= k < |cs| ==> Contains(c, cs[k].volume)
    requires forall k :: 0 <= k < |ts| ==> Contains(c, TriBox(ts[k].tri))
    ensures Contains(c, NodeVolume(cs, ts))
  {
    GrowByLeast(OriginBox, Volumes(cs), c);
    GrowByLeast(GrowBy(OriginBox, Volumes(cs)), TriBoxes(ts), c);
  }

  /** calculate_volume: the two accumulation loops compute NodeVolume. */
  method CalculateVolume(cs: seq<Node>, ts: seq<SoupTriangle>) returns (vol: Box)
    ensures vol == NodeVolume(cs, ts)
  {
    vol := OriginBox;
    for k := 0 to |cs|
      invariant vol == GrowBy(OriginBox, Volumes(cs)[..k])
    {
      assert Volumes(cs)[..k + 1][..k] == Volumes(cs)[..k];
      vol := Union(vol, cs[k].volume);
    }
    assert Volumes(cs)[..|cs|] == Volumes(cs);
    var inner := vol;
    for k := 0 to |ts|
      invariant vol == GrowBy(inner, TriBoxes(ts)[..k])
    {
      assert TriBoxes(ts)[..k + 1][..k] == TriBoxes(ts)[..k];
      vol := Union(vol, TriBox(ts[k].tri));
    }
    assert TriBoxes(ts)[..|ts|] == TriBoxes(ts);
  }

  /**
    The node constructors (from a range of soup triangles, or from the soup's
    triangle list): a childless node owning the triangles, with its volume
    calculated.
  */
  method NewNode(ts: seq<SoupTriangle>) returns (n: Node)
    ensures n.children == [] && n.triangles == ts
    ensures n.volume == NodeVolume([], ts)
  {
    var vol := CalculateVolume([], ts);
    n := Node(vol, [], ts);
  }

  /** A freshly constructed node is covered. */
  lemma NewNodeCovered(n: Node)
    requires n.children == [] && n.volume == NodeVolume([], n.triangles)
    ensures Covered(n)
  {
    NodeVolumeContains([], n.triangles);
    forall t | t in AllTris(n)
      ensures Contains(n.volume, TriBox(t.tri))
    {
      LeafTris(n);
      var k :| 0 <= k < |n.triangles| && n.triangles[k] == t;
    }
  }

  // ---------------------------------------------------------------------
  // Subdivision

  /**
    The split axis: x when its extent is strictly the largest, else y when its
    extent is strictly the largest, else z.
  */
  function SplitAxis(size: Vec3): (a: Axis)
    ensures a == X ==> size.x > size.y && size.x > size.z
    ensures a == Y ==> size.y > size.x && size.y > size.z
    ensures a == Z ==> !(size.x > size.y && size.x > size.z) && !(size.y > size.x && size.y > size.z)
  {
    if size.x > size.y && size.x > size.z then X
    else if size.y > size.x && size.y > size.z then Y
    else Z
  }

  /** An axis with a strictly largest extent is the one chosen. */
  lemma SplitAxisLongest(size: Vec3, a: Axis)
    requires forall b :: b != a ==> Get(size, a) > Get(size, b)
    ensures SplitAxis(size) == a
  {
    assert forall b :: b != a ==> Get(size, a) > Get(size, b);
    match a
    case X => assert Get(size, X) > Get(size, Y) && Get(size, X) > Get(size, Z);
    case Y => assert Get(size, Y) > Get(size, X) && Get(size, Y) > Get(size, Z);
    case Z => assert Get(size, Z) > Get(size, X) && Get(size, Z) > Get(size, Y);
  }

  /** A tie between x and y falls through to z, even when z is the shortest. */
  lemma SplitAxisTie()
    ensures SplitAxis(Vec3(1.0, 1.0, 0.0)) == Z
  {
  }

  /**
    The split position in the sorted triangles: the first triangle whose
    centroid is not below the centre (the midpoint split), or half the count
    when that would leave one side empty (the median split).
  */
  function SplitPoint(sorted: seq<SoupTriangle>, a: Axis, center: real): (k: nat)
    ensures k <= |sorted|
    ensures |sorted| >= 2 ==> 0 < k < |sorted|
    ensures |sorted| == 1 ==> k == 0
    ensures 0 < LowerBound(sorted, SoupKey, a, center) < |sorted| ==> k == LowerBound(sorted, SoupKey, a, center)
  {
    var k := LowerBound(sorted, SoupKey, a, center);
    if k == |sorted| || k == 0 then |sorted| / 2 else k
  }

  /**
    When the midpoint split leaves both sides non-empty it is used, and it
    separates the centroids below the centre from the others.
  */
  lemma SplitPointSeparates(sorted: seq<SoupTriangle>, a: Axis, center: real)
    requires SortedBy(sorted, SoupKey, a)
    requires 0 < LowerBound(sorted, SoupKey, a, center) < |sorted|
    ensures SplitPoint(sorted, a, center) == LowerBound(sorted, SoupKey, a, center)
    ensures forall i :: 0 <= i < SplitPoint(sorted, a, center) ==> SoupKey(sorted[i], a) < center
    ensures forall i :: SplitPoint(sorted, a, center) <= i < |sorted| ==> SoupKey(sorted[i], a) >= center
  {
    LowerBoundPartitions(sorted, SoupKey, a, center);
  }

  /** `x` is a node just constructed around `ts`. */
  ghost predicate IsNewNode(x: Node, ts: seq<SoupTriangle>) {
    x.children == [] && x.triangles == ts && x.volume == NodeVolume([], ts)
  }

  /**
    `m` is `n` with its triangles `sorted` cut at `k` and handed to two new
    children appended to the old ones: same volume, no own triangles.
  */
  ghost predicate SplitInto(n: Node, m: Node, sorted: seq<SoupTriangle>, k: nat) {
    var c := |n.children|;
    SplitShape(n, m, sorted, k)
    && IsNewNode(m.children[c], sorted[..k]) && IsNewNode(m.children[c + 1], sorted[k..])
  }

  /** The shape of a split, without the new children's volumes. */
  ghost predicate SplitShape(n: Node, m: Node, sorted: seq<SoupTriangle>, k: nat) {
    var c := |n.children|;
    k <= |sorted| && m.volume == n.volume && m.triangles == []
    && |m.children| == c + 2 && m.children[..c] == n.children
    && m.children[c].children == [] && m.children[c + 1].children == []
    && m.children[c].triangles == sorted[..k] && m.children[c + 1].triangles == sorted[k..]
  }

  /**
    `m` is `n` after subdivide: the triangles sorted along the split axis and
    cut at the split point.
  */
  ghost predicate Subdivided(n: Node, m: Node) {
    var a := SplitAxis(Size(n.volume));
    var sorted := SortByKey(n.triangles, SoupKey, a);
    SplitInto(n, m, sorted, SplitPoint(sorted, a, Get(Center(n.volume), a)))
  }

  /** Appending two new nodes around the halves of `sorted` is a split. */
  lemma AppendedSplit(n: Node, left: Node, right: Node, sorted: seq<SoupTriangle>, k: nat)
    requires k <= |sorted|
    requires left.children == [] && left.triangles == sorted[..k] && left.volume == NodeVolume([], sorted[..k])
    requires right.children == [] && right.triangles == sorted[k..] && right.volume == NodeVolume([], sorted[k..])
    ensures SplitInto(n, Node(n.volume, n.children + [left, right], []), sorted, k)
  {
    var m := Node(n.volume, n.children + [left, right], []);
    assert m.children[..|n.children|] == n.children;
  }

  /** subdivide: throws on a node without triangles, otherwise splits them between two new children. */
  method Subdivide(n: Node) returns (res: Result<Node, BuildError>)
    ensures |n.triangles| == 0 <==> res.Failure?
    ensures res.Failure? ==> res.error == NoTriangles
    ensures res.Success? ==> Subdivided(n, res.value)
  {
    if |n.triangles| == 0 {
      return Failure(NoTriangles);
    }
    var size := Size(n.volume);
    var center := Center(n.volume);
    var a := SplitAxis(size);
    var sorted := SortByKey(n.triangles, SoupKey, a);
    var split := LowerBound(sorted, SoupKey, a, Get(center, a));
    if split == |sorted| || split == 0 {
      split := |sorted| / 2;
    }
    var left := NewNode(sorted[..split]);
    var right := NewNode(sorted[split..]);
    var m := Node(n.volume, n.children + [left, right], []);
    AppendedSplit(n, left, right, sorted, split);
    return Success(m);
  }

  /** The children's triangles with two childless children appended. */
  lemma AppendedLeavesTris(m: Node, c: nat)
    requires |m.children| == c + 2 && m.children[c].children == [] && m.children[c + 1].children == []
    ensures ChildTris(m, c + 2) == ChildTris(m, c) + (m.children[c].triangles + m.children[c + 1].triangles)
  {
    LeafTris(m.children[c]);
    LeafTris(m.children[c + 1]);
  }

  /** Children equal to another node's children give the same children's triangles. */
  lemma SamePrefixTris(m: Node, n: Node, c: nat)
    requires c == |n.children| <= |m.children| && m.children[..c] == n.children
    ensures multiset(ChildTris(m, c)) == multiset(ChildTris(n, c))
  {
    forall j | 0 <= j < c
      ensures multiset(AllTris(m.children[j])) == multiset(AllTris(n.children[j]))
    {
      assert m.children[..c][j] == m.children[j];
    }
    ChildTrisAgree(m, n, c);
  }

  /** Splitting keeps the subtree's triangles, up to order. */
  lemma SplitKeepsTriangles(n: Node, m: Node, sorted: seq<SoupTriangle>, k: nat)
    requires SplitShape(n, m, sorted, k) && multiset(sorted) == multiset(n.triangles)
    ensures multiset(AllTris(m)) == multiset(AllTris(n))
  {
    var c := |n.children|;
    SamePrefixTris(m, n, c);
    AppendedLeavesTris(m, c);
    assert m.children[c].triangles + m.children[c + 1].triangles == sorted;
    assert AllTris(m) == ChildTris(m, c + 2);
  }

  /** Subdividing keeps the subtree's triangles, up to order. */
  lemma SubdivideKeepsTriangles(n: Node, m: Node)
    requires Subdivided(n, m)
    ensures multiset(AllTris(m)) == multiset(AllTris(n))
  {
    var a := SplitAxis(Size(n.volume));
    var sorted := SortByKey(n.triangles, SoupKey, a);
    SplitKeepsTriangles(n, m, sorted, SplitPoint(sorted, a, Get(Center(n.volume), a)));
  }

  /** With at least two triangles, both new children get some and neither gets all. */
  lemma SubdivideProper(n: Node, m: Node)
    requires Subdivided(n, m) && |n.triangles| >= 2
    ensures 0 < |m.children[|n.children|].triangles| < |n.triangles|
    ensures 0 < |m.children[|n.children| + 1].triangles| < |n.triangles|
  {
    var a := SplitAxis(Size(n.volume));
  }

  /** The new children's triangles are ordered along the split axis, left before right. */
  lemma SubdivideOrders(n: Node, m: Node, i: nat, j: nat)
    requires Subdivided(n, m)
    requires i < |m.children[|n.children|].triangles| && j < |m.children[|n.children| + 1].triangles|
    ensures SoupKey(m.children[|n.children|].triangles[i], SplitAxis(Size(n.volume)))
         <= SoupKey(m.children[|n.children| + 1].triangles[j], SplitAxis(Size(n.volume)))
  {
    var a := SplitAxis(Size(n.volume));
    var sorted := SortByKey(n.triangles, SoupKey, a);
    SplitOrders(n, m, sorted, SplitPoint(sorted, a, Get(Center(n.volume), a)), a, i, j);
  }

  lemma SplitOrders(n: Node, m: Node, sorted: seq<SoupTriangle>, k: nat, a: Axis, i: nat, j: nat)
    requires SplitShape(n, m, sorted, k) && SortedBy(sorted, SoupKey, a)
    requires i < |m.children[|n.children|].triangles| && j < |m.children[|n.children| + 1].triangles|
    ensures SoupKey(m.children[|n.children|].triangles[i], a) <= SoupKey(m.children[|n.children| + 1].triangles[j], a)
  {
    var c := |n.children|;
    assert sorted[i] == m.children[c].triangles[i];
    assert sorted[k + j] == m.children[c + 1].triangles[j];
  }

  /** Splitting a covered node gives a covered node. */
  lemma SplitCovered(n: Node, m: Node, sorted: seq<SoupTriangle>, k: nat)
    requires SplitInto(n, m, sorted, k) && multiset(sorted) == multiset(n.triangles) && Covered(n)
    ensures Covered(m)
  {
    var c := |n.children|;
    SplitKeepsTriangles(n, m, sorted, k);
    forall t | t in AllTris(m)
      ensures Contains(m.volume, TriBox(t.tri))
    {
      assert t in multiset(AllTris(n));
    }
    forall j | 0 <= j < |m.children|
      ensures Covered(m.children[j])
    {
      if j < c {
        assert m.children[..c][j] == m.children[j];
      } else {
        NewNodeCovered(m.children[j]);
      }
    }
  }

  /** A child of a node split into non-empty halves is smaller than the node. */
  lemma SplitChildSmaller(n: Node, m: Node, sorted: seq<SoupTriangle>, k: nat, j: nat)
    requires SplitInto(n, m, sorted, k) && |sorted| == |n.triangles| && 0 < k < |sorted|
    requires j < |m.children|
    ensures |AllTris(m.children[j])| < |AllTris(n)|
  {
    var c := |n.children|;
    if j < c {
      assert m.children[..c][j] == m.children[j];
      ChildWithin(n, c, j);
    } else {
      LeafTris(m.children[j]);
    }
  }

  /**
    `d` is `c` after recursively_subdivide: the same volume and triangles,
    every node within the bound (when the children already were), and still
    covered (when it was).
  */
  ghost predicate Refines(c: Node, d: Node, count: nat) {
    multiset(AllTris(d)) == multiset(AllTris(c))
    && d.volume == c.volume
    && (ChildrenAtMost(c, count) ==> LeavesAtMost(d, count))
    && (Covered(c) ==> Covered(d))
  }

  /** The node rebuilt from a split node and its refined children refines the original. */
  lemma AssembleRefined(n: Node, sub: Node, sorted: seq<SoupTriangle>, k: nat, cs: seq<Node>, count: nat)
    requires SplitInto(n, sub, sorted, k) && multiset(sorted) == multiset(n.triangles)
    requires |cs| == |sub.children|
    requires forall j :: 0 <= j < |cs| ==> Refines(sub.children[j], cs[j], count)
    ensures Refines(n, Node(sub.volume, cs, []), count)
  {
    AssembleTris(n, sub, sorted, k, cs, count);
    AssembleBounded(n, sub, sorted, k, cs, count);
    AssembleCoveredFrom(n, sub, sorted, k, cs, count);
  }

  lemma AssembleCoveredFrom(n: Node, sub: Node, sorted: seq<SoupTriangle>, k: nat, cs: seq<Node>, count: nat)
    requires SplitInto(n, sub, sorted, k) && multiset(sorted) == multiset(n.triangles)
    requires |cs| == |sub.children|
    requires forall j :: 0 <= j < |cs| ==> Refines(sub.children[j], cs[j], count)
    ensures Covered(n) ==> Covered(Node(sub.volume, cs, []))
  {
    if Covered(n) {
      SplitCovered(n, sub, sorted, k);
      SplitKeepsTriangles(n, sub, sorted, k);
      AssembleTris(n, sub, sorted, k, cs, count);
      AssembleCovered(sub, cs, count);
    }
  }

  lemma AssembleTris(n: Node, sub: Node, sorted: seq<SoupTriangle>, k: nat, cs: seq<Node>, count: nat)
    requires SplitShape(n, sub, sorted, k) && multiset(sorted) == multiset(n.triangles)
    requires |cs| == |sub.children|
    requires forall j :: 0 <= j < |cs| ==> Refines(sub.children[j], cs[j], count)
    ensures multiset(AllTris(Node(sub.volume, cs, []))) == multiset(AllTris(n))
  {
    var m := Node(sub.volume, cs, []);
    forall j | 0 <= j < |cs|
      ensures multiset(AllTris(m.children[j])) == multiset(AllTris(sub.children[j]))
    {
      assert Refines(sub.children[j], cs[j], count);
    }
    ChildTrisAgree(m, sub, |cs|);
    SplitKeepsTriangles(n, sub, sorted, k);
    assert AllTris(m) == ChildTris(m, |cs|);
    assert AllTris(sub) == ChildTris(sub, |cs|);
  }

  lemma AssembleBounded(n: Node, sub: Node, sorted: seq<SoupTriangle>, k: nat, cs: seq<Node>, count: nat)
    requires SplitShape(n, sub, sorted, k)
    requires |cs| == |sub.children|
    requires forall j :: 0 <= j < |cs| ==> Refines(sub.children[j], cs[j], count)
    ensures ChildrenAtMost(n, count) ==> LeavesAtMost(Node(sub.volume, cs, []), count)
  {
    var c := |n.children|;
    forall j | 0 <= j < |cs| && ChildrenAtMost(n, count)
      ensures LeavesAtMost(cs[j], count)
    {
      assert Refines(sub.children[j], cs[j], count);
      if j < c {
        assert sub.children[..c][j] == sub.children[j];
        assert LeavesAtMost(n.children[j], count);
      }
      assert ChildrenAtMost(sub.children[j], count);
    }
  }

  lemma AssembleCovered(sub: Node, cs: seq<Node>, count: nat)
    requires Covered(sub) && sub.triangles == [] && |cs| == |sub.children|
    requires multiset(AllTris(Node(sub.volume, cs, []))) == multiset(AllTris(sub))
    requires forall j :: 0 <= j < |cs| ==> Refines(sub.children[j], cs[j], count)
    ensures Covered(Node(sub.volume, cs, []))
  {
    var m := Node(sub.volume, cs, []);
    forall t | t in AllTris(m)
      ensures Contains(m.volume, TriBox(t.tri))
    {
      assert t in multiset(AllTris(sub));
    }
    forall j | 0 <= j < |cs|
      ensures Covered(cs[j])
    {
      assert Refines(sub.children[j], cs[j], count);
    }
  }

  /** One more refined child extends the refined prefix. */
  lemma RefinedAppend(kids: seq<Node>, cs: seq<Node>, d: Node, count: nat)
    requires |cs| < |kids|
    requires forall j :: 0 <= j < |cs| ==> Refines(kids[j], cs[j], count)
    requires Refines(kids[|cs|], d, count)
    ensures forall j :: 0 <= j < |cs| + 1 ==> Refines(kids[j], (cs + [d])[j], count)
  {
    forall j | 0 <= j < |cs| + 1
      ensures Refines(kids[j], (cs + [d])[j], count)
    {
      if j < |cs| {
        assert (cs + [d])[j] == cs[j];
      }
    }
  }

  /**
    recursively_subdivide: a node with more than `count` triangles is
    subdivided and each of its children, old and new, is treated the same way;
    a node within the bound is left alone. The bound must be positive: with
    zero a one-triangle node would be split into an empty and a one-triangle
    child for ever.
  */
  method RecursivelySubdivide(n: Node, count: nat) returns (m: Node)
    requires count >= 1
    ensures Refines(n, m, count)
    ensures |n.triangles| <= count ==> m == n
    ensures |n.triangles| > count ==> m.triangles == [] && |m.children| == |n.children| + 2
    decreases |AllTris(n)|
  {
    if |n.triangles| <= count {
      return n;
    }
    var res := Subdivide(n);
    var sub := res.value;
    ghost var a := SplitAxis(Size(n.volume));
    ghost var sorted := SortByKey(n.triangles, SoupKey, a);
    ghost var split := SplitPoint(sorted, a, Get(Center(n.volume), a));
    var cs: seq<Node> := [];
    for k := 0 to |sub.children|
      invariant |cs| == k
      invariant forall j :: 0 <= j < k ==> Refines(sub.children[j], cs[j], count)
    {
      SplitChildSmaller(n, sub, sorted, split, k);
      var d := RecursivelySubdivide(sub.children[k], count);
      RefinedAppend(sub.children, cs, d, count);
      cs := cs + [d];
    }
    AssembleRefined(n, sub, sorted, split, cs, count);
    m := Node(sub.volume, cs, []);
  }

  /**
    The accelerator's tree: the root built around all of the soup's triangles
    and subdivided with a bound of four triangles per node.
  */
  method BuildTree(soup: seq<SoupTriangle>) returns (root: Node)
    ensures multiset(AllTris(root)) == multiset(soup)
    ensures LeavesAtMost(root, 4)
    ensures Covered(root)
  {
    var n := NewNode(soup);
    NewNodeCovered(n);
    LeafTris(n);
    root := RecursivelySubdivide(n, 4);
  }

  // ---------------------------------------------------------------------
  // Casting rays

  /** std::min of two hits, taken to compare distances: the second wins only when strictly closer. */
  function MinHit(a: RayHit, b: RayHit): (h: RayHit)
    ensures h.distance == FMin(a.distance, b.distance)
    ensures h == a || h == b
  {
    if Lt(b.distance, a.distance) then b else a
  }

  /** The distance a node's cast_ray reports: HUGE_VALF when its volume is missed. */
  function NodeCast(n: Node, r: Ray): Float
    decreases n, 1
  {
    if !CheckRayIntersect(n.volume, r) then Huge
    else FMin(ChildrenCast(n, r, |n.children|), MinCand(Tris(n.triangles), r))
  }

  /** The closest of the first `k` children's reported distances. */
  function ChildrenCast(n: Node, r: Ray, k: nat): Float
    requires k <= |n.children|
    decreases n, 0, k
  {
    if k == 0 then Huge else FMin(ChildrenCast(n, r, k - 1), NodeCast(n.children[k - 1], r))
  }

  /** One step of the triangle loop: folding in triangle `k` extends the prefix minimum. */
  lemma TriangleStep(ts: seq<SoupTriangle>, k: nat, r: Ray, cc: Float, best: Float, h: RayHit)
    requires k < |ts| && best == FMin(cc, MinCand(Tris(ts)[..k], r))
    ensures var res := SoupTriangleCastRay(ts[k], r, h);
      FMin(cc, MinCand(Tris(ts)[..k + 1], r)) == (if res.0 then FMin(best, res.1.distance) else best)
  {
    var res := SoupTriangleCastRay(ts[k], r, h);
    var c := Cand(ts[k].tri, r);
    assert Tris(ts)[..k + 1] == Tris(ts)[..k] + [ts[k].tri];
    MinCandAppend(Tris(ts)[..k], [ts[k].tri], r);
    assert MinCand([ts[k].tri], r) == FMin(c, Huge);
    FMinAlgebra(c, Huge, Huge);
    FMinAlgebra(cc, MinCand(Tris(ts)[..k], r), c);
  }

  /** One step of the children loop: folding in child `k`'s result extends the prefix minimum. */
  lemma ChildStep(n: Node, r: Ray, k: nat, best: Float, ok: bool, d: Float)
    requires k < |n.children| && best == ChildrenCast(n, r, k)
    requires !CheckRayIntersect(n.children[k].volume, r) ==> !ok
    requires CheckRayIntersect(n.children[k].volume, r) ==> d == NodeCast(n.children[k], r) && (ok <==> d != Huge)
    ensures ChildrenCast(n, r, k + 1) == (if ok then FMin(best, d) else best)
  {
    FMinAlgebra(best, Huge, Huge);
  }

  /**
    bvh_node::cast_ray: when the volume is missed the hit record is left alone
    and the result is false; otherwise the record's distance is reset to
    HUGE_VALF and it takes the closest hit of the children and of the node's
    own triangles, and the result says whether there was one. A hit record is
    that of a triangle of the subtree; on no hit only the distance changed.
  */
  method CastRay(n: Node, r: Ray, best: RayHit) returns (hit: bool, best': RayHit)
    ensures !CheckRayIntersect(n.volume, r) ==> !hit && best' == best
    ensures CheckRayIntersect(n.volume, r) ==> best'.distance == NodeCast(n, r)
    ensures hit <==> CheckRayIntersect(n.volume, r) && NodeCast(n, r) != Huge
    ensures hit ==> exists t :: t in AllTris(n) && TriangleHit(t, best', r)
    ensures CheckRayIntersect(n.volume, r) && !hit ==> best' == best.(distance := Huge)
    decreases n, 1
  {
    if !CheckRayIntersect(n.volume, r) {
      return false, best;
    }
    var start := best.(distance := Huge);
    var fromChildren := CastChildren(n, r, start);
    FMinAlgebra(fromChildren.distance, Huge, Huge);
    best' := CastTriangles(n.triangles, r, fromChildren);
    hit := best'.distance != Huge;
  }

  /** The children's loop of cast_ray, from a record whose distance is HUGE_VALF. */
  method CastChildren(n: Node, r: Ray, start: RayHit) returns (best: RayHit)
    requires start.distance == Huge
    ensures best.distance == ChildrenCast(n, r, |n.children|)
    ensures best == start || exists t :: t in ChildTris(n, |n.children|) && TriangleHit(t, best, r)
    decreases n, 0
  {
    var h := MissHit;
    best := start;
    for k := 0 to |n.children|
      invariant best.distance == ChildrenCast(n, r, k)
      invariant best == start || exists t :: t in ChildTris(n, k) && TriangleHit(t, best, r)
    {
      var ok;
      ok, h := CastRay(n.children[k], r, h);
      ChildStep(n, r, k, best.distance, ok, h.distance);
      assert ChildTris(n, k + 1) == ChildTris(n, k) + AllTris(n.children[k]);
      if ok {
        best := MinHit(best, h);
      }
    }
  }

  /**
    The triangle loop of cast_ray: the record takes the closest accepted
    triangle when it beats the record's distance, and is otherwise unchanged.
  */
  method CastTriangles(ts: seq<SoupTriangle>, r: Ray, start: RayHit) returns (best: RayHit)
    ensures best.distance == FMin(start.distance, MinCand(Tris(ts), r))
    ensures best == start || (Lt(best.distance, start.distance) && exists t :: t in ts && TriangleHit(t, best, r))
  {
    var h := MissHit;
    best := start;
    FMinAlgebra(start.distance, Huge, Huge);
    for k := 0 to |ts|
      invariant best.distance == FMin(start.distance, MinCand(Tris(ts)[..k], r))
      invariant best == start || (Lt(best.distance, start.distance) && exists t :: t in ts[..k] && TriangleHit(t, best, r))
    {
      TriangleStep(ts, k, r, start.distance, best.distance, h);
      var res := SoupTriangleCastRay(ts[k], r, h);
      h := res.1;
      assert ts[..k + 1] == ts[..k] + [ts[k]];
      if res.0 {
        assert TriangleHit(ts[k], h, r);
        if Lt(h.distance, best.distance) {
          LtTotal(best.distance, start.distance);
          LtTrans(h.distance, best.distance, start.distance);
        }
        best := MinHit(best, h);
      }
    }
    assert Tris(ts)[..|ts|] == Tris(ts);
    assert ts[..|ts|] == ts;
  }

  /** The triangles of a concatenation are the concatenation of the triangles. */
  lemma TrisAppend(a: seq<SoupTriangle>, b: seq<SoupTriangle>)
    ensures Tris(a + b) == Tris(a) + Tris(b)
  {
  }

  /**
    On a covered tree the recursive cast finds the closest candidate among all
    of the subtree's triangles: pruning by volume loses nothing.
  */
  lemma {:induction false} CastMatchesScan(n: Node, r: Ray)
    requires Covered(n)
    ensures NodeCast(n, r) == MinCand(Tris(AllTris(n)), r)
    decreases n, 1
  {
    var all := Tris(AllTris(n));
    if !CheckRayIntersect(n.volume, r) {
      MinCandIsMin(all, r);
      if MinCand(all, r) != Huge {
        var k :| 0 <= k < |all| && Cand(all[k], r) == MinCand(all, r);
        assert AllTris(n)[k] in AllTris(n);
        CandInsideVolume(all[k], r, n.volume);
      }
    } else {
      ChildrenMatchScan(n, r, |n.children|);
      TrisAppend(n.triangles, ChildTris(n, |n.children|));
      MinCandAppend(Tris(n.triangles), Tris(ChildTris(n, |n.children|)), r);
      FMinAlgebra(ChildrenCast(n, r, |n.children|), MinCand(Tris(n.triangles), r), Huge);
    }
  }

  /** The children's loop finds the closest candidate among the children's triangles. */
  lemma {:induction false} ChildrenMatchScan(n: Node, r: Ray, k: nat)
    requires Covered(n) && k <= |n.children|
    ensures ChildrenCast(n, r, k) == MinCand(Tris(ChildTris(n, k)), r)
    decreases n, 0, k
  {
    if k > 0 {
      ChildrenMatchScan(n, r, k - 1);
      CastMatchesScan(n.children[k - 1], r);
      TrisAppend(ChildTris(n, k - 1), AllTris(n.children[k - 1]));
      MinCandAppend(Tris(ChildTris(n, k - 1)), Tris(AllTris(n.children[k - 1])), r);
    }
  }

  /** The closest distance among the intersections a list of oracles reported. */
  function MinIsec(isecs: seq<Option<Intersection>>): Float
    decreases |isecs|
  {
    if |isecs| == 0 then Huge
    else
      var last := isecs[|isecs| - 1];
      FMin(MinIsec(isecs[..|isecs| - 1]), if last.Some? then last.value.distance else Huge)
  }

  /** The hit record is the one a primitive's cast_ray fills in from `isec`. */
  predicate IsecHit(isec: Option<Intersection>, obj: nat, h: RayHit) {
    && isec.Some? && h.distance == isec.value.distance && h.position == isec.value.position
    && h.direction == isec.value.direction && h.normal == isec.value.normal && h.obj == obj
  }

  /** Some sphere's, some plane's or some triangle of the tree's hit record. */
  ghost predicate AcceleratorHit(root: Node, spheres: seq<SoupSphere>, sphereIsecs: seq<Option<Intersection>>,
                                 planes: seq<SoupPlane>, planeIsecs: seq<Option<Intersection>>, r: Ray, h: RayHit)
    requires |sphereIsecs| == |spheres| && |planeIsecs| == |planes|
  {
    || (exists k :: 0 <= k < |spheres| && IsecHit(sphereIsecs[k], spheres[k].obj, h))
    || (exists k :: 0 <= k < |planes| && IsecHit(planeIsecs[k], planes[k].obj, h))
    || (exists t :: t in AllTris(root) && TriangleHit(t, h, r))
  }

  /**
    bvh_accelerator::cast_ray: the caller's record has its distance reset to
    HUGE_VALF and takes the closest of the spheres' and planes' hits (each
    primitive's ray_intersect result is given, as that geometry is not part of
    this model) and of the tree's hit; true when there is any. A hit record is
    that of one of those primitives; on no hit only the distance changed.
  */
  method AcceleratorCastRay(root: Node, spheres: seq<SoupSphere>, sphereIsecs: seq<Option<Intersection>>,
                            planes: seq<SoupPlane>, planeIsecs: seq<Option<Intersection>>, r: Ray,
                            bestIn: RayHit)
    returns (hit: bool, best: RayHit)
    requires |sphereIsecs| == |spheres| && |planeIsecs| == |planes|
    ensures best.distance == FMin(FMin(MinIsec(sphereIsecs), MinIsec(planeIsecs)), NodeCast(root, r))
    ensures hit <==> best.distance != Huge
    ensures hit ==> AcceleratorHit(root, spheres, sphereIsecs, planes, planeIsecs, r, best)
    ensures !hit ==> best == bestIn.(distance := Huge)
  {
    var start := bestIn.(distance := Huge);
    var h;
    best, h := CastSpheres(spheres, sphereIsecs, start);
    var fromSpheres := best;
    best, h := CastPlanes(planes, planeIsecs, fromSpheres, h);
    var ok;
    ok, h := CastRay(root, r, h);
    if ok {
      best := MinHit(best, h);
    } else {
      FMinAlgebra(best.distance, Huge, Huge);
    }
    hit := best.distance != Huge;
  }

  /** The spheres' loop of bvh_accelerator::cast_ray. */
  method CastSpheres(spheres: seq<SoupSphere>, sphereIsecs: seq<Option<Intersection>>, start: RayHit)
    returns (best: RayHit, h: RayHit)
    requires |sphereIsecs| == |spheres| && start.distance == Huge
    ensures best.distance == MinIsec(sphereIsecs)
    ensures best == start || (best.distance != Huge && exists k :: 0 <= k < |spheres| && IsecHit(sphereIsecs[k], spheres[k].obj, best))
  {
    h := MissHit;
    best := start;
    for k := 0 to |spheres|
      invariant best.distance == MinIsec(sphereIsecs[..k])
      invariant best == start || (best.distance != Huge && exists j :: 0 <= j < k && IsecHit(sphereIsecs[j], spheres[j].obj, best))
    {
      assert sphereIsecs[..k + 1][..k] == sphereIsecs[..k];
      var res := SoupSphereCastRay(spheres[k], sphereIsecs[k], h);
      h := res.1;
      if res.0 {
        assert IsecHit(sphereIsecs[k], spheres[k].obj, h);
        best := MinHit(best, h);
      } else {
        FMinAlgebra(best.distance, Huge, Huge);
      }
    }
    assert sphereIsecs[..|spheres|] == sphereIsecs;
  }

  /** The planes' loop of bvh_accelerator::cast_ray, after the spheres'. */
  method CastPlanes(planes: seq<SoupPlane>, planeIsecs: seq<Option<Intersection>>, start: RayHit, h0: RayHit)
    returns (best: RayHit, h: RayHit)
    requires |planeIsecs| == |planes|
    ensures best.distance == FMin(start.distance, MinIsec(planeIsecs))
    ensures best == start || (best.distance != Huge && exists k :: 0 <= k < |planes| && IsecHit(planeIsecs[k], planes[k].obj, best))
  {
    h := h0;
    best := start;
    FMinAlgebra(start.distance, Huge, Huge);
    for k := 0 to |planes|
      invariant best.distance == FMin(start.distance, MinIsec(planeIsecs[..k]))
      invariant best == start || (best.distance != Huge && exists j :: 0 <= j < k && IsecHit(planeIsecs[j], planes[j].obj, best))
    {
      assert planeIsecs[..k + 1][..k] == planeIsecs[..k];
      var res := SoupPlaneCastRay(planes[k], planeIsecs[k], h);
      FMinAlgebra(start.distance, MinIsec(planeIsecs[..k]), if res.0 then res.1.distance else Huge);
      h := res.1;
      if res.0 {
        assert IsecHit(planeIsecs[k], planes[k].obj, h);
        best := MinHit(best, h);
      } else {
        FMinAlgebra(best.distance, Huge, Huge);
      }
    }
    assert planeIsecs[..|planes|] == planeIsecs;
  }

  /**
    On a built tree the accelerator finds the closest of the spheres', the
    planes' and all of the soup's triangle candidates.
  */
  lemma AcceleratorFindsClosest(root: Node, soup: seq<SoupTriangle>, r: Ray)
    requires Covered(root) && multiset(AllTris(root)) == multiset(soup)
    ensures NodeCast(root, r) == MinCand(Tris(soup), r)
  {
    CastMatchesScan(root, r);
    TrisPermutation(AllTris(root), soup);
    MinCandPermutation(Tris(AllTris(root)), Tris(soup), r);
  }

  /** Removing one soup triangle removes its triangle. */
  lemma TrisRemove(b: seq<SoupTriangle>, j: nat)
    requires j < |b|
    ensures multiset(Tris(b)) == multiset(Tris(b[..j] + b[j + 1..])) + multiset{b[j].tri}
  {
    assert b == b[..j] + [b[j]] + b[j + 1..];
    TrisAppend(b[..j] + [b[j]], b[j + 1..]);
    TrisAppend(b[..j], [b[j]]);
    TrisAppend(b[..j], b[j + 1..]);
  }

  /** Reordering soup triangles reorders their triangles. */
  lemma {:induction false} TrisPermutation(a: seq<SoupTriangle>, b: seq<SoupTriangle>)
    requires multiset(a) == multiset(b)
    ensures multiset(Tris(a)) == multiset(Tris(b))
    decreases |a|
  {
    if |a| == 0 {
      assert |multiset(b)| == 0;
    } else {
      var x := a[0];
      assert x in multiset(b);
      var j :| 0 <= j < |b| && b[j] == x;
      var b' := b[..j] + b[j + 1..];
      assert b == b[..j] + [x] + b[j + 1..];
      assert multiset(b') == multiset(b) - multiset{x};
      assert a == [x] + a[1..];
      assert multiset(a[1..]) == multiset(a) - multiset{x};
      TrisPermutation(a[1..], b');
      TrisRemove(b, j);
      TrisRemove(a, 0);
      assert a[..0] + a[1..] == a[1..];
    }
  }
}

=== FILE: bvh_shape.dfy ===
/**
  The shape of the SAH tree as the builder leaves it (src/bvh_tree.cpp:44-186):
  what every node's range, children and volume satisfy. Each node is given the
  range of the triangle array it covers (for an interior node, the range it
  held before it was split); the predicates below relate the tree storage,
  the triangle array and those ranges.
*/
module BvhShapes {
  import opened Wrappers
  import opened Vectors
  import opened Aabb
  import opened Primitives
  import opened LinearTrees
  import opened BvhSplits

  type Nodes = seq<Option<BvhNode>>

  /** A half-open range `[lo, hi)` of the triangle array. */
  type Span = (nat, nat)

  predicate Disjoint(a: Span, b: Span) {
    a.1 <= b.0 || b.1 <= a.0
  }

  /** `a` lies inside `b`. */
  predicate Within(a: Span, b: Span) {
    b.0 <= a.0 && a.1 <= b.1
  }

  /** Every node with a value has a non-empty range inside the triangle array. */
  ghost predicate Spanned(nodes: Nodes, tris: seq<Triangle>, sp: map<Index, Span>) {
    forall i: Index :: i < |nodes| && nodes[i].Some? ==> i in sp && sp[i].0 < sp[i].1 <= |tris|
  }

  /** A leaf's `[begin, end)` is its range. */
  ghost predicate LeavesMatch(nodes: Nodes, sp: map<Index, Span>) {
    forall i: Index :: i < |nodes| && nodes[i].Some? && IsLeaf(nodes[i].value) ==>
      i in sp && nodes[i].value.begin == sp[i].0 && nodes[i].value.end == sp[i].1
  }

  /** Slot `i` holds an interior node. */
  ghost predicate Interior(nodes: Nodes, i: Index) {
    i < |nodes| && nodes[i].Some? && !IsLeaf(nodes[i].value)
  }

  /**
    An interior node has both children, whose ranges split its own in two.
    The quantifier fires only on an `Interior` term: a child's slot must not
    set off the same fact for the child's children.
  */
  ghost predicate InteriorsSplit(nodes: Nodes, sp: map<Index, Span>) {
    forall i: Index {:trigger Interior(nodes, i)} :: Interior(nodes, i) ==>
      HasValue(nodes, Left(i)) && HasValue(nodes, Right(i))
      && i in sp && Left(i) in sp && Right(i) in sp
      && sp[Left(i)].0 == sp[i].0 && sp[Left(i)].1 == sp[Right(i)].0 && sp[Right(i)].1 == sp[i].1
  }

  /** A node's volume contains the box of every triangle in its range. */
  ghost predicate VolumesCover(nodes: Nodes, tris: seq<Triangle>, sp: map<Index, Span>) {
    forall i: Index, x :: i < |nodes| && nodes[i].Some? && i in sp && sp[i].0 <= x < sp[i].1 && x < |tris| ==>
      Contains(nodes[i].value.volume, TriBox(tris[x]))
  }

  /**
    Every node with a value, except the root, has an interior parent. The
    quantifier fires only on a `Parent` term, so that the parent's slot does
    not set off the same fact for the grandparent.
  */
  ghost predicate ParentsInterior(nodes: Nodes) {
    forall j: Index {:trigger Parent(j)} :: 0 < j < |nodes| && nodes[j].Some? ==> Interior(nodes, Parent(j))
  }

  /**
    The range of a leaf and the range of any other node are disjoint, or the
    other node's range strictly encloses the leaf's.
  */
  ghost predicate LeavesSeparate(nodes: Nodes, sp: map<Index, Span>) {
    forall i: Index, j: Index ::
      i < |nodes| && nodes[i].Some? && IsLeaf(nodes[i].value) && j < |nodes| && nodes[j].Some?
      && j != i && i in sp && j in sp ==>
      Disjoint(sp[i], sp[j]) || (Within(sp[i], sp[j]) && sp[i] != sp[j])
  }

  /** The root has a value exactly when there are triangles, and covers all of them. */
  ghost predicate RootCovers(nodes: Nodes, tris: seq<Triangle>, sp: map<Index, Span>) {
    (HasValue(nodes, Root) <==> |tris| > 0) && (HasValue(nodes, Root) ==> Root in sp && sp[Root] == (0, |tris|))
  }

  ghost predicate Shape(nodes: Nodes, tris: seq<Triangle>, sp: map<Index, Span>) {
    |nodes| <= MaxNodes && Spanned(nodes, tris, sp) && LeavesMatch(nodes, sp) && InteriorsSplit(nodes, sp)
    && VolumesCover(nodes, tris, sp) && ParentsInterior(nodes) && LeavesSeparate(nodes, sp)
    && RootCovers(nodes, tris, sp)
  }

  // ---------------------------------------------------------------------
  // The tree right after the constructor emplaced the root

  /** No triangles: no node has a value. */
  lemma EmptyShape(nodes: Nodes, tris: seq<Triangle>)
    requires |nodes| <= MaxNodes && |tris| == 0
    requires forall k :: 0 <= k < |nodes| ==> nodes[k] == None
    ensures Shape(nodes, tris, map[])
  {
  }

  /** Only the root, a leaf over every triangle. */
  lemma RootShape(nodes: Nodes, tris: seq<Triangle>)
    requires 1 <= |nodes| <= MaxNodes && |tris| > 0
    requires nodes[0] == Some(BvhNode(Hull(tris), 0, |tris|))
    requires forall k :: 0 < k < |nodes| ==> nodes[k] == None
    ensures Shape(nodes, tris, map[Root := (0, |tris|)])
  {
    HullContains(tris);
    assert tris[0..|tris|] == tris;
  }

  // ---------------------------------------------------------------------
  // One split of the builder

  /** Leaf `i` with range `[lo, hi)` of the old tree is split at `m`, and the storage may have grown. */
  ghost predicate SplitCore(n0: Nodes, s0: map<Index, Span>, i: Index, m: nat, n1: Nodes) {
    |n0| <= |n1| <= MaxNodes && i < |n0| && n0[i].Some? && IsLeaf(n0[i].value) && i in s0
    && s0[i].0 < m < s0[i].1 && Left(i) < |n1| && Right(i) < |n1|
  }

  /** Every slot but the node and its two children keeps its value (a new slot is empty). */
  ghost predicate NodesFrame(n0: Nodes, i: Index, n1: Nodes) {
    forall k: Index :: k < |n1| && k != i && k != Left(i) && k != Right(i) ==>
      n1[k] == (if k < |n0| then n0[k] else None)
  }

  /** The range `[lo, hi)` of the triangle array is permuted in place. */
  ghost predicate Permuted(t0: seq<Triangle>, lo: nat, hi: nat, t1: seq<Triangle>) {
    lo <= hi <= |t0| && |t1| == |t0|
    && (forall x :: 0 <= x < |t0| && !(lo <= x < hi) ==> t1[x] == t0[x])
    && multiset(t1[lo..hi]) == multiset(t0[lo..hi])
  }

  /** The children hold `[lo, m)` and `[m, hi)` with their hulls; the node's pointers are cleared. */
  ghost predicate NewNodes(n0: Nodes, i: Index, lo: nat, m: nat, hi: nat, n1: Nodes, t1: seq<Triangle>)
    requires i < |n0| && n0[i].Some? && Left(i) < |n1| && Right(i) < |n1| && i < |n1|
    requires lo < m < hi <= |t1|
  {
    n1[i] == Some(BvhNode(n0[i].value.volume, 0, 0))
    && n1[Left(i)] == Some(BvhNode(Hull(t1[lo..m]), lo, m))
    && n1[Right(i)] == Some(BvhNode(Hull(t1[m..hi]), m, hi))
  }

  /**
    The state after leaf `i` with range `[lo, hi)` is split at `m`: the range
    of the triangle array is permuted in place, the children get `[lo, m)` and
    `[m, hi)` with their hulls, the node's own pointers are cleared, the
    storage may have grown, and nothing else changes.
  */
  ghost predicate SplitStep(n0: Nodes, t0: seq<Triangle>, s0: map<Index, Span>, i: Index, m: nat,
                            n1: Nodes, t1: seq<Triangle>, s1: map<Index, Span>)
  {
    SplitCore(n0, s0, i, m, n1) && s0[i].1 <= |t0|
    && Permuted(t0, s0[i].0, s0[i].1, t1)
    && NodesFrame(n0, i, n1)
    && NewNodes(n0, i, s0[i].0, m, s0[i].1, n1, t1)
    && s1 == s0[Left(i) := (s0[i].0, m)][Right(i) := (m, s0[i].1)]
  }

  /** A leaf's children have no value. */
  lemma LeafChildrenEmpty(nodes: Nodes, i: Index)
    requires |nodes| <= MaxNodes && ParentsInterior(nodes)
    requires i < |nodes| && nodes[i].Some? && IsLeaf(nodes[i].value)
    ensures !HasValue(nodes, Left(i)) && !HasValue(nodes, Right(i))
  {
    ParentOfChildren(i);
  }

  /** An element of a permuted range came from somewhere in that range. */
  lemma PermutedFrom(t0: seq<Triangle>, t1: seq<Triangle>, lo: nat, hi: nat, x: nat)
    requires lo <= x < hi <= |t0| == |t1|
    requires multiset(t1[lo..hi]) == multiset(t0[lo..hi])
    ensures exists y :: lo <= y < hi && t0[y] == t1[x]
  {
    assert t1[lo..hi][x - lo] == t1[x];
    assert t1[x] in multiset(t0[lo..hi]);
    var z :| 0 <= z < hi - lo && t0[lo..hi][z] == t1[x];
    assert t0[lo + z] == t1[x];
  }

  /** The split node's children: their indices, and that neither had a value before. */
  ghost predicate FreshChildren(n0: Nodes, i: Index) {
    Left(i) == 2 * i + 1 && Right(i) == 2 * i + 2 && Parent(Left(i)) == i && Parent(Right(i)) == i
    && !HasValue(n0, Left(i)) && !HasValue(n0, Right(i))
  }

  /** The facts about the split's indices that every part of the proof uses. */
  lemma SplitIndices(n0: Nodes, s0: map<Index, Span>, i: Index, m: nat, n1: Nodes)
    requires SplitCore(n0, s0, i, m, n1) && ParentsInterior(n0)
    ensures FreshChildren(n0, i)
  {
    ParentOfChildren(i);
    LeafChildrenEmpty(n0, i);
  }

  lemma SplitSpanned(n0: Nodes, t0: seq<Triangle>, s0: map<Index, Span>, i: Index, m: nat,
                     n1: Nodes, t1: seq<Triangle>, s1: map<Index, Span>)
    requires Spanned(n0, t0, s0) && LeavesMatch(n0, s0) && FreshChildren(n0, i)
    requires SplitStep(n0, t0, s0, i, m, n1, t1, s1)
    ensures Spanned(n1, t1, s1) && LeavesMatch(n1, s1)
  {
    forall k: Index | k < |n1| && n1[k].Some?
      ensures k in s1 && s1[k].0 < s1[k].1 <= |t1|
      ensures IsLeaf(n1[k].value) ==> n1[k].value.begin == s1[k].0 && n1[k].value.end == s1[k].1
    {
      if k != i && k != Left(i) && k != Right(i) {
        assert k < |n0| && n1[k] == n0[k] && s1[k] == s0[k];
      }
    }
  }

  lemma SplitInteriors(n0: Nodes, t0: seq<Triangle>, s0: map<Index, Span>, i: Index, m: nat,
                       n1: Nodes, t1: seq<Triangle>, s1: map<Index, Span>)
    requires InteriorsSplit(n0, s0) && FreshChildren(n0, i)
    requires SplitStep(n0, t0, s0, i, m, n1, t1, s1)
    ensures InteriorsSplit(n1, s1)
  {
    forall k: Index | Interior(n1, k)
      ensures HasValue(n1, Left(k)) && HasValue(n1, Right(k))
      ensures k in s1 && Left(k) in s1 && Right(k) in s1
      ensures s1[Left(k)].0 == s1[k].0 && s1[Left(k)].1 == s1[Right(k)].0 && s1[Right(k)].1 == s1[k].1
    {
      if k != i {
        assert k != Left(i) && k != Right(i);
        assert k < |n0| && n1[k] == n0[k];
        assert Interior(n0, k);
        ParentOfChildren(k);
        assert Left(k) != Left(i) && Left(k) != Right(i) && Right(k) != Left(i) && Right(k) != Right(i);
        assert n1[Left(k)] == n0[Left(k)] || Left(k) == i;
        assert n1[Right(k)] == n0[Right(k)] || Right(k) == i;
      }
    }
  }

  lemma SplitVolumes(n0: Nodes, t0: seq<Triangle>, s0: map<Index, Span>, i: Index, m: nat,
                     n1: Nodes, t1: seq<Triangle>, s1: map<Index, Span>)
    requires VolumesCover(n0, t0, s0) && LeavesSeparate(n0, s0) && FreshChildren(n0, i)
    requires SplitStep(n0, t0, s0, i, m, n1, t1, s1)
    ensures VolumesCover(n1, t1, s1)
  {
    var lo, hi := s0[i].0, s0[i].1;
    var l, r := Left(i), Right(i);
    HullContains(t1[lo..m]);
    HullContains(t1[m..hi]);
    forall k: Index, x | k < |n1| && n1[k].Some? && k in s1 && s1[k].0 <= x < s1[k].1 && x < |t1|
      ensures Contains(n1[k].value.volume, TriBox(t1[x]))
    {
      if k == l {
        assert t1[lo..m][x - lo] == t1[x];
      } else if k == r {
        assert t1[m..hi][x - m] == t1[x];
      } else {
        assert k < |n0| && n0[k].Some? && n1[k].value.volume == n0[k].value.volume && s1[k] == s0[k];
        if lo <= x < hi {
          assert k == i || Within(s0[i], s0[k]);
          PermutedFrom(t0, t1, lo, hi, x);
          var y :| lo <= y < hi && t0[y] == t1[x];
          assert Contains(n0[k].value.volume, TriBox(t0[y]));
        } else {
          assert t1[x] == t0[x];
        }
      }
    }
  }

  lemma SplitParents(n0: Nodes, t0: seq<Triangle>, s0: map<Index, Span>, i: Index, m: nat,
                     n1: Nodes, t1: seq<Triangle>, s1: map<Index, Span>)
    requires ParentsInterior(n0) && RootCovers(n0, t0, s0)
    requires SplitStep(n0, t0, s0, i, m, n1, t1, s1)
    ensures ParentsInterior(n1) && RootCovers(n1, t1, s1)
  {
    SplitIndices(n0, s0, i, m, n1);
    forall j: Index | 0 < j < |n1| && n1[j].Some?
      ensures HasValue(n1, Parent(j)) && !IsLeaf(n1[Parent(j)].value)
    {
      if j != Left(i) && j != Right(i) {
        assert j < |n0| && n0[j].Some?;
        ChildOfParent(j);
        var p := Parent(j);
        assert p != Left(i) && p != Right(i) && p != i;
        assert n1[p] == n0[p];
      }
    }
    assert Root != Left(i) && Root != Right(i);
  }

  lemma SplitSeparate(n0: Nodes, t0: seq<Triangle>, s0: map<Index, Span>, i: Index, m: nat,
                      n1: Nodes, t1: seq<Triangle>, s1: map<Index, Span>)
    requires Spanned(n0, t0, s0) && LeavesSeparate(n0, s0) && FreshChildren(n0, i)
    requires SplitStep(n0, t0, s0, i, m, n1, t1, s1)
    ensures LeavesSeparate(n1, s1)
  {
    var l, r := Left(i), Right(i);
    forall a: Index, b: Index |
      a < |n1| && n1[a].Some? && IsLeaf(n1[a].value) && b < |n1| && n1[b].Some?
      && b != a && a in s1 && b in s1
      ensures Disjoint(s1[a], s1[b]) || (Within(s1[a], s1[b]) && s1[a] != s1[b])
    {
      if a != l && a != r {
        assert a != i;
        assert a < |n0| && n0[a] == n1[a] && s1[a] == s0[a];
        if b == l || b == r {
          assert Disjoint(s0[a], s0[i]);
        } else {
          assert b < |n0| && n0[b].Some? && s1[b] == s0[b];
        }
      } else if b != l && b != r && b != i {
        assert b < |n0| && n0[b] == n1[b] && s1[b] == s0[b];
      }
    }
  }

  /** A split keeps the whole shape. */
  lemma SplitKeepsShape(n0: Nodes, t0: seq<Triangle>, s0: map<Index, Span>, i: Index, m: nat,
                        n1: Nodes, t1: seq<Triangle>, s1: map<Index, Span>)
    requires Shape(n0, t0, s0) && SplitStep(n0, t0, s0, i, m, n1, t1, s1)
    ensures Shape(n1, t1, s1)
  {
    SplitIndices(n0, s0, i, m, n1);
    SplitSpanned(n0, t0, s0, i, m, n1, t1, s1);
    SplitInteriors(n0, t0, s0, i, m, n1, t1, s1);
    SplitVolumes(n0, t0, s0, i, m, n1, t1, s1);
    SplitParents(n0, t0, s0, i, m, n1, t1, s1);
    SplitSeparate(n0, t0, s0, i, m, n1, t1, s1);
  }

  /**
    Writing a permuted copy of a range back into the array permutes that range
    in place, and so the whole array.
  */
  lemma WriteBackPermutes(t0: seq<Triangle>, d: seq<Triangle>, lo: nat, hi: nat)
    requires lo <= hi <= |t0| && multiset(d) == multiset(t0[lo..hi])
    ensures Permuted(t0, lo, hi, t0[..lo] + d + t0[hi..])
    ensures (t0[..lo] + d + t0[hi..])[lo..hi] == d
    ensures multiset(t0[..lo] + d + t0[hi..]) == multiset(t0)
  {
    var t1 := t0[..lo] + d + t0[hi..];
    assert |d| == hi - lo by {
      assert |multiset(d)| == |multiset(t0[lo..hi])|;
    }
    assert t1[lo..hi] == d;
    assert t0 == t0[..lo] + t0[lo..hi] + t0[hi..];
  }

  // ---------------------------------------------------------------------
  // What the shape says about the leaves

  /** Every position of the triangle array lies in the range of some leaf. */
  lemma {:induction false} LeafCovers(nodes: Nodes, tris: seq<Triangle>, sp: map<Index, Span>, i: Index, x: nat)
    requires Shape(nodes, tris, sp)
    requires i < |nodes| && nodes[i].Some? && i in sp && sp[i].0 <= x < sp[i].1
    ensures exists j: Index :: j < |nodes| && nodes[j].Some? && IsLeaf(nodes[j].value)
                               && nodes[j].value.begin <= x < nodes[j].value.end
    decreases sp[i].1 - sp[i].0
  {
    if !IsLeaf(nodes[i].value) {
      assert Interior(nodes, i);
      var l, r := Left(i), Right(i);
      if x < sp[l].1 {
        LeafCovers(nodes, tris, sp, l, x);
      } else {
        LeafCovers(nodes, tris, sp, r, x);
      }
    }
  }

  /**
    The leaves partition the triangle array: every triangle lies in exactly one
    leaf's `[begin, end)`.
  */
  lemma LeavesPartition(nodes: Nodes, tris: seq<Triangle>, sp: map<Index, Span>, x: nat)
    requires Shape(nodes, tris, sp) && x < |tris|
    ensures exists j: Index :: j < |nodes| && nodes[j].Some? && IsLeaf(nodes[j].value)
                               && nodes[j].value.begin <= x < nodes[j].value.end
    ensures forall a: Index, b: Index ::
      a < |nodes| && nodes[a].Some? && IsLeaf(nodes[a].value) && nodes[a].value.begin <= x < nodes[a].value.end
      && b < |nodes| && nodes[b].Some? && IsLeaf(nodes[b].value) && nodes[b].value.begin <= x < nodes[b].value.end
      ==> a == b
  {
    LeafCovers(nodes, tris, sp, Root, x);
    forall a: Index, b: Index |
      a < |nodes| && nodes[a].Some? && IsLeaf(nodes[a].value) && nodes[a].value.begin <= x < nodes[a].value.end
      && b < |nodes| && nodes[b].Some? && IsLeaf(nodes[b].value) && nodes[b].value.begin <= x < nodes[b].value.end
      ensures a == b
    {
      if a != b {
        LeavesDisjoint(nodes, tris, sp, a, b);
      }
    }
  }

  /** Two different leaves have disjoint ranges. */
  lemma LeavesDisjoint(nodes: Nodes, tris: seq<Triangle>, sp: map<Index, Span>, a: Index, b: Index)
    requires Spanned(nodes, tris, sp) && LeavesMatch(nodes, sp) && LeavesSeparate(nodes, sp)
    requires a < |nodes| && nodes[a].Some? && IsLeaf(nodes[a].value)
    requires b < |nodes| && nodes[b].Some? && IsLeaf(nodes[b].value) && a != b
    ensures nodes[a].value.end <= nodes[b].value.begin || nodes[b].value.end <= nodes[a].value.begin
  {
  }
}

=== FILE: bvh_splits.dfy ===
/**
  The per-node pieces of the SAH builder (src/bvh_tree.cpp): the node record
  and its bounding volume, the surface-area cost of a split, the sweep over
  every split of a sorted copy, the choice between the three axes and the
  decision to leave a node as a leaf.
*/
module BvhSplits {
  import opened Vectors
  import opened Aabb
  import opened Primitives
  import opened CentroidSort

  /**
    bvh_tree_node: a bounding volume and a `[begin, end)` range of the
    triangle array, as indices. An interior node has both pointers set to
    `nullptr`, modelled as `begin == end == 0`.
  */
  datatype BvhNode = BvhNode(volume: Box, begin: nat, end: nat)

  /** The traversal's leaf test `node->begin != node->end`. */
  predicate IsLeaf(n: BvhNode) {
    n.begin != n.end
  }

  /** The box grown over a non-empty sequence of triangles, first to last. */
  function Hull(ts: seq<Triangle>): Box
    requires |ts| > 0
  {
    if |ts| == 1 then TriBox(ts[0]) else Union(Hull(ts[..|ts| - 1]), TriBox(ts[|ts| - 1]))
  }

  /** The hull is an ordered box holding every triangle's box. */
  lemma {:induction false} HullContains(ts: seq<Triangle>)
    requires |ts| > 0
    ensures Ordered(Hull(ts))
    ensures forall k :: 0 <= k < |ts| ==> Contains(Hull(ts), TriBox(ts[k]))
  {
    if |ts| > 1 {
      var init := ts[..|ts| - 1];
      var h := Hull(init);
      HullContains(init);
      UnionOrdered(h, TriBox(ts[|ts| - 1]));
      forall k | 0 <= k < |ts| - 1
        ensures Contains(Hull(ts), TriBox(ts[k]))
      {
        assert init[k] == ts[k];
        ContainsTransitive(Hull(ts), h, TriBox(ts[k]));
      }
    }
  }

  /** The hull is the smallest box holding every triangle's box. */
  lemma {:induction false} HullLeast(ts: seq<Triangle>, c: Box)
    requires |ts| > 0
    requires forall k :: 0 <= k < |ts| ==> Contains(c, TriBox(ts[k]))
    ensures Contains(c, Hull(ts))
  {
    if |ts| > 1 {
      var init := ts[..|ts| - 1];
      assert forall k :: 0 <= k < |init| ==> init[k] == ts[k];
      HullLeast(init, c);
      UnionLeast(Hull(init), TriBox(ts[|ts| - 1]), c);
    }
  }

  /**
    The node constructor: the volume starts as the first triangle's box and is
    grown by the box of every further triangle of `[b, e)`. The range must not
    be empty, since the first triangle is read.
  */
  method NewNode(tris: seq<Triangle>, b: nat, e: nat) returns (n: BvhNode)
    requires b < e <= |tris|
    ensures n.begin == b && n.end == e
    ensures n.volume == Hull(tris[b..e])
  {
    var vol := TriBox(tris[b]);
    var p := b + 1;
    assert tris[b..p] == [tris[b]];
    while p < e
      invariant b < p <= e
      invariant vol == Hull(tris[b..p])
    {
      assert tris[b..p + 1][..p - b] == tris[b..p];
      vol := Union(vol, TriBox(tris[p]));
      p := p + 1;
    }
    n := BvhNode(vol, b, e);
  }

  // ---------------------------------------------------------------------
  // Surface area heuristic

  /** The cost of intersecting one triangle, `ci`. */
  const Ci: real := 1.0

  /** The cost of a traversal step, `ct`. */
  const Ct: real := 4.0

  /**
    The cost `ct + Sl / Sp * nl * ci + Sr / Sp * nr * ci` of putting the first
    `k` triangles of `data` on the left. With a parent area of zero the IEEE
    quotient is infinite or NaN, which never compares below the best cost; the
    model gives that case the cost HUGE_VALF.
  */
  function SplitCost(data: seq<Triangle>, k: nat, sp: real): (c: Float)
    requires 1 <= k < |data|
    ensures c.Fin? || c == Huge
  {
    Cost(SurfaceArea(Hull(data[..k])), SurfaceArea(Hull(data[k..])), sp, k, |data| - k)
  }

  /** The cost formula on the two areas and counts. */
  function Cost(sl: real, sr: real, sp: real, nl: nat, nr: nat): (c: Float)
    ensures c.Fin? || c == Huge
  {
    if sp == 0.0 then Huge else Fin(Ct + sl / sp * (nl as real) * Ci + sr / sp * (nr as real) * Ci)
  }

  /** The costs of the splits `1..n-1`, in sweep order: entry `k - 1` is split `k`. */
  function SplitCosts(data: seq<Triangle>, sp: real): (cs: seq<Float>)
    requires |data| >= 1
    ensures |cs| == |data| - 1
    ensures forall k :: 1 <= k < |data| ==> cs[k - 1] == SplitCost(data, k, sp)
  {
    seq(|data| - 1, i requires 0 <= i < |data| - 1 => SplitCost(data, i + 1, sp))
  }

  /**
    The sweep's bookkeeping over a sequence of costs: starting from split 0
    and cost HUGE_VALF, each cost replaces the best only when strictly lower.
    The split is the 1-based position of the winning cost.
  */
  function BestOf(cs: seq<Float>): (nat, Float) {
    if |cs| == 0 then (0, Huge)
    else
      var prev := BestOf(cs[..|cs| - 1]);
      if Lt(cs[|cs| - 1], prev.1) then (|cs|, cs[|cs| - 1]) else prev
  }

  /**
    The sweep keeps the first cheapest cost: it is no greater than any cost,
    strictly lower than every earlier one, and HUGE_VALF with split 0 exactly
    when no cost is lower than HUGE_VALF.
  */
  lemma {:induction false} BestOfIsFirstMin(cs: seq<Float>)
    requires forall k :: 0 <= k < |cs| ==> cs[k] != NegInf
    ensures var (split, cost) := BestOf(cs);
      && (cost == Huge ==> split == 0 && forall k :: 0 <= k < |cs| ==> cs[k] == Huge)
      && (cost != Huge ==> 1 <= split <= |cs| && cs[split - 1] == cost)
      && (forall k :: 0 <= k < |cs| ==> Le(cost, cs[k]))
      && (forall k :: 0 <= k < split - 1 ==> Lt(cost, cs[k]))
  {
    if |cs| > 0 {
      var init := cs[..|cs| - 1];
      assert forall k :: 0 <= k < |init| ==> init[k] == cs[k];
      BestOfIsFirstMin(init);
      var prev := BestOf(init);
      var x := cs[|cs| - 1];
      if Lt(x, prev.1) {
        forall k | 0 <= k < |init|
          ensures Lt(x, cs[k])
        {
          LtTrans(x, prev.1, cs[k]);
        }
      }
    }
  }

  /**
    The sweep of find_best_split over a sorted copy: split sizes `1..n-1` are
    tried in order and a cost replaces the best only when strictly lower.
  */
  method SweepSplits(data: seq<Triangle>, sp: real) returns (split: nat, cost: Float)
    requires |data| >= 1
    ensures (split, cost) == BestOf(SplitCosts(data, sp))
  {
    ghost var cs := SplitCosts(data, sp);
    split, cost := 0, Huge;
    var s := 0;
    while s < |data| - 1
      invariant 0 <= s <= |data| - 1
      invariant (split, cost) == BestOf(cs[..s])
    {
      var c := SplitCost(data, s + 1, sp);
      assert cs[..s + 1][..s] == cs[..s];
      if Lt(c, cost) {
        cost, split := c, s + 1;
      }
      s := s + 1;
    }
    assert cs[..s] == cs;
  }

  /**
    What the sweep's result means for the splits of `data`: the first split of
    least cost, or split 0 at HUGE_VALF when no split costs less; a single
    triangle tries no split at all.
  */
  lemma SweepIsFirstMin(data: seq<Triangle>, sp: real)
    requires |data| >= 1
    ensures var (split, cost) := BestOf(SplitCosts(data, sp));
      && (cost == Huge ==> split == 0 && forall k :: 1 <= k < |data| ==> SplitCost(data, k, sp) == Huge)
      && (cost != Huge ==> 1 <= split < |data| && SplitCost(data, split, sp) == cost && cost.Fin?)
      && (forall k :: 1 <= k < |data| ==> Le(cost, SplitCost(data, k, sp)))
      && (forall k :: 1 <= k < split ==> Lt(cost, SplitCost(data, k, sp)))
      && (|data| == 1 ==> cost == Huge)
  {
    var cs := SplitCosts(data, sp);
    BestOfIsFirstMin(cs);
    var (split, cost) := BestOf(cs);
    forall k | 1 <= k < split
      ensures Lt(cost, SplitCost(data, k, sp))
    {
      assert cs[k - 1] == SplitCost(data, k, sp);
    }
  }

  /**
    find_best_split for one axis: a copy of the range sorted by centroid along
    the axis, with the sweep's split and cost.
  */
  method FindBestSplit(range: seq<Triangle>, a: Axis, sp: real) returns (data: seq<Triangle>, split: nat, cost: Float)
    requires |range| >= 1
    ensures data == SortByKey(range, CentroidKey, a)
    ensures (split, cost) == BestOf(SplitCosts(data, sp))
  {
    data := SortByKey(range, CentroidKey, a);
    split, cost := SweepSplits(data, sp);
  }

  /** The cost reported for one axis. */
  function AxisCost(a: Axis, cx: Float, cy: Float, cz: Float): Float {
    match a
    case X => cx
    case Y => cy
    case Z => cz
  }

  /**
    The axis choice: x is assumed, y replaces it when strictly cheaper, and z
    replaces the winner so far when strictly cheaper. The chosen cost is the
    minimum of the three and ties go to x, then y.
  */
  function PickAxis(cx: Float, cy: Float, cz: Float): (a: Axis)
    ensures Le(AxisCost(a, cx, cy, cz), cx) && Le(AxisCost(a, cx, cy, cz), cy) && Le(AxisCost(a, cx, cy, cz), cz)
    ensures a == Y ==> Lt(cy, cx)
    ensures a == Z ==> Lt(cz, cx) && Lt(cz, cy)
  {
    var first := if Lt(cy, cx) then Y else X;
    LtTotal(cx, cy);
    LtTotal(cx, cz);
    LtTotal(cy, cz);
    LtTrans(cz, cy, cx);
    LtTrans(cz, cx, cy);
    LtTrans(cy, cx, cz);
    LtTrans(cx, cy, cz);
    if Lt(cz, AxisCost(first, cx, cy, cz)) then Z else first
  }

  /** `best_cost > np * ci`: the node stays a leaf; an equal cost still splits. */
  predicate StaysLeaf(cost: Float, np: nat): (r: bool)
    ensures cost == Huge ==> r
    ensures cost == NegInf ==> !r
    ensures cost.Fin? ==> (r <==> np as real * Ci < cost.v)
  {
    Lt(Fin(np as real * Ci), cost)
  }

  /** Where the sweep may leave the split: at 0 when nothing beat HUGE_VALF, strictly inside otherwise. */
  lemma SweepSplitRange(data: seq<Triangle>, sp: real, split: nat, cost: Float)
    requires |data| >= 1 && (split, cost) == BestOf(SplitCosts(data, sp))
    ensures cost == Huge ==> split == 0
    ensures cost != Huge ==> 1 <= split < |data|
  {
    SweepIsFirstMin(data, sp);
  }

  lemma SplitIsProper(n: nat, split: nat, cost: Float)
    requires n >= 1 && !StaysLeaf(cost, n)
    requires cost == Huge ==> split == 0
    requires cost != Huge ==> 1 <= split < n
    ensures 0 < split < n
  {
  }
}

=== FILE: bvh_tree.dfy ===
/**
  The SAH bounding volume hierarchy (src/bvh_tree.cpp): the constructor that
  gathers the scene's primitives and emplaces the root, the builder that
  splits leaves from an explicit work list, and the traversal that answers a
  closest-hit query with a fixed-capacity stack.
*/
module BvhTrees {
  import opened Wrappers
  import opened Vectors
  import opened Rays
  import opened Aabb
  import opened Primitives
  import opened SoupTriangles
  import opened CentroidSort
  import opened LinearTrees
  import opened LinearStacks
  import opened BvhSplits
  import opened BvhShapes
  import opened PrimitiveCollections

  /** The height the constructor gives `m_tree`. */
  const InitialHeight: int := 4

  /** The capacity of the traversal stack. */
  const StackSize: nat := 256

  // ---------------------------------------------------------------------
  // Gathering the scene

  function AllTriangles(cols: seq<CollectionValue>): seq<Triangle> {
    if |cols| == 0 then [] else AllTriangles(cols[..|cols| - 1]) + cols[|cols| - 1].triangles
  }

  function AllSpheres(cols: seq<CollectionValue>): seq<Sphere> {
    if |cols| == 0 then [] else AllSpheres(cols[..|cols| - 1]) + cols[|cols| - 1].spheres
  }

  function AllPlanes(cols: seq<CollectionValue>): seq<Plane> {
    if |cols| == 0 then [] else AllPlanes(cols[..|cols| - 1]) + cols[|cols| - 1].planes
  }

  /** The constructor's loop over the collections, appending each one's primitives in order. */
  method Gather(cols: seq<CollectionValue>) returns (ts: seq<Triangle>, ss: seq<Sphere>, ps: seq<Plane>)
    ensures ts == AllTriangles(cols) && ss == AllSpheres(cols) && ps == AllPlanes(cols)
  {
    ts, ss, ps := [], [], [];
    for k := 0 to |cols|
      invariant ts == AllTriangles(cols[..k]) && ss == AllSpheres(cols[..k]) && ps == AllPlanes(cols[..k])
    {
      assert cols[..k + 1][..k] == cols[..k];
      ts, ss, ps := ts + cols[k].triangles, ss + cols[k].spheres, ps + cols[k].planes;
    }
    assert cols[..|cols|] == cols;
  }

  // ---------------------------------------------------------------------
  // The builder's work list

  /** The work a range of `n` triangles can still cause: it splits into at most `2n - 1` nodes. */
  function Weight(n: nat): nat {
    if n == 0 then 0 else 2 * n - 1
  }

  function Pending(sizes: seq<nat>): nat {
    if |sizes| == 0 then 0 else Pending(sizes[..|sizes| - 1]) + Weight(sizes[|sizes| - 1])
  }

  /**
    The nodes waiting in `to_process` are distinct leaves with a value, and
    `sizes` holds the length of each one's range.
  */
  ghost predicate WorkList(nodes: Nodes, sp: map<Index, Span>, work: seq<Index>, sizes: seq<nat>) {
    |sizes| == |work|
    && (forall k :: 0 <= k < |work| ==>
          work[k] < |nodes| && nodes[work[k]].Some? && IsLeaf(nodes[work[k]].value)
          && work[k] in sp && sp[work[k]].0 + sizes[k] == sp[work[k]].1)
    && (forall a, b :: 0 <= a < b < |work| ==> work[a] != work[b])
  }

  /** The cheapest split cost of each axis for a range whose box has area `sp`. */
  ghost function AxisCosts(range: seq<Triangle>, sp: real): (Float, Float, Float)
    requires |range| >= 1
  {
    (BestOf(SplitCosts(SortByKey(range, CentroidKey, X), sp)).1,
     BestOf(SplitCosts(SortByKey(range, CentroidKey, Y), sp)).1,
     BestOf(SplitCosts(SortByKey(range, CentroidKey, Z), sp)).1)
  }

  /** The axis the builder picks for a range. */
  ghost function ChosenAxis(range: seq<Triangle>, sp: real): Axis
    requires |range| >= 1
  {
    var (cx, cy, cz) := AxisCosts(range, sp);
    PickAxis(cx, cy, cz)
  }

  /** The cost the builder settles on for a range: the cheapest split of the cheapest axis. */
  ghost function ChosenCost(range: seq<Triangle>, sp: real): Float
    requires |range| >= 1
  {
    var (cx, cy, cz) := AxisCosts(range, sp);
    AxisCost(ChosenAxis(range, sp), cx, cy, cz)
  }

  /** The cost the builder computes for a leaf. */
  ghost function LeafCost(tris: seq<Triangle>, n: BvhNode): Float
    requires n.begin < n.end <= |tris|
  {
    ChosenCost(tris[n.begin..n.end], SurfaceArea(n.volume))
  }

  /**
    The three per-axis sweeps and the choice among them: the sorted copy of
    the chosen axis with its split and cost. The three sweeps run as
    `std::async` tasks in the C++; here they run one after another.
  */
  method ChooseSplit(range: seq<Triangle>, sp: real) returns (data: seq<Triangle>, split: nat, cost: Float)
    requires |range| >= 1
    ensures data == SortByKey(range, CentroidKey, ChosenAxis(range, sp))
    ensures (split, cost) == BestOf(SplitCosts(data, sp))
    ensures cost == ChosenCost(range, sp)
  {
    var dx, sx, cx := FindBestSplit(range, X, sp);
    var dy, sy, cy := FindBestSplit(range, Y, sp);
    var dz, sz, cz := FindBestSplit(range, Z, sp);
    data, split, cost := dx, sx, cx;
    if Lt(cy, cost) {
      data, split, cost := dy, sy, cy;
    }
    if Lt(cz, cost) {
      data, split, cost := dz, sz, cz;
    }
  }

  /**
    The builder's verdict on a leaf: keep it exactly when the heuristic says
    so, and otherwise a permutation of its range with a cut strictly inside.
  */
  method PlanSplit(tris: seq<Triangle>, n: BvhNode) returns (data: seq<Triangle>, split: nat, keep: bool)
    requires n.begin < n.end <= |tris|
    ensures keep == StaysLeaf(LeafCost(tris, n), n.end - n.begin)
    ensures !keep ==> multiset(data) == multiset(tris[n.begin..n.end]) && |data| == n.end - n.begin && 0 < split < |data|
  {
    var range := tris[n.begin..n.end];
    var sp := SurfaceArea(n.volume);
    var cost;
    data, split, cost := ChooseSplit(range, sp);
    keep := StaysLeaf(cost, |range|);
    if !keep {
      ProperSplit(range, ChosenAxis(range, sp), sp, data, split, cost);
    }
  }

  /** Taking the last node off the work list keeps the rest a work list. */
  lemma WorkListPop(nodes: Nodes, sp: map<Index, Span>, work: seq<Index>, sizes: seq<nat>)
    requires WorkList(nodes, sp, work, sizes) && |work| > 0
    ensures WorkList(nodes, sp, work[..|work| - 1], sizes[..|sizes| - 1])
    ensures work == work[..|work| - 1] + [work[|work| - 1]] && sizes == sizes[..|sizes| - 1] + [sizes[|sizes| - 1]]
    ensures work[|work| - 1] !in work[..|work| - 1]
  {
  }

  /** The last node of the work list is a leaf with a non-empty range and no children yet. */
  lemma NextLeaf(n: Nodes, t: seq<Triangle>, s: map<Index, Span>, work: seq<Index>, sizes: seq<nat>, i: Index)
    requires Shape(n, t, s) && WorkList(n, s, work, sizes) && |work| > 0 && i == work[|work| - 1]
    ensures i < |n| && n[i].Some? && IsLeaf(n[i].value) && FreshChildren(n, i)
    ensures i in s && s[i] == (n[i].value.begin, n[i].value.end) && n[i].value.begin < n[i].value.end <= |t|
    ensures sizes[|sizes| - 1] == n[i].value.end - n[i].value.begin
    ensures Pending(sizes) == Pending(sizes[..|sizes| - 1]) + Weight(sizes[|sizes| - 1])
  {
    LeafChildrenEmpty(n, i);
    ParentOfChildren(i);
  }

  /** The node taken off the work list stays a leaf: the rest is a work list and the node is settled. */
  lemma KeepLeaf(n: Nodes, t: seq<Triangle>, s: map<Index, Span>, work: seq<Index>, sizes: seq<nat>, i: Index)
    requires WorkList(n, s, work, sizes) && Settled(n, t, work) && |work| > 0 && i == work[|work| - 1]
    requires i < |n| && n[i].Some? && n[i].value.begin < n[i].value.end <= |t|
    requires StaysLeaf(LeafCost(t, n[i].value), n[i].value.end - n[i].value.begin)
    ensures WorkList(n, s, work[..|work| - 1], sizes[..|sizes| - 1])
    ensures Settled(n, t, work[..|work| - 1])
  {
    WorkListPop(n, s, work, sizes);
    SettledPop(n, t, work[..|work| - 1], i);
  }

  /** The node taken off the work list was split: its children take its place. */
  lemma AfterSplit(n0: Nodes, t0: seq<Triangle>, s0: map<Index, Span>, i: Index, m: nat,
                   n1: Nodes, t1: seq<Triangle>, s1: map<Index, Span>, work: seq<Index>, sizes: seq<nat>,
                   work': seq<Index>, sizes': seq<nat>)
    requires Shape(n0, t0, s0) && WorkList(n0, s0, work, sizes) && Settled(n0, t0, work)
    requires |work| > 0 && i == work[|work| - 1] && SplitStep(n0, t0, s0, i, m, n1, t1, s1)
    requires work' == work[..|work| - 1] + [Left(i), Right(i)]
    requires sizes' == sizes[..|sizes| - 1] + [m - s0[i].0, s0[i].1 - m]
    ensures Shape(n1, t1, s1)
    ensures WorkList(n1, s1, work', sizes') && Settled(n1, t1, work')
  {
    WorkListPop(n0, s0, work, sizes);
    assert sizes[|sizes| - 1] == s0[i].1 - s0[i].0;
    SplitKeepsAll(n0, t0, s0, i, m, n1, t1, s1, work[..|work| - 1], sizes[..|sizes| - 1]);
  }

  /** The sweep's result for a node the heuristic splits: a permutation of its range cut strictly inside. */
  lemma ProperSplit(range: seq<Triangle>, a: Axis, sp: real, data: seq<Triangle>, split: nat, cost: Float)
    requires |range| >= 1 && data == SortByKey(range, CentroidKey, a)
    requires (split, cost) == BestOf(SplitCosts(data, sp)) && !StaysLeaf(cost, |range|)
    ensures multiset(data) == multiset(range) && |data| == |range| && 0 < split < |data|
  {
    SweepSplitRange(data, sp, split, cost);
    SplitIsProper(|range|, split, cost);
  }

  /** A leaf taken off the work list that stays a leaf is settled. */
  lemma SettledPop(nodes: Nodes, tris: seq<Triangle>, work: seq<Index>, i: Index)
    requires Settled(nodes, tris, work + [i]) && i !in work
    requires i < |nodes| && nodes[i].Some? && nodes[i].value.begin < nodes[i].value.end <= |tris|
    requires StaysLeaf(LeafCost(tris, nodes[i].value), nodes[i].value.end - nodes[i].value.begin)
    ensures Settled(nodes, tris, work)
  {
    forall j: Index | j !in work
      ensures Judged(nodes, tris, j)
    {
      if j != i {
        assert j !in work + [i];
      }
    }
  }

  /** Slot `j`, if it holds a leaf, holds one the heuristic does not split. */
  ghost predicate Judged(nodes: Nodes, tris: seq<Triangle>, j: Index) {
    j < |nodes| && nodes[j].Some? && IsLeaf(nodes[j].value) ==>
      nodes[j].value.begin < nodes[j].value.end <= |tris|
      && StaysLeaf(LeafCost(tris, nodes[j].value), nodes[j].value.end - nodes[j].value.begin)
  }

  /**
    Every leaf not waiting in the work list was judged not worth splitting.
    The quantifier fires only on an explicit `Judged` term, which keeps the
    cost functions out of the proofs that do not look at a leaf's cost.
  */
  ghost predicate Settled(nodes: Nodes, tris: seq<Triangle>, work: seq<Index>) {
    forall j: Index {:trigger Judged(nodes, tris, j)} :: j !in work ==> Judged(nodes, tris, j)
  }

  /** A leaf whose range the split did not touch keeps its cost. */
  lemma SettledAfterSplit(n0: Nodes, t0: seq<Triangle>, s0: map<Index, Span>, i: Index, m: nat,
                          n1: Nodes, t1: seq<Triangle>, s1: map<Index, Span>, work: seq<Index>)
    requires Shape(n0, t0, s0) && SplitStep(n0, t0, s0, i, m, n1, t1, s1)
    requires Settled(n0, t0, work + [i])
    requires forall k :: 0 <= k < |work| ==> work[k] < |n0| && n0[work[k]].Some?
    ensures Settled(n1, t1, work + [Left(i), Right(i)])
  {
    SplitIndices(n0, s0, i, m, n1);
    var lo, hi := s0[i].0, s0[i].1;
    forall j: Index | j !in work + [Left(i), Right(i)]
      ensures Judged(n1, t1, j)
    {
      if j < |n1| && n1[j].Some? && IsLeaf(n1[j].value) {
        JudgedAfterSplit(n0, t0, s0, i, m, n1, t1, s1, work, j);
      }
    }
  }

  /** One leaf the split did not touch is still judged. */
  lemma JudgedAfterSplit(n0: Nodes, t0: seq<Triangle>, s0: map<Index, Span>, i: Index, m: nat,
                         n1: Nodes, t1: seq<Triangle>, s1: map<Index, Span>, work: seq<Index>, j: Index)
    requires Shape(n0, t0, s0) && SplitStep(n0, t0, s0, i, m, n1, t1, s1) && FreshChildren(n0, i)
    requires Settled(n0, t0, work + [i])
    requires forall k :: 0 <= k < |work| ==> work[k] < |n0| && n0[work[k]].Some?
    requires j < |n1| && n1[j].Some? && IsLeaf(n1[j].value) && j !in work + [Left(i), Right(i)]
    ensures n1[j].value.begin < n1[j].value.end <= |t1|
    ensures StaysLeaf(LeafCost(t1, n1[j].value), n1[j].value.end - n1[j].value.begin)
  {
    var lo, hi := s0[i].0, s0[i].1;
    {
      assert j != Left(i) && j != Right(i);
      assert j != i by {
        assert n1[i].value.begin == n1[i].value.end;
      }
      assert j < |n0| && n0[j] == n1[j];
      assert j !in work + [i];
      assert Judged(n0, t0, j);
      var n := n0[j].value;
      LeavesDisjoint(n0, t0, s0, i, j);
      assert n.end <= lo || hi <= n.begin;
      UntouchedSlice(t0, t1, lo, hi, n.begin, n.end);
      LeafCostFrame(t0, t1, n);
    }
  }

  lemma UntouchedSlice(t0: seq<Triangle>, t1: seq<Triangle>, lo: nat, hi: nat, a: nat, b: nat)
    requires |t0| == |t1| && a <= b <= |t0| && (b <= lo || hi <= a)
    requires forall x :: 0 <= x < |t0| && !(lo <= x < hi) ==> t1[x] == t0[x]
    ensures t1[a..b] == t0[a..b]
  {
  }

  /** A leaf's cost depends only on its own range of the triangle array. */
  lemma LeafCostFrame(t0: seq<Triangle>, t1: seq<Triangle>, n: BvhNode)
    requires n.begin < n.end <= |t0| && n.end <= |t1| && t1[n.begin..n.end] == t0[n.begin..n.end]
    ensures LeafCost(t1, n) == LeafCost(t0, n)
  {
  }

  lemma PendingPush(s: seq<nat>, a: nat, b: nat)
    ensures Pending(s + [a, b]) == Pending(s) + Weight(a) + Weight(b)
  {
    assert (s + [a, b])[..|s| + 1] == s + [a];
    assert (s + [a])[..|s|] == s;
  }

  /** Replacing the last range by two non-empty parts of it shrinks the work left. */
  lemma SplitShrinks(sizes: seq<nat>, a: nat, b: nat)
    requires |sizes| > 0 && sizes[|sizes| - 1] == a + b && 0 < a && 0 < b
    ensures Pending(sizes[..|sizes| - 1] + [a, b]) < Pending(sizes)
  {
    PendingPush(sizes[..|sizes| - 1], a, b);
  }

  /** Slot `j` of `n1` holds `v` and every other slot keeps its value from `n0`; a new slot is empty. */
  ghost predicate Placed(n0: Nodes, j: Index, v: BvhNode, n1: Nodes) {
    |n0| <= |n1| && j < |n1| && n1[j] == Some(v)
    && forall k :: 0 <= k < |n1| && k != j ==> n1[k] == (if k < |n0| then n0[k] else None)
  }

  /**
    Emplacing a node whose parent has a value and which lies below twice the
    storage: it can fail only by growing past the height ceiling, and otherwise
    only its slot changes (the storage may have grown).
  */
  method EmplaceChild(t: LinearTree<BvhNode>, j: Index, v: BvhNode) returns (o: Outcome<TreeError>)
    requires t.Valid() && HasValue(t.nodes, Parent(j)) && j < 2 * |t.nodes|
    modifies t
    ensures t.Valid()
    ensures o.Fail? ==> o.error == Overflow
    ensures o.Pass? ==> Placed(old(t.nodes), j, v, t.nodes)
  {
    o := t.Emplace(j, v);
  }

  /** The facts the commit establishes, one by one, make up one split step. */
  lemma CommitIsSplitStep(n0: Nodes, t0: seq<Triangle>, s0: map<Index, Span>, i: Index, b: nat, m: nat, e: nat,
                          n1: Nodes, t1: seq<Triangle>, s1: map<Index, Span>)
    requires i < |n0| && n0[i].Some? && IsLeaf(n0[i].value) && i in s0 && s0[i] == (b, e) && b < m < e <= |t0|
    requires |n0| <= |n1| <= MaxNodes && i < |n1| && Left(i) < |n1| && Right(i) < |n1|
    requires Permuted(t0, b, e, t1) && NodesFrame(n0, i, n1)
    requires n1[i] == Some(BvhNode(n0[i].value.volume, 0, 0))
    requires n1[Left(i)] == Some(BvhNode(Hull(t1[b..m]), b, m)) && n1[Right(i)] == Some(BvhNode(Hull(t1[m..e]), m, e))
    requires s1 == s0[Left(i) := (b, m)][Right(i) := (m, e)]
    ensures SplitStep(n0, t0, s0, i, m, n1, t1, s1)
  {
  }

  /** Two children placed and the node itself updated: nothing else changed. */
  lemma PlacedChildren(n0: Nodes, i: Index, lv: BvhNode, n1: Nodes, rv: BvhNode, n2: Nodes, iv: BvhNode, n3: Nodes)
    requires FreshChildren(n0, i) && i < |n0|
    requires Placed(n0, Left(i), lv, n1) && Placed(n1, Right(i), rv, n2) && i < |n2| && n3 == n2[i := Some(iv)]
    ensures |n0| <= |n3| && Left(i) < |n3| && Right(i) < |n3|
    ensures n3[i] == Some(iv) && n3[Left(i)] == Some(lv) && n3[Right(i)] == Some(rv)
    ensures NodesFrame(n0, i, n3)
  {
  }

  /** One split keeps the shape, the work list and the settled leaves. */
  lemma SplitKeepsAll(n0: Nodes, t0: seq<Triangle>, s0: map<Index, Span>, i: Index, m: nat,
                      n1: Nodes, t1: seq<Triangle>, s1: map<Index, Span>, work: seq<Index>, sizes: seq<nat>)
    requires Shape(n0, t0, s0) && SplitStep(n0, t0, s0, i, m, n1, t1, s1)
    requires WorkList(n0, s0, work + [i], sizes + [s0[i].1 - s0[i].0])
    requires Settled(n0, t0, work + [i])
    ensures Shape(n1, t1, s1)
    ensures WorkList(n1, s1, work + [Left(i), Right(i)], sizes + [m - s0[i].0, s0[i].1 - m])
    ensures Settled(n1, t1, work + [Left(i), Right(i)])
  {
    SplitIndices(n0, s0, i, m, n1);
    SplitKeepsShape(n0, t0, s0, i, m, n1, t1, s1);
    WorkListAfterSplit(n0, t0, s0, i, m, n1, t1, s1, work, sizes);
    SettledAfterSplit(n0, t0, s0, i, m, n1, t1, s1, work);
  }

  /** After a split the two children join the rest of the work list. */
  lemma WorkListAfterSplit(n0: Nodes, t0: seq<Triangle>, s0: map<Index, Span>, i: Index, m: nat,
                           n1: Nodes, t1: seq<Triangle>, s1: map<Index, Span>, work: seq<Index>, sizes: seq<nat>)
    requires FreshChildren(n0, i) && SplitStep(n0, t0, s0, i, m, n1, t1, s1)
    requires WorkList(n0, s0, work + [i], sizes + [s0[i].1 - s0[i].0])
    ensures WorkList(n1, s1, work + [Left(i), Right(i)], sizes + [m - s0[i].0, s0[i].1 - m])
    ensures forall k :: 0 <= k < |work| ==> work[k] < |n0| && n0[work[k]].Some?
  {
    var w0: seq<Index>, w1: seq<Index> := work + [i], work + [Left(i), Right(i)];
    var z1: seq<nat> := sizes + [m - s0[i].0, s0[i].1 - m];
    forall k | 0 <= k < |work|
      ensures work[k] < |n0| && n0[work[k]].Some? && work[k] != i && work[k] != Left(i) && work[k] != Right(i)
    {
      assert w0[k] == work[k] && w0[|work|] == i;
    }
    forall k | 0 <= k < |w1|
      ensures w1[k] < |n1| && n1[w1[k]].Some? && IsLeaf(n1[w1[k]].value)
      ensures w1[k] in s1 && s1[w1[k]].0 + z1[k] == s1[w1[k]].1
    {
      if k < |work| {
        assert w1[k] == work[k] && w0[k] == work[k] && z1[k] == sizes[k] && (sizes + [s0[i].1 - s0[i].0])[k] == sizes[k];
      }
    }
    forall a, b | 0 <= a < b < |w1|
      ensures w1[a] != w1[b]
    {
      if b < |work| {
        assert w0[a] == w1[a] && w0[b] == w1[b];
      }
    }
  }

  // ---------------------------------------------------------------------
  // The traversal's stack of node intersections

  /** node_intersection: a node and the distance at which the ray enters its volume. */
  datatype NodeHit = NodeHit(node: Index, t: Float)

  /** Where the final hit came from. */
  datatype HitSource = Nothing | SphereSource | PlaneSource | TriangleSource(index: nat)

  /**
    cast_ray's result: the boolean it returns, the distance left in `best_hit`
    and the primitive whose `get_ray_hit` filled it.
  */
  datatype TreeHit = TreeHit(hit: bool, distance: Float, source: HitSource)

  /** A stack entry names a node with a value and the ray's distance to its volume, which is not a miss. */
  ghost predicate EntryOk(nodes: Nodes, e: NodeHit, r: Ray) {
    e.node < |nodes| && nodes[e.node].Some? && e.t == RayDistance(nodes[e.node].value.volume, r) && e.t != Huge
  }

  ghost predicate EntriesOk(nodes: Nodes, es: seq<NodeHit>, r: Ray) {
    forall j :: 0 <= j < |es| ==> EntryOk(nodes, es[j], r)
  }

  predicate InSpan(sp: map<Index, Span>, n: Index, x: nat) {
    n in sp && sp[n].0 <= x < sp[n].1
  }

  /**
    No triangle can beat the best hit unless it lies in the range of a node
    still on the stack.
  */
  ghost predicate Covers(tris: seq<Triangle>, sp: map<Index, Span>, es: seq<NodeHit>, best: Float, r: Ray) {
    forall x :: 0 <= x < |tris| ==>
      Le(best, Cand(tris[x], r)) || exists j :: 0 <= j < |es| && InSpan(sp, es[j].node, x)
  }

  /** The traversal work left on the stack. */
  ghost function StackWeight(es: seq<NodeHit>, sp: map<Index, Span>): nat {
    if |es| == 0 then 0
    else
      var e := es[|es| - 1];
      StackWeight(es[..|es| - 1], sp) + (if e.node in sp && sp[e.node].0 <= sp[e.node].1 then Weight(sp[e.node].1 - sp[e.node].0) else 0)
  }

  lemma {:induction false} StackWeightAppend(a: seq<NodeHit>, b: seq<NodeHit>, sp: map<Index, Span>)
    ensures StackWeight(a + b, sp) == StackWeight(a, sp) + StackWeight(b, sp)
    decreases |b|
  {
    if |b| > 0 {
      var b' := b[..|b| - 1];
      assert (a + b)[..|a + b| - 1] == a + b';
      assert (a + b)[|a + b| - 1] == b[|b| - 1];
      StackWeightAppend(a, b', sp);
    } else {
      assert a + b == a;
    }
  }

  /** A triangle of a volume the ray enters no nearer than `best` cannot beat `best`. */
  lemma VolumeBound(nodes: Nodes, tris: seq<Triangle>, sp: map<Index, Span>, n: Index, x: nat, best: Float, r: Ray)
    requires Shape(nodes, tris, sp)
    requires n < |nodes| && nodes[n].Some? && InSpan(sp, n, x) && x < |tris|
    requires Le(best, RayDistance(nodes[n].value.volume, r))
    ensures Le(best, Cand(tris[x], r))
  {
    if Cand(tris[x], r) != Huge {
      CandInsideVolume(tris[x], r, nodes[n].value.volume);
      LtTrans(best, RayDistance(nodes[n].value.volume, r), Cand(tris[x], r));
    }
  }

  /** Skipping an entry whose volume lies beyond the best hit loses nothing. */
  lemma PrunedCovers(nodes: Nodes, tris: seq<Triangle>, sp: map<Index, Span>, rest: seq<NodeHit>, e: NodeHit,
                     best: Float, r: Ray)
    requires Shape(nodes, tris, sp) && EntryOk(nodes, e, r) && Lt(best, e.t)
    requires Covers(tris, sp, rest + [e], best, r)
    ensures Covers(tris, sp, rest, best, r)
  {
    forall x | 0 <= x < |tris| && !Le(best, Cand(tris[x], r))
      ensures exists j :: 0 <= j < |rest| && InSpan(sp, rest[j].node, x)
    {
      var j :| 0 <= j < |rest + [e]| && InSpan(sp, (rest + [e])[j].node, x);
      if j == |rest| {
        LtTotal(best, e.t);
        VolumeBound(nodes, tris, sp, e.node, x, best, r);
      } else {
        assert (rest + [e])[j] == rest[j];
      }
    }
  }

  /** After a leaf's triangles were scanned, none of them can beat the new best hit. */
  lemma LeafCovers(nodes: Nodes, tris: seq<Triangle>, sp: map<Index, Span>, rest: seq<NodeHit>, e: NodeHit,
                   best: Float, best': Float, r: Ray)
    requires Shape(nodes, tris, sp) && EntryOk(nodes, e, r) && IsLeaf(nodes[e.node].value)
    requires Covers(tris, sp, rest + [e], best, r)
    requires Le(best', best)
    requires forall k :: nodes[e.node].value.begin <= k < nodes[e.node].value.end && k < |tris| ==> Le(best', Cand(tris[k], r))
    ensures Covers(tris, sp, rest, best', r)
  {
    forall x | 0 <= x < |tris| && !Le(best', Cand(tris[x], r))
      ensures exists j :: 0 <= j < |rest| && InSpan(sp, rest[j].node, x)
    {
      LtTrans(best', best, Cand(tris[x], r));
      var j :| 0 <= j < |rest + [e]| && InSpan(sp, (rest + [e])[j].node, x);
      if j < |rest| {
        assert (rest + [e])[j] == rest[j];
      }
    }
  }

  /** A child of an interior node is either on the stack or entered no nearer than the best hit. */
  ghost predicate ChildHandled(nodes: Nodes, pushed: seq<NodeHit>, c: Index, best: Float, r: Ray)
    requires c < |nodes| && nodes[c].Some?
  {
    (exists j :: 0 <= j < |pushed| && pushed[j].node == c) || Le(best, RayDistance(nodes[c].value.volume, r))
  }

  /** Replacing an interior node by its handled children loses nothing. */
  lemma InteriorCovers(nodes: Nodes, tris: seq<Triangle>, sp: map<Index, Span>, rest: seq<NodeHit>, e: NodeHit,
                       pushed: seq<NodeHit>, best: Float, r: Ray)
    requires Shape(nodes, tris, sp) && EntryOk(nodes, e, r) && !IsLeaf(nodes[e.node].value)
    requires Covers(tris, sp, rest + [e], best, r)
    requires HasValue(nodes, Left(e.node)) && HasValue(nodes, Right(e.node))
    requires ChildHandled(nodes, pushed, Left(e.node), best, r) && ChildHandled(nodes, pushed, Right(e.node), best, r)
    ensures Covers(tris, sp, rest + pushed, best, r)
  {
    var i := e.node;
    assert Interior(nodes, i);
    forall x | 0 <= x < |tris| && !Le(best, Cand(tris[x], r))
      ensures exists j :: 0 <= j < |rest + pushed| && InSpan(sp, (rest + pushed)[j].node, x)
    {
      var j :| 0 <= j < |rest + [e]| && InSpan(sp, (rest + [e])[j].node, x);
      if j < |rest| {
        assert (rest + [e])[j] == rest[j] && (rest + pushed)[j] == rest[j];
      } else {
        var c := if x < sp[Left(i)].1 then Left(i) else Right(i);
        assert InSpan(sp, c, x);
        if Le(best, RayDistance(nodes[c].value.volume, r)) {
          VolumeBound(nodes, tris, sp, c, x, best, r);
        } else {
          var k :| 0 <= k < |pushed| && pushed[k].node == c;
          assert (rest + pushed)[|rest| + k] == pushed[k];
        }
      }
    }
  }

  /** Replacing an interior node by at most its two children shrinks the work left. */
  lemma InteriorShrinks(nodes: Nodes, tris: seq<Triangle>, sp: map<Index, Span>, rest: seq<NodeHit>, e: NodeHit,
                        pushed: seq<NodeHit>, cl: NodeHit, cr: NodeHit)
    requires Shape(nodes, tris, sp)
    requires e.node < |nodes| && nodes[e.node].Some? && !IsLeaf(nodes[e.node].value)
    requires cl.node == Left(e.node) && cr.node == Right(e.node)
    requires pushed == [] || pushed == [cl] || pushed == [cr] || pushed == [cl, cr] || pushed == [cr, cl]
    ensures StackWeight(rest + pushed, sp) < StackWeight(rest + [e], sp)
  {
    var i := e.node;
    assert Interior(nodes, i);
    assert Spanned(nodes, tris, sp);
    StackWeightAppend(rest, pushed, sp);
    StackWeightAppend(rest, [e], sp);
    assert StackWeight([cl, cr], sp) == StackWeight([cl], sp) + StackWeight([cr], sp) by {
      StackWeightAppend([cl], [cr], sp);
      assert [cl] + [cr] == [cl, cr];
    }
    assert StackWeight([cr, cl], sp) == StackWeight([cr], sp) + StackWeight([cl], sp) by {
      StackWeightAppend([cr], [cl], sp);
      assert [cr] + [cl] == [cr, cl];
    }
    assert [cl][..0] == [] && [cr][..0] == [] && [e][..0] == [];
  }

  /**
    Once the stack is empty, the best hit is the closer of the starting hit
    and the closest triangle.
  */
  lemma ClosestFound(tris: seq<Triangle>, r: Ray, init: Float, best: Float)
    requires forall x :: 0 <= x < |tris| ==> Le(best, Cand(tris[x], r))
    requires Le(best, init)
    requires best == init || exists k :: 0 <= k < |tris| && Cand(tris[k], r) == best
    ensures best == FMin(init, MinCand(tris, r))
  {
    MinCandIsMin(tris, r);
    var m := MinCand(tris, r);
    if m != Huge {
      var k :| 0 <= k < |tris| && Cand(tris[k], r) == m;
    }
    if best != init {
      var k :| 0 <= k < |tris| && Cand(tris[k], r) == best;
      LtTotal(best, m);
    }
    LtTotal(best, m);
    LtTotal(init, m);
  }

  /**
    The hit left behind by the sphere and plane range scans, given the closest
    distance each scan reports (HUGE_VALF when it finds nothing): the plane
    scan runs with the sphere's hit as its bound and takes over the hit when it
    finds a plane no farther away.
  */
  function FirstHit(sphereT: Float, planeT: Float): (h: (Float, HitSource))
    ensures h.0 == FMin(sphereT, planeT)
    ensures h.1 == Nothing <==> h.0 == Huge
    ensures h.1 == SphereSource ==> h.0 == sphereT && sphereT != Huge
    ensures h.1 == PlaneSource ==> h.0 == planeT && planeT != Huge
    ensures !h.1.TriangleSource?
  {
    if planeT != Huge && Le(planeT, sphereT) then (planeT, PlaneSource)
    else if sphereT != Huge then (sphereT, SphereSource)
    else (Huge, Nothing)
  }

  /**
    The best hit so far agrees with its source: a triangle hit is that
    triangle's own distance, any other hit is the one the sphere and plane
    scans left.
  */
  ghost predicate Traced(tris: seq<Triangle>, r: Ray, first: (Float, HitSource), best: Float, src: HitSource) {
    if src.TriangleSource? then src.index < |tris| && Cand(tris[src.index], r) == best && best.Fin?
    else (best, src) == first
  }

  /** The entry on top of the stack is a proper entry, and taking it off shrinks the work left. */
  lemma PopEntry(nodes: Nodes, tris: seq<Triangle>, sp: map<Index, Span>, es: seq<NodeHit>, rest: seq<NodeHit>,
                 e: NodeHit, r: Ray)
    requires Shape(nodes, tris, sp) && EntriesOk(nodes, es, r)
    requires es != [] && rest == es[..|es| - 1] && e == es[|es| - 1]
    ensures es == rest + [e] && EntriesOk(nodes, rest, r) && EntryOk(nodes, e, r)
    ensures StackWeight(rest, sp) < StackWeight(es, sp)
  {
    PopSeq(nodes, es, rest, e, r);
    assert Spanned(nodes, tris, sp);
    assert e.node in sp && sp[e.node].0 < sp[e.node].1;
    PopWeight(es, rest, e, sp);
  }

  lemma PopSeq(nodes: Nodes, es: seq<NodeHit>, rest: seq<NodeHit>, e: NodeHit, r: Ray)
    requires EntriesOk(nodes, es, r) && es != [] && rest == es[..|es| - 1] && e == es[|es| - 1]
    ensures es == rest + [e] && EntriesOk(nodes, rest, r) && EntryOk(nodes, e, r)
  {
    assert EntryOk(nodes, es[|es| - 1], r);
    assert forall j :: 0 <= j < |rest| ==> rest[j] == es[j];
  }

  lemma PopWeight(es: seq<NodeHit>, rest: seq<NodeHit>, e: NodeHit, sp: map<Index, Span>)
    requires es != [] && rest == es[..|es| - 1] && e == es[|es| - 1]
    requires e.node in sp && sp[e.node].0 < sp[e.node].1
    ensures StackWeight(rest, sp) < StackWeight(es, sp)
  {
  }

  /**
    A leaf taken off the stack: its triangles are scanned with the best hit as
    the bound, and a triangle found takes over the hit.
  */
  method VisitLeaf(nodes: Nodes, tris: seq<Triangle>, ghost sp: map<Index, Span>, ghost rest: seq<NodeHit>, e: NodeHit, r: Ray,
                   ghost first: (Float, HitSource), best: Float, src: HitSource) returns (best': Float, src': HitSource)
    requires Shape(nodes, tris, sp) && EntryOk(nodes, e, r) && IsLeaf(nodes[e.node].value)
    requires Covers(tris, sp, rest + [e], best, r)
    requires Le(best, first.0) && Traced(tris, r, first, best, src)
    ensures Covers(tris, sp, rest, best', r)
    ensures Le(best', best) && Le(best', first.0) && Traced(tris, r, first, best', src')
  {
    var n := nodes[e.node].value;
    assert Spanned(nodes, tris, sp) && LeavesMatch(nodes, sp);
    var found, b, idx, sol := ScanTriangles(tris, n.begin, n.end, r, best);
    best', src' := best, src;
    if found {
      best', src' := b, TriangleSource(idx);
      LtTrans(b, best, first.0);
    }
    LeafCovers(nodes, tris, sp, rest, e, best, best', r);
  }

  /** The stack as cast_ray starts it: the root, when there is one and the ray enters its volume. */
  lemma StartCovers(nodes: Nodes, tris: seq<Triangle>, sp: map<Index, Span>, es: seq<NodeHit>, best: Float, r: Ray)
    requires Shape(nodes, tris, sp)
    requires es == if HasValue(nodes, Root) && RayDistance(nodes[Root].value.volume, r) != Huge
                   then [NodeHit(Root, RayDistance(nodes[Root].value.volume, r))] else []
    ensures EntriesOk(nodes, es, r) && Covers(tris, sp, es, best, r)
  {
    forall x | 0 <= x < |tris| && !Le(best, Cand(tris[x], r))
      ensures exists j :: 0 <= j < |es| && InSpan(sp, es[j].node, x)
    {
      assert InSpan(sp, Root, x);
      if es == [] {
        VolumeBound(nodes, tris, sp, Root, x, best, r);
      } else {
        assert es[0].node == Root;
      }
    }
  }

  /** With the stack empty, no triangle beats the best hit, which is the first hit or some triangle's. */
  lemma TracedFound(tris: seq<Triangle>, sp: map<Index, Span>, r: Ray, first: (Float, HitSource), best: Float, src: HitSource)
    requires Traced(tris, r, first, best, src) && Covers(tris, sp, [], best, r)
    ensures forall x :: 0 <= x < |tris| ==> Le(best, Cand(tris[x], r))
    ensures best == first.0 || exists k :: 0 <= k < |tris| && Cand(tris[k], r) == best
  {
    if src.TriangleSource? {
      assert Cand(tris[src.index], r) == best;
    }
  }

  /**
    The entries cast_ray pushes for an interior node, bottom first: nothing
    when the ray misses both children, otherwise the farther child when it is
    entered nearer than `best`, then the nearer child.
  */
  function ChildOrder(cl: NodeHit, cr: NodeHit, best: Float): (pushed: seq<NodeHit>)
    ensures |pushed| <= 2
    ensures forall e :: e in pushed ==> (e == cl || e == cr) && e.t != Huge
    ensures cl !in pushed ==> Le(best, cl.t)
    ensures cr !in pushed ==> Le(best, cr.t)
    ensures forall j :: 0 <= j < |pushed| ==> Le(pushed[|pushed| - 1].t, pushed[j].t)
  {
    LtTotal(cl.t, cr.t);
    LtTotal(cl.t, best);
    LtTotal(cr.t, best);
    if cl.t == Huge && cr.t == Huge then []
    else if Lt(cr.t, cl.t) then (if Lt(cl.t, best) then [cl] else []) + [cr]
    else (if Lt(cr.t, best) then [cr] else []) + [cl]
  }

  /**
    Replacing an interior node by the children cast_ray pushes keeps every
    entry proper, loses no triangle that could beat the best hit, and shrinks
    the work left.
  */
  lemma ChildrenPushed(nodes: Nodes, tris: seq<Triangle>, sp: map<Index, Span>, rest: seq<NodeHit>, e: NodeHit,
                       cl: NodeHit, cr: NodeHit, pushed: seq<NodeHit>, best: Float, r: Ray)
    requires Shape(nodes, tris, sp) && EntryOk(nodes, e, r) && !IsLeaf(nodes[e.node].value)
    requires EntriesOk(nodes, rest, r) && Covers(tris, sp, rest + [e], best, r)
    requires HasValue(nodes, Left(e.node)) && HasValue(nodes, Right(e.node))
    requires cl == NodeHit(Left(e.node), RayDistance(nodes[Left(e.node)].value.volume, r))
    requires cr == NodeHit(Right(e.node), RayDistance(nodes[Right(e.node)].value.volume, r))
    requires pushed == ChildOrder(cl, cr, best)
    ensures EntriesOk(nodes, rest + pushed, r)
    ensures Covers(tris, sp, rest + pushed, best, r)
    ensures StackWeight(rest + pushed, sp) < StackWeight(rest + [e], sp)
  {
    ChildOrderHandled(nodes, e.node, cl, cr, best, r);
    InteriorCovers(nodes, tris, sp, rest, e, pushed, best, r);
    InteriorShrinks(nodes, tris, sp, rest, e, pushed, cl, cr);
    EntriesAppend(nodes, rest, pushed, r);
  }

  lemma EntriesAppend(nodes: Nodes, a: seq<NodeHit>, b: seq<NodeHit>, r: Ray)
    requires EntriesOk(nodes, a, r) && EntriesOk(nodes, b, r)
    ensures EntriesOk(nodes, a + b, r)
  {
    assert forall j :: 0 <= j < |a + b| ==> (a + b)[j] == if j < |a| then a[j] else b[j - |a|];
  }

  /**
    The children cast_ray pushes are at most the two children, each entered by
    the ray, and a child left off is entered no nearer than the best hit.
  */
  lemma ChildOrderHandled(nodes: Nodes, i: Index, cl: NodeHit, cr: NodeHit, best: Float, r: Ray)
    requires HasValue(nodes, Left(i)) && HasValue(nodes, Right(i))
    requires cl == NodeHit(Left(i), RayDistance(nodes[Left(i)].value.volume, r))
    requires cr == NodeHit(Right(i), RayDistance(nodes[Right(i)].value.volume, r))
    ensures var pushed := ChildOrder(cl, cr, best);
      (pushed == [] || pushed == [cl] || pushed == [cr] || pushed == [cl, cr] || pushed == [cr, cl])
      && EntriesOk(nodes, pushed, r)
      && ChildHandled(nodes, pushed, Left(i), best, r) && ChildHandled(nodes, pushed, Right(i), best, r)
  {
    var pushed := ChildOrder(cl, cr, best);
    LtTotal(cl.t, cr.t);
    LtTotal(cl.t, best);
    LtTotal(cr.t, best);
    assert pushed == [] || pushed == [cl] || pushed == [cr] || pushed == [cl, cr] || pushed == [cr, cl];
    assert ChildHandled(nodes, pushed, Left(i), best, r) by {
      if !Le(best, cl.t) {
        assert pushed[|pushed| - 1] == cl || pushed[0] == cl;
      }
    }
    assert ChildHandled(nodes, pushed, Right(i), best, r) by {
      if !Le(best, cr.t) {
        assert pushed[|pushed| - 1] == cr || pushed[0] == cr;
      }
    }
  }

  /**
    Once the stack is empty, the best hit is the closer of the first hit and
    the closest triangle of the scene, in whatever order the builder left the
    triangles.
  */
  lemma TraversalDone(tris: seq<Triangle>, source: seq<Triangle>, sp: map<Index, Span>, r: Ray,
                      first: (Float, HitSource), best: Float, src: HitSource)
    requires multiset(tris) == multiset(source)
    requires Traced(tris, r, first, best, src) && Covers(tris, sp, [], best, r) && Le(best, first.0)
    ensures best == FMin(first.0, MinCand(source, r))
  {
    TracedFound(tris, sp, r, first, best, src);
    ClosestFound(tris, r, first.0, best);
    MinCandPermutation(tris, source, r);
  }

  /** The stack of 256 node intersections, holding the root when the ray enters its volume. */
  method StartStack(nodes: Nodes, tris: seq<Triangle>, ghost sp: map<Index, Span>, r: Ray, ghost best: Float) returns (stack: LinearStack<NodeHit>)
    requires Shape(nodes, tris, sp)
    ensures fresh(stack) && fresh(stack.data) && stack.Valid() && stack.capacity == StackSize
    ensures EntriesOk(nodes, stack.Contents(), r) && Covers(tris, sp, stack.Contents(), best, r)
  {
    stack := new LinearStack<NodeHit>(StackSize);
    if HasValue(nodes, Root) {
      var t := RayDistance(nodes[Root].value.volume, r);
      if t != Huge {
        var _ := stack.Emplace(NodeHit(Root, t));
      }
    }
    StartCovers(nodes, tris, sp, stack.Contents(), best, r);
  }

  /**
    One round of the traversal loop: the top entry is popped and skipped,
    scanned as a leaf, or replaced by the children its ray enters.
  */
  method Step(stack: LinearStack<NodeHit>, nodes: Nodes, tris: seq<Triangle>, ghost sp: map<Index, Span>, r: Ray,
              ghost first: (Float, HitSource), best: Float, src: HitSource)
    returns (o: Outcome<StackError>, best': Float, src': HitSource)
    requires Shape(nodes, tris, sp) && stack.Valid() && stack.Contents() != []
    requires EntriesOk(nodes, stack.Contents(), r) && Covers(tris, sp, stack.Contents(), best, r)
    requires Le(best, first.0) && Traced(tris, r, first, best, src)
    modifies stack, stack.data
    ensures stack.Valid()
    ensures o.Fail? ==> o.error == StackOverflow
    ensures o.Pass? ==> EntriesOk(nodes, stack.Contents(), r) && Covers(tris, sp, stack.Contents(), best', r)
    ensures o.Pass? ==> Le(best', first.0) && Traced(tris, r, first, best', src')
    ensures o.Pass? ==> StackWeight(stack.Contents(), sp) < StackWeight(old(stack.Contents()), sp)
  {
    ghost var es := stack.Contents();
    var top := stack.Top();
    var e := top.value;
    var _ := stack.Pop();
    ghost var rest := stack.Contents();
    PopEntry(nodes, tris, sp, es, rest, e, r);
    if Lt(best, e.t) {
      PrunedCovers(nodes, tris, sp, rest, e, best, r);
      return Pass, best, src;
    }
    var n := nodes[e.node].value;
    if n.begin != n.end {
      best', src' := VisitLeaf(nodes, tris, sp, rest, e, r, first, best, src);
      return Pass, best', src';
    }
    best', src' := best, src;
    assert Interior(nodes, e.node);
    ghost var cl, cr;
    o, cl, cr := PushChildren(stack, nodes, e, r, best);
    if o.Pass? {
      ChildrenPushed(nodes, tris, sp, rest, e, cl, cr, ChildOrder(cl, cr, best), best, r);
    }
  }

  /**
    The children of an interior node, when the ray enters at least one of
    them: the farther child goes on the stack first, and only when it is
    entered nearer than the best hit; the nearer child always follows.
  */
  method PushChildren(stack: LinearStack<NodeHit>, nodes: Nodes, e: NodeHit, r: Ray, best: Float)
    returns (o: Outcome<StackError>, ghost cl: NodeHit, ghost cr: NodeHit)
    requires stack.Valid() && HasValue(nodes, Left(e.node)) && HasValue(nodes, Right(e.node))
    modifies stack, stack.data
    ensures stack.Valid()
    ensures o.Fail? ==> o.error == StackOverflow
    ensures cl == NodeHit(Left(e.node), RayDistance(nodes[Left(e.node)].value.volume, r))
    ensures cr == NodeHit(Right(e.node), RayDistance(nodes[Right(e.node)].value.volume, r))
    ensures o.Pass? ==> stack.Contents() == old(stack.Contents()) + ChildOrder(cl, cr, best)
  {
    var left, right := nodes[Left(e.node)].value, nodes[Right(e.node)].value;
    var tl, tr := RayDistance(left.volume, r), RayDistance(right.volume, r);
    var hl, hr := NodeHit(Left(e.node), tl), NodeHit(Right(e.node), tr);
    cl, cr := hl, hr;
    o := Pass;
    if tl != Huge || tr != Huge {
      var near, far := hl, hr;
      if Lt(tr, tl) {
        near, far := hr, hl;
      }
      if Lt(far.t, best) {
        o := stack.Emplace(far);
        if o.Fail? {
          return;
        }
      }
      o := stack.Emplace(near);
    }
  }

  // ---------------------------------------------------------------------
  // The tree object

  class BvhTree {
    const tree: LinearTree<BvhNode>
    var triangles: seq<Triangle>
    var spheres: seq<Sphere>
    var planes: seq<Plane>
    /** The triangles as gathered from the scene, before the builder reordered them. */
    ghost var source: seq<Triangle>
    /** The range each node covers (an interior node's is the range it held before its split). */
    ghost var spans: map<Index, Span>

    /** The tree has the builder's shape over a permutation of the gathered triangles. */
    ghost predicate Valid()
      reads this, tree
    {
      tree.Valid() && Shape(tree.nodes, triangles, spans) && multiset(triangles) == multiset(source)
    }

    /**
      The constructor up to the call of build_tree: the primitives of every
      object's collection are appended in object order, and with at least one
      triangle the root is emplaced over the whole triangle array.
    */
    constructor(cols: seq<CollectionValue>)
      ensures Valid() && fresh(tree)
      ensures source == AllTriangles(cols) && triangles == source
      ensures spheres == AllSpheres(cols) && planes == AllPlanes(cols)
      ensures |triangles| > 0 ==> tree.nodes[Root] == Some(BvhNode(Hull(triangles), 0, |triangles|))
      ensures forall k :: 0 < k < |tree.nodes| ==> tree.nodes[k] == None
      ensures tree.height == InitialHeight && |tree.nodes| == Pow2(InitialHeight - 1)
    {
      var ts, ss, ps := Gather(cols);
      var t := new LinearTree<BvhNode>(InitialHeight);
      ghost var sp: map<Index, Span> := map[];
      if |ts| > 0 {
        var root := NewNode(ts, 0, |ts|);
        assert ts[0..|ts|] == ts;
        var _ := t.Emplace(Root, root);
        RootShape(t.nodes, ts);
        sp := map[Root := (0, |ts|)];
      } else {
        EmptyShape(t.nodes, ts);
      }
      tree, triangles, spheres, planes, source, spans := t, ts, ss, ps, ts, sp;
    }

    /**
      build_tree, started with the root as the only node: leaves are taken from
      the work list one at a time and split by the surface area heuristic.
      Only growing past the height ceiling can fail: the left child is always
      emplaced before the right one, so the right child of the last slot never
      lands beyond the grown storage. When the build completes, every leaf is
      one the heuristic does not split.
    */
    method BuildTree() returns (o: Outcome<TreeError>)
      requires Valid() && HasValue(tree.nodes, Root) && IsLeaf(tree.nodes[Root].value)
      requires forall k :: 0 < k < |tree.nodes| ==> tree.nodes[k] == None
      modifies this, tree
      ensures source == old(source) && spheres == old(spheres) && planes == old(planes)
      ensures multiset(triangles) == multiset(source)
      ensures o.Fail? ==> o.error == Overflow
      ensures o.Pass? ==> Valid() && Settled(tree.nodes, triangles, [])
    {
      var work: seq<Index> := [Root];
      ghost var sizes: seq<nat> := [spans[Root].1 - spans[Root].0];
      while work != []
        invariant tree.Valid() && Shape(tree.nodes, triangles, spans)
        invariant multiset(triangles) == multiset(source)
        invariant source == old(source) && spheres == old(spheres) && planes == old(planes)
        invariant WorkList(tree.nodes, spans, work, sizes)
        invariant Settled(tree.nodes, triangles, work)
        decreases Pending(sizes)
      {
        o, work, sizes := ProcessLast(work, sizes);
        if o.Fail? {
          return;
        }
      }
      o := Pass;
    }

    /**
      One round of build_tree: the last leaf of the work list is taken off and
      either kept or split, its children then taking its place.
    */
    method ProcessLast(work: seq<Index>, ghost sizes: seq<nat>) returns (o: Outcome<TreeError>, work': seq<Index>, ghost sizes': seq<nat>)
      requires tree.Valid() && Shape(tree.nodes, triangles, spans)
      requires WorkList(tree.nodes, spans, work, sizes) && Settled(tree.nodes, triangles, work) && |work| > 0
      modifies this, tree
      ensures source == old(source) && spheres == old(spheres) && planes == old(planes)
      ensures multiset(triangles) == multiset(old(triangles))
      ensures tree.Valid()
      ensures o.Fail? ==> o.error == Overflow
      ensures o.Pass? ==> Shape(tree.nodes, triangles, spans)
      ensures o.Pass? ==> WorkList(tree.nodes, spans, work', sizes') && Settled(tree.nodes, triangles, work')
      ensures o.Pass? ==> Pending(sizes') < Pending(sizes)
    {
      var i := work[|work| - 1];
      NextLeaf(tree.nodes, triangles, spans, work, sizes, i);
      var data, split, keep := PlanSplit(triangles, tree.nodes[i].value);
      if keep {
        KeepLeaf(tree.nodes, triangles, spans, work, sizes, i);
        return Pass, work[..|work| - 1], sizes[..|sizes| - 1];
      }
      o, work', sizes' := SplitLeaf(i, data, split, work, sizes);
      SplitShrinks(sizes, split, |data| - split);
    }

    /**
      A leaf taken off the work list is split and its children join the work
      list in its place.
    */
    method SplitLeaf(i: Index, data: seq<Triangle>, split: nat, work: seq<Index>, ghost sizes: seq<nat>)
      returns (o: Outcome<TreeError>, work': seq<Index>, ghost sizes': seq<nat>)
      requires tree.Valid() && Shape(tree.nodes, triangles, spans)
      requires WorkList(tree.nodes, spans, work, sizes) && Settled(tree.nodes, triangles, work)
      requires |work| > 0 && i == work[|work| - 1]
      requires i < |tree.nodes| && tree.nodes[i].Some? && IsLeaf(tree.nodes[i].value) && FreshChildren(tree.nodes, i)
      requires i in spans && spans[i] == (tree.nodes[i].value.begin, tree.nodes[i].value.end)
      requires tree.nodes[i].value.begin < tree.nodes[i].value.end <= |triangles|
      requires multiset(data) == multiset(triangles[tree.nodes[i].value.begin..tree.nodes[i].value.end])
      requires |data| == tree.nodes[i].value.end - tree.nodes[i].value.begin && 0 < split < |data|
      modifies this, tree
      ensures source == old(source) && spheres == old(spheres) && planes == old(planes)
      ensures multiset(triangles) == multiset(old(triangles))
      ensures tree.Valid()
      ensures o.Fail? ==> o.error == Overflow
      ensures o.Pass? ==> Shape(tree.nodes, triangles, spans)
      ensures o.Pass? ==> WorkList(tree.nodes, spans, work', sizes') && Settled(tree.nodes, triangles, work')
      ensures work' == work[..|work| - 1] + [Left(i), Right(i)]
      ensures sizes' == sizes[..|sizes| - 1] + [split, |data| - split]
    {
      ghost var n0, t0, s0 := tree.nodes, triangles, spans;
      ghost var m := tree.nodes[i].value.begin + split;
      work' := work[..|work| - 1] + [Left(i), Right(i)];
      sizes' := sizes[..|sizes| - 1] + [m - s0[i].0, s0[i].1 - m];
      o := CommitSplit(i, data, split, n0, t0, s0, m);
      if o.Fail? {
        return;
      }
      AfterSplit(n0, t0, s0, i, m, tree.nodes, triangles, spans, work, sizes, work', sizes');
    }

    /** The sorted copy of a leaf's range is copied back over that range. */
    method WriteBack(data: seq<Triangle>, b: nat, e: nat)
      requires b <= e <= |triangles| && multiset(data) == multiset(triangles[b..e])
      modifies this
      ensures Permuted(old(triangles), b, e, triangles) && triangles[b..e] == data
      ensures multiset(triangles) == multiset(old(triangles))
      ensures spans == old(spans) && source == old(source) && spheres == old(spheres) && planes == old(planes)
    {
      WriteBackPermutes(triangles, data, b, e);
      triangles := triangles[..b] + data + triangles[e..];
    }

    /**
      The emplacing half of the commit: the left child over `[b, m)`, then the
      right child over `[m, e)`, then the node's own pointers cleared.
    */
    method EmplaceChildren(i: Index, b: nat, m: nat, e: nat) returns (o: Outcome<TreeError>)
      requires tree.Valid() && i < |tree.nodes| && tree.nodes[i].Some? && FreshChildren(tree.nodes, i)
      requires b < m < e <= |triangles|
      modifies tree
      ensures tree.Valid()
      ensures o.Fail? ==> o.error == Overflow
      ensures o.Pass? ==> |old(tree.nodes)| <= |tree.nodes| && i < |tree.nodes| && Left(i) < |tree.nodes| && Right(i) < |tree.nodes|
      ensures o.Pass? ==> tree.nodes[i] == Some(BvhNode(old(tree.nodes)[i].value.volume, 0, 0))
      ensures o.Pass? ==> tree.nodes[Left(i)] == Some(BvhNode(Hull(triangles[b..m]), b, m))
      ensures o.Pass? ==> tree.nodes[Right(i)] == Some(BvhNode(Hull(triangles[m..e]), m, e))
      ensures o.Pass? ==> NodesFrame(old(tree.nodes), i, tree.nodes)
    {
      ghost var n0 := tree.nodes;
      var volume := tree.nodes[i].value.volume;
      var left := NewNode(triangles, b, m);
      o := EmplaceChild(tree, Left(i), left);
      if o.Fail? {
        return;
      }
      ghost var n1 := tree.nodes;
      var right := NewNode(triangles, m, e);
      o := EmplaceChild(tree, Right(i), right);
      if o.Fail? {
        return;
      }
      ghost var n2 := tree.nodes;
      var _ := tree.Update(i, BvhNode(volume, 0, 0));
      PlacedChildren(n0, i, left, n1, right, n2, BvhNode(volume, 0, 0), tree.nodes);
    }

    /**
      The commit of build_tree: the winning sorted copy is written back over the
      leaf's range `[b, e)`, the left child is emplaced over `[b, b + split)`,
      then the right child over `[b + split, e)`, and the node's own pointers are
      cleared. Emplacing can only fail by growing past the height ceiling.
    */
    method CommitSplit(i: Index, data: seq<Triangle>, split: nat, ghost n0: Nodes, ghost t0: seq<Triangle>,
                       ghost s0: map<Index, Span>, ghost m: nat) returns (o: Outcome<TreeError>)
      requires tree.Valid() && i < |tree.nodes| && tree.nodes[i].Some? && IsLeaf(tree.nodes[i].value)
      requires n0 == tree.nodes && t0 == triangles && s0 == spans && m == tree.nodes[i].value.begin + split
      requires FreshChildren(tree.nodes, i)
      requires i in spans && spans[i] == (tree.nodes[i].value.begin, tree.nodes[i].value.end)
      requires tree.nodes[i].value.begin < tree.nodes[i].value.end <= |triangles|
      requires multiset(data) == multiset(triangles[tree.nodes[i].value.begin..tree.nodes[i].value.end])
      requires |data| == tree.nodes[i].value.end - tree.nodes[i].value.begin && 0 < split < |data|
      modifies this, tree
      ensures source == old(source) && spheres == old(spheres) && planes == old(planes)
      ensures multiset(triangles) == multiset(old(triangles))
      ensures tree.Valid()
      ensures o.Fail? ==> o.error == Overflow
      ensures o.Pass? ==> SplitStep(n0, t0, s0, i, m, tree.nodes, triangles, spans)
    {
      var node := tree.nodes[i].value;
      var b, e := node.begin, node.end;
      var m := b + split;
      WriteBack(data, b, e);
      o := EmplaceChildren(i, b, m, e);
      if o.Fail? {
        return;
      }
      spans := spans[Left(i) := (b, m)][Right(i) := (m, e)];
      CommitIsSplitStep(n0, t0, s0, i, b, m, e, tree.nodes, triangles, spans);
    }

    /**
      cast_ray. `sphereT` and `planeT` are the closest distances the sphere and
      plane range scans report. The tree is walked with a stack of 256 node
      intersections; running out of stack is the one way it fails. Otherwise
      the hit is the closest of the first hit and every triangle of the scene.
    */
    method CastRay(r: Ray, sphereT: Float, planeT: Float) returns (res: Result<TreeHit, StackError>)
      requires Valid()
      ensures res.Failure? ==> res.error == StackOverflow
      ensures res.Success? ==> res.value.distance == FMin(FMin(sphereT, planeT), MinCand(source, r))
      ensures res.Success? ==> (res.value.hit <==> res.value.distance != Huge)
      ensures res.Success? ==> Traced(triangles, r, FirstHit(sphereT, planeT), res.value.distance, res.value.source)
    {
      var nodes, tris := tree.nodes, triangles;
      ghost var sp := spans;
      var first := FirstHit(sphereT, planeT);
      var best, src := first.0, first.1;
      var stack := StartStack(nodes, tris, sp, r, best);
      while !stack.Empty()
        invariant fresh(stack) && fresh(stack.data) && stack.Valid()
        invariant EntriesOk(nodes, stack.Contents(), r) && Covers(tris, sp, stack.Contents(), best, r)
        invariant Le(best, first.0) && Traced(tris, r, first, best, src)
        decreases StackWeight(stack.Contents(), sp)
      {
        var o;
        o, best, src := Step(stack, nodes, tris, sp, r, first, best, src);
        if o.Fail? {
          return Failure(StackOverflow);
        }
      }
      TraversalDone(tris, source, sp, r, first, best, src);
      res := Success(TreeHit(best != Huge, best, src));
    }
  }
}

=== FILE: centroid_sort.dfy ===
/**
  Ordering triangles by their centroid along one axis, as both BVH builders do
  with `std::sort`, and the `std::lower_bound` the older builder uses to find
  its split point. The key is a parameter: the SAH builder sorts plain
  triangles by `CentroidKey`, the older builder sorts soup triangles by the
  centroid of the triangle each one wraps.
*/
module CentroidSort {
  import opened Vectors
  import opened Primitives

  /** Non-decreasing keys along `a`. */
  predicate SortedBy<T>(s: seq<T>, key: (T, Axis) -> real, a: Axis) {
    forall i, j :: 0 <= i < j < |s| ==> key(s[i], a) <= key(s[j], a)
  }

  /**
    Inserts `t` into a sorted sequence after every element whose key is not
    greater than its own.
  */
  function Insert<T>(s: seq<T>, t: T, key: (T, Axis) -> real, a: Axis): (r: seq<T>)
    ensures multiset(r) == multiset(s) + multiset{t}
    ensures |r| == |s| + 1
    ensures forall i :: 0 <= i < |r| ==> r[i] == t || r[i] in s
  {
    if |s| == 0 then [t]
    else if key(t, a) < key(s[|s| - 1], a) then
      assert s == s[..|s| - 1] + [s[|s| - 1]];
      Insert(s[..|s| - 1], t, key, a) + [s[|s| - 1]]
    else
      s + [t]
  }

  lemma {:induction false} InsertSorted<T>(s: seq<T>, t: T, key: (T, Axis) -> real, a: Axis)
    requires SortedBy(s, key, a)
    ensures SortedBy(Insert(s, t, key, a), key, a)
  {
    if |s| > 0 && key(t, a) < key(s[|s| - 1], a) {
      var init, last := s[..|s| - 1], s[|s| - 1];
      InsertSorted(init, t, key, a);
      var r0 := Insert(init, t, key, a);
      forall i | 0 <= i < |r0|
        ensures key(r0[i], a) <= key(last, a)
      {
        if r0[i] != t {
          var j :| 0 <= j < |init| && init[j] == r0[i];
        }
      }
      SortedAppend(r0, last, key, a);
      assert Insert(s, t, key, a) == r0 + [last];
    }
  }

  /** Appending an element not below any key keeps a sequence sorted. */
  lemma SortedAppend<T>(r: seq<T>, t: T, key: (T, Axis) -> real, a: Axis)
    requires SortedBy(r, key, a)
    requires forall i :: 0 <= i < |r| ==> key(r[i], a) <= key(t, a)
    ensures SortedBy(r + [t], key, a)
  {
  }

  /**
    std::sort with the comparator `c1.*axis < c2.*axis`. The library's sort is
    not stable; the model fixes one of its legal outcomes, the stable one.
  */
  function SortByKey<T>(s: seq<T>, key: (T, Axis) -> real, a: Axis): (r: seq<T>)
    ensures SortedBy(r, key, a)
    ensures multiset(r) == multiset(s)
    ensures |r| == |s|
  {
    if |s| == 0 then []
    else
      assert s == s[..|s| - 1] + [s[|s| - 1]];
      InsertSorted(SortByKey(s[..|s| - 1], key, a), s[|s| - 1], key, a);
      Insert(SortByKey(s[..|s| - 1], key, a), s[|s| - 1], key, a)
  }

  /**
    std::lower_bound on a sorted sequence: the first position whose key is not
    less than `x`, or the length when there is none.
  */
  function LowerBound<T>(s: seq<T>, key: (T, Axis) -> real, a: Axis, x: real): (k: nat)
    ensures k <= |s|
    ensures forall i :: 0 <= i < k ==> key(s[i], a) < x
    ensures k < |s| ==> key(s[k], a) >= x
  {
    if |s| == 0 || key(s[0], a) >= x then 0
    else 1 + LowerBound(s[1..], key, a, x)
  }

  /** On a sorted sequence the lower bound splits it into keys below `x` and keys at least `x`. */
  lemma LowerBoundPartitions<T>(s: seq<T>, key: (T, Axis) -> real, a: Axis, x: real)
    requires SortedBy(s, key, a)
    ensures forall i :: LowerBound(s, key, a, x) <= i < |s| ==> key(s[i], a) >= x
  {
  }

  /** A sorted sequence is its own sort. */
  lemma {:induction false} SortIdempotent<T>(s: seq<T>, key: (T, Axis) -> real, a: Axis)
    requires SortedBy(s, key, a)
    ensures SortByKey(s, key, a) == s
  {
    if |s| > 0 {
      var init, last := s[..|s| - 1], s[|s| - 1];
      SortedPrefix(s, key, a);
      calc {
        SortByKey(s, key, a);
        Insert(SortByKey(init, key, a), last, key, a);
        { SortIdempotent(init, key, a); }
        Insert(init, last, key, a);
        { InsertLast(init, last, key, a); }
        init + [last];
        s;
      }
    }
  }

  /** Dropping the last element keeps a sequence sorted, and that element is not below the new last. */
  lemma SortedPrefix<T>(s: seq<T>, key: (T, Axis) -> real, a: Axis)
    requires SortedBy(s, key, a) && |s| > 0
    ensures SortedBy(s[..|s| - 1], key, a)
    ensures |s| > 1 ==> key(s[|s| - 2], a) <= key(s[|s| - 1], a)
  {
  }

  /** An element whose key is not below the last one is appended. */
  lemma InsertLast<T>(s: seq<T>, t: T, key: (T, Axis) -> real, a: Axis)
    requires |s| > 0 ==> key(s[|s| - 1], a) <= key(t, a)
    ensures Insert(s, t, key, a) == s + [t]
  {
  }
}

=== FILE: image.dfy ===
/**
  The two-dimensional image container (src/containers/image.hpp): a width, a
  height and a row-major vector of pixels of any type. The vector is not tied
  to the dimensions: the `(w, h)` constructor only reserves room for `w * h`
  pixels, so a freshly made image holds none.

  C++ `int` arithmetic is modelled on unbounded integers: dimensions and
  coordinates large enough to overflow `y * width + x` or `width * height`
  are outside the model.
*/
module Images {
  import opened Wrappers

  /** The exceptions the container throws. */
  datatype ImageError =
    | OutOfRange          // std::vector::at past the end
    | DimensionMismatch   // the runtime_error of operator+= and operator+

  /** Row-major addressing: pixel `(x, y)` of a `width`-wide image. */
  function PixelIndex(width: int, x: int, y: int): int {
    y * width + x
  }

  /** Every element of `s` put through `conv`, in order. */
  function Mapped<U, T>(s: seq<U>, conv: U -> T): (r: seq<T>)
    ensures |r| == |s| && forall i :: 0 <= i < |s| ==> r[i] == conv(s[i])
  {
    seq(|s|, i requires 0 <= i < |s| => conv(s[i]))
  }

  /** The first `n` elements of `dst` overwritten by those of `src`. */
  function Overwritten<T>(dst: seq<T>, src: seq<T>, n: nat): (r: seq<T>)
    requires n <= |dst| && n <= |src|
    ensures |r| == |dst|
    ensures forall i :: 0 <= i < n ==> r[i] == src[i]
    ensures forall i :: n <= i < |dst| ==> r[i] == dst[i]
  {
    src[..n] + dst[n..]
  }

  class Image<T> {
    var width: int
    var height: int
    var data: seq<T>

    /** image(w, h): the given dimensions and no pixels yet. */
    constructor Blank(w: int, h: int)
      ensures width == w && height == h && data == []
      ensures forall x, y :: AtPixel(x, y) == Failure(OutOfRange)
    {
      width := w;
      height := h;
      data := [];
    }

    /** The copy constructor. */
    constructor Copy(src: Image<T>)
      ensures width == src.width && height == src.height && data == src.data
    {
      width := src.width;
      height := src.height;
      data := src.data;
    }

    /** size(): the pixel count the dimensions call for. */
    function Size(): (n: int)
      reads this
      ensures 0 <= width && 0 <= height ==> 0 <= n
      ensures forall x, y :: 0 <= x < width && 0 <= y < height ==> 0 <= PixelIndex(width, x, y) < n
    {
      PixelsInRange(width, height);
      width * height
    }

    /** get_dimensions(). */
    function Dimensions(): (d: (int, int))
      reads this
      ensures d.0 * d.1 == Size()
    {
      (width, height)
    }

    /** operator[]: unchecked, so the index must be in the data, where it agrees with at(). */
    function Get(i: int): (v: T)
      reads this
      requires 0 <= i < |data|
      ensures At(i) == Success(v)
    {
      data[i]
    }

    /** at(): std::vector::at, which throws at or beyond the data's length. */
    function At(i: int): (r: Result<T, ImageError>)
      reads this
      ensures r.Success? <==> 0 <= i < |data|
      ensures r.Success? ==> r.value == data[i]
      ensures r.Failure? ==> r.error == OutOfRange
    {
      if 0 <= i < |data| then Success(data[i]) else Failure(OutOfRange)
    }

    /** pixel(x, y): unchecked access to element `y * width + x`, where it agrees with at_pixel(). */
    function Pixel(x: int, y: int): (v: T)
      reads this
      requires 0 <= PixelIndex(width, x, y) < |data|
      ensures AtPixel(x, y) == Success(v)
    {
      Get(PixelIndex(width, x, y))
    }

    /** at_pixel(x, y): checked access to element `y * width + x`. */
    function AtPixel(x: int, y: int): (r: Result<T, ImageError>)
      reads this
      ensures r.Success? <==> 0 <= PixelIndex(width, x, y) < |data|
      ensures r.Success? ==> r.value == data[PixelIndex(width, x, y)]
      ensures r.Failure? ==> r.error == OutOfRange
    {
      At(PixelIndex(width, x, y))
    }

    /**
      operator+=: throws when the dimensions differ; otherwise each of the
      first size() elements is overwritten by the right-hand side's (an
      assignment, not a sum). Both vectors are indexed unchecked, so both must
      hold size() elements. The right-hand side may be this image itself.
    */
    method AddAssign(rhs: Image<T>) returns (res: Outcome<ImageError>)
      requires Dimensions() == rhs.Dimensions() ==> 0 <= Size() <= |data| && Size() <= |rhs.data|
      modifies this
      ensures width == old(width) && height == old(height)
      ensures res.Fail? <==> old(Dimensions()) != old(rhs.Dimensions())
      ensures res.Fail? ==> res.error == DimensionMismatch && data == old(data)
      ensures res.Pass? ==> data == Overwritten(old(data), old(rhs.data), old(Size()))
    {
      if Dimensions() != rhs.Dimensions() {
        return Fail(DimensionMismatch);
      }
      // Element i of the right-hand side is read before any write to it, so
      // overwriting from its contents on entry is the same even when rhs is this.
      Overwrite(this, rhs.data);
      return Pass;
    }
  }

  /**
    The tonemapping and type-converting constructors: the source's dimensions
    and every pixel converted, in order.
  */
  method Convert<U, T>(src: Image<U>, conv: U -> T) returns (img: Image<T>)
    ensures fresh(img)
    ensures img.width == src.width && img.height == src.height
    ensures img.data == Mapped(src.data, conv)
  {
    img := new Image<T>.Blank(src.width, src.height);
    for i := 0 to |src.data|
      invariant img.width == src.width && img.height == src.height
      invariant img.data == Mapped(src.data[..i], conv)
    {
      img.data := img.data + [conv(src.data[i])];
    }
    assert src.data[..|src.data|] == src.data;
  }

  /**
    operator+ on two images of the same type: throws when the dimensions
    differ; otherwise a copy of the left operand with its first size()
    elements overwritten by the right operand's.
  */
  method Add<T>(lhs: Image<T>, rhs: Image<T>) returns (res: Result<Image<T>, ImageError>)
    requires lhs.Dimensions() == rhs.Dimensions() ==> 0 <= lhs.Size() <= |lhs.data| && lhs.Size() <= |rhs.data|
    ensures res.Failure? <==> lhs.Dimensions() != rhs.Dimensions()
    ensures res.Failure? ==> res.error == DimensionMismatch
    ensures res.Success? ==>
      (fresh(res.value)
       && res.value.Dimensions() == lhs.Dimensions()
       && res.value.data == Overwritten(lhs.data, rhs.data, lhs.Size()))
  {
    if lhs.Dimensions() != rhs.Dimensions() {
      return Failure(DimensionMismatch);
    }
    var sum := new Image<T>.Copy(lhs);
    Overwrite(sum, rhs.data);
    return Success(sum);
  }

  /**
    operator+ on images of two pixel types: as for one type, after the right
    operand has been converted to the left one's pixel type.
  */
  method AddConverted<T, U>(lhs: Image<T>, rhs: Image<U>, conv: U -> T) returns (res: Result<Image<T>, ImageError>)
    requires lhs.Dimensions() == rhs.Dimensions() ==> 0 <= lhs.Size() <= |lhs.data| && lhs.Size() <= |rhs.data|
    ensures res.Failure? <==> lhs.Dimensions() != rhs.Dimensions()
    ensures res.Failure? ==> res.error == DimensionMismatch
    ensures res.Success? ==>
      (fresh(res.value)
       && res.value.Dimensions() == lhs.Dimensions()
       && res.value.data == Overwritten(lhs.data, Mapped(rhs.data, conv), lhs.Size()))
  {
    if lhs.Dimensions() != rhs.Dimensions() {
      return Failure(DimensionMismatch);
    }
    var sum := new Image<T>.Copy(lhs);
    var converted := Convert(rhs, conv);
    Overwrite(sum, converted.data);
    return Success(sum);
  }

  /** The loop both operator+ overloads share: `res[i] = rhs[i]` for every i below size(). */
  method Overwrite<T>(img: Image<T>, src: seq<T>)
    requires 0 <= img.Size() <= |img.data| && img.Size() <= |src|
    modifies img
    ensures img.width == old(img.width) && img.height == old(img.height)
    ensures img.data == Overwritten(old(img.data), src, img.Size())
  {
    ghost var before := img.data;
    var n := img.Size();
    for i := 0 to n
      invariant img.width == old(img.width) && img.height == old(img.height)
      invariant |img.data| == |before|
      invariant forall k :: 0 <= k < i ==> img.data[k] == src[k]
      invariant forall k :: i <= k < |before| ==> img.data[k] == before[k]
    {
      img.data := img.data[i := src[i]];
    }
    assert img.data == Overwritten(before, src, n);
  }

  // ---------------------------------------------------------------------
  // Addressing

  /** The coordinates inside a `width` x `height` image address exactly the indices below width * height. */
  lemma PixelIndexInRange(width: int, height: int, x: int, y: int)
    requires 0 <= x < width && 0 <= y < height
    ensures 0 <= PixelIndex(width, x, y) < width * height
  {
    assert y * width + x < (y + 1) * width;
    assert (y + 1) * width <= height * width by {
      MulLeq(y + 1, height, width);
    }
  }

  /** Every pixel of a `width` by `height` image has its address below `width * height`. */
  lemma PixelsInRange(width: int, height: int)
    ensures forall x, y :: 0 <= x < width && 0 <= y < height ==> 0 <= PixelIndex(width, x, y) < width * height
  {
    forall x, y | 0 <= x < width && 0 <= y < height
      ensures 0 <= PixelIndex(width, x, y) < width * height
    {
      PixelIndexInRange(width, height, x, y);
    }
  }

  /** Row-major addressing is one-to-one: an index gives back its coordinates. */
  lemma PixelIndexCoordinates(width: int, x: int, y: int)
    requires 0 <= x < width && 0 <= y
    ensures PixelIndex(width, x, y) / width == y && PixelIndex(width, x, y) % width == x
  {
    var i := y * width + x;
    RowsUnique(width, y, x, i / width, i % width);
  }

  /** Two rows and columns with the same address are the same. */
  lemma RowsUnique(width: int, y: int, x: int, y': int, x': int)
    requires 0 <= x < width && 0 <= x' < width
    requires y * width + x == y' * width + x'
    ensures y == y' && x == x'
  {
    RowStep(y, width);
    RowStep(y', width);
    if y < y' {
      MulLeq(y + 1, y', width);
      assert false;
    } else if y' < y {
      MulLeq(y' + 1, y, width);
      assert false;
    }
  }

  lemma RowStep(y: int, width: int)
    ensures (y + 1) * width == y * width + width
  {
  }

  lemma MulLeq(a: int, b: int, c: int)
    requires a <= b && 0 <= c
    ensures a * c <= b * c
  {
  }

  // ---------------------------------------------------------------------
  // Access

  /** at_pixel succeeds for every pixel of an image whose data is complete. */
  lemma FullImageAtPixel<T>(img: Image<T>, x: int, y: int)
    requires |img.data| == img.Size() && 0 <= x < img.width && 0 <= y < img.height
    ensures img.AtPixel(x, y).Success?
  {
    PixelIndexInRange(img.width, img.height, x, y);
  }

  /** After overwriting a complete image's pixels, the image is the source: += and + assign rather than add. */
  lemma OverwriteAll<T>(dst: seq<T>, src: seq<T>)
    requires |dst| == |src|
    ensures Overwritten(dst, src, |dst|) == src
  {
    assert dst[|dst|..] == [];
    assert src[..|src|] == src;
  }

  /** Overwriting with the image's own pixels changes nothing. */
  lemma OverwriteSelf<T>(dst: seq<T>, n: nat)
    requires n <= |dst|
    ensures Overwritten(dst, dst, n) == dst
  {
    assert dst[..n] + dst[n..] == dst;
  }
}

=== FILE: jsd_loader.dfy ===
/**
  The Blender JSD scene loader (src/blender_jsd_loader.cpp), after the JSON
  document has been read and parsed: materials are made from their JSON
  description, every object's faces are assembled into triangles that refer
  to the object's material slots, and the camera is the first one listed or
  a fixed default.

  The parsed document is a datatype whose fields are the keys the loader
  reads. A material pointer is the material's index in the scene's material
  list, which starts with the default material.
*/
module JsdLoader {
  import opened Wrappers
  import opened Vectors
  import opened Primitives

  // ---------------------------------------------------------------------
  // The parsed document

  datatype JsdMaterial = JsdMaterial(baseColor: Vec3, emission: Vec3, metallic: real, roughness: real,
                                     transmission: real, ior: real)

  /** A vertex: its position `p` and its normal `n`. */
  datatype JsdVertex = JsdVertex(p: Vec3, n: Vec3)

  /** A face: the vertex indices `vi`, the smooth flag `sm`, the face normal `n` and `mat_id`. */
  datatype JsdFace = JsdFace(vi0: int, vi1: int, vi2: int, smooth: bool, n: Vec3, matId: int)

  datatype JsdObject = JsdObject(name: string, materials: seq<JsdMaterial>, vertices: seq<JsdVertex>,
                                 faces: seq<JsdFace>)

  /** A camera entry; `fov` is the first element of its `fov` array. */
  datatype JsdCamera = JsdCamera(kind: string, fov: real, nearPlane: real, position: Vec3, up: Vec3, forward: Vec3)

  datatype JsdScene = JsdScene(objects: seq<JsdObject>, cameras: seq<JsdCamera>)

  // ---------------------------------------------------------------------
  // What the loader builds

  /** simple_glass_material(color, ior) or pbr_material(color, roughness, metallic, emission). */
  datatype Material =
    | Glass(color: Vec3, ior: real)
    | Pbr(color: Vec3, roughness: real, metallic: real, emission: Vec3)

  /** camera(position, forward, up, near, fov, aspect). */
  datatype Camera = Camera(position: Vec3, forward: Vec3, up: Vec3, nearPlane: real, fov: real, aspect: real)

  /** The exceptions that escape the loader: `out_of_range` from a vertex lookup, and make_camera's runtime_error. */
  datatype LoadError = IndexOutOfRange | NotACamera

  /** The scene: each object's triangle collection, the material list and the camera. */
  datatype LoadedScene = LoadedScene(objects: seq<seq<Triangle>>, materials: seq<Material>, camera: Camera)

  // The loader's float constants, each as the single-precision value it evaluates to.

  /** 0.9 stored in a float: the default material's grey. */
  const Grey: real := 0.89999997615814208984375

  /** 0.01 passed as a float: the default camera's near distance. */
  const NearDistance: real := 0.00999999977648258209228515625

  /** 0.05f: what make_material adds to the roughness. */
  const RoughnessBias: real := 0.0500000007450580596923828125

  /** glm::radians(60.f): the default camera's field of view. */
  const SixtyDegrees: real := 1.0471975803375244140625

  /** pbr_material(grey, roughness 0.5) with the default metallic 0 and no emission. */
  const DefaultMaterial: Material := Pbr(Vec3(Grey, Grey, Grey), 0.5, 0.0, Vec3(0.0, 0.0, 0.0))

  /** The default material is the first of the scene's materials. */
  const DefaultIndex: nat := 0

  const DefaultCamera: Camera :=
    Camera(Vec3(12.0, 1.0, 0.0), Vec3(0.0, 0.0, 1.0), Vec3(0.0, 1.0, 0.0), NearDistance, SixtyDegrees, 1.0)

  /**
    make_material: a glass material when the transmission is non-zero,
    otherwise a PBR material whose roughness is raised by 0.05f.
  */
  function MakeMaterial(m: JsdMaterial): (mat: Material)
    ensures mat.Glass? <==> m.transmission != 0.0
    ensures mat.color == m.baseColor
    ensures mat.Glass? ==> mat.ior == m.ior
    ensures mat.Pbr? ==> mat.roughness == m.roughness + RoughnessBias && mat.metallic == m.metallic && mat.emission == m.emission
  {
    if m.transmission != 0.0 then Glass(m.baseColor, m.ior)
    else Pbr(m.baseColor, RoughnessBias + m.roughness, m.metallic, m.emission)
  }

  /** make_camera: throws unless the entry's type is "camera"; the aspect ratio is 1. */
  function MakeCamera(c: JsdCamera): (res: Result<Camera, LoadError>)
    ensures res.Failure? <==> c.kind != "camera"
    ensures res.Failure? ==> res.error == NotACamera
    ensures res.Success? ==> res.value == Camera(c.position, c.forward, c.up, c.nearPlane, c.fov, 1.0)
  {
    if c.kind != "camera" then Failure(NotACamera)
    else Success(Camera(c.position, c.forward, c.up, c.nearPlane, c.fov, 1.0))
  }

  // ---------------------------------------------------------------------
  // Faces

  /**
    `vector::at` with an int index: the index converts to an unsigned size,
    so a negative index is out of range like one past the end.
  */
  predicate InRange<T>(xs: seq<T>, i: int) {
    0 <= i < |xs|
  }

  /** The material a face's `mat_id` selects: its slot, or the default when there is no such slot. */
  function FaceMaterial(matId: int, slots: seq<nat>): (m: nat)
    ensures InRange(slots, matId) ==> m == slots[matId]
    ensures !InRange(slots, matId) ==> m == DefaultIndex
  {
    if InRange(slots, matId) then slots[matId] else DefaultIndex
  }

  /**
    One face's triangle: its vertices' positions, then either the vertices'
    normals (smooth) or the face normal three times (flat), and the material
    of its slot. A bad vertex index throws.
  */
  function FaceTriangle(f: JsdFace, positions: seq<Vec3>, normals: seq<Vec3>, slots: seq<nat>): (res: Result<Triangle, LoadError>)
    ensures res.Failure? <==>
      (!(InRange(positions, f.vi0) && InRange(positions, f.vi1) && InRange(positions, f.vi2))
       || (f.smooth && !(InRange(normals, f.vi0) && InRange(normals, f.vi1) && InRange(normals, f.vi2))))
    ensures res.Failure? ==> res.error == IndexOutOfRange
    ensures res.Success? ==>
      var t := res.value;
      t.v0 == positions[f.vi0] && t.v1 == positions[f.vi1] && t.v2 == positions[f.vi2]
      && (f.smooth ==> t.n0 == normals[f.vi0] && t.n1 == normals[f.vi1] && t.n2 == normals[f.vi2])
      && (!f.smooth ==> t.n0 == f.n && t.n1 == f.n && t.n2 == f.n)
      && t.material == Some(FaceMaterial(f.matId, slots))
  {
    if !(InRange(positions, f.vi0) && InRange(positions, f.vi1) && InRange(positions, f.vi2)) then
      Failure(IndexOutOfRange)
    else if f.smooth && !(InRange(normals, f.vi0) && InRange(normals, f.vi1) && InRange(normals, f.vi2)) then
      Failure(IndexOutOfRange)
    else
      var mat := Some(FaceMaterial(f.matId, slots));
      if f.smooth then
        Success(Triangle(positions[f.vi0], positions[f.vi1], positions[f.vi2],
                         normals[f.vi0], normals[f.vi1], normals[f.vi2], mat))
      else
        Success(Triangle(positions[f.vi0], positions[f.vi1], positions[f.vi2], f.n, f.n, f.n, mat))
  }

  /**
    A loop that pushes one value per step and stops at the first exception:
    all the values in order, or the first error.
  */
  function Collect<T>(rs: seq<Result<T, LoadError>>): Result<seq<T>, LoadError>
    decreases |rs|
  {
    if |rs| == 0 then Success([])
    else
      match Collect(rs[..|rs| - 1])
      case Failure(e) => Failure(e)
      case Success(ts) =>
        match rs[|rs| - 1]
        case Failure(e) => Failure(e)
        case Success(t) => Success(ts + [t])
  }

  /**
    Collecting succeeds exactly when every step does, and then holds every
    step's value in order; a failure is some step's error.
  */
  lemma {:induction false} CollectExact<T>(rs: seq<Result<T, LoadError>>)
    ensures Collect(rs).Success? <==> forall j :: 0 <= j < |rs| ==> rs[j].Success?
    ensures Collect(rs).Success? ==>
      |Collect(rs).value| == |rs| && forall j :: 0 <= j < |rs| ==> Collect(rs).value[j] == rs[j].value
    ensures Collect(rs).Failure? ==> exists j :: 0 <= j < |rs| && rs[j] == Failure(Collect(rs).error)
    decreases |rs|
  {
    if |rs| > 0 {
      var init := rs[..|rs| - 1];
      CollectExact(init);
      assert forall j :: 0 <= j < |init| ==> init[j] == rs[j];
      if Collect(init).Failure? {
        var j :| 0 <= j < |init| && init[j] == Failure(Collect(init).error);
        assert rs[j] == init[j];
      }
    }
  }

  /** One more step extends the collected prefix. */
  lemma CollectStep<T>(rs: seq<Result<T, LoadError>>, k: nat, ts: seq<T>)
    requires k < |rs| && Collect(rs[..k]) == Success(ts)
    ensures rs[k].Success? ==> Collect(rs[..k + 1]) == Success(ts + [rs[k].value])
  {
    assert rs[..k + 1][..k] == rs[..k];
  }

  /** Once a step fails, collecting the whole sequence fails with its error. */
  lemma {:induction false} CollectFailure<T>(rs: seq<Result<T, LoadError>>, k: nat)
    requires k < |rs| && Collect(rs[..k]).Success? && rs[k].Failure?
    ensures Collect(rs) == Failure(rs[k].error)
    decreases |rs|
  {
    if |rs| == k + 1 {
      assert rs[..|rs| - 1] == rs[..k];
    } else {
      assert rs[..|rs| - 1][..k] == rs[..k];
      CollectFailure(rs[..|rs| - 1], k);
    }
  }

  /** The face loop's steps. */
  function FaceResults(faces: seq<JsdFace>, positions: seq<Vec3>, normals: seq<Vec3>, slots: seq<nat>)
    : (rs: seq<Result<Triangle, LoadError>>)
    ensures |rs| == |faces| && forall j :: 0 <= j < |faces| ==> rs[j] == FaceTriangle(faces[j], positions, normals, slots)
  {
    seq(|faces|, j requires 0 <= j < |faces| => FaceTriangle(faces[j], positions, normals, slots))
  }

  /** Positions and normals come one of each per vertex, so a smooth face never fails on its normals alone. */
  lemma SmoothNormalsNeverFail(f: JsdFace, vertices: seq<JsdVertex>, slots: seq<nat>)
    ensures FaceTriangle(f, Positions(vertices), Normals(vertices), slots).Failure? <==>
      !(InRange(vertices, f.vi0) && InRange(vertices, f.vi1) && InRange(vertices, f.vi2))
  {
  }

  // ---------------------------------------------------------------------
  // Objects

  function Positions(vs: seq<JsdVertex>): (ps: seq<Vec3>)
    ensures |ps| == |vs| && forall i :: 0 <= i < |vs| ==> ps[i] == vs[i].p
  {
    seq(|vs|, i requires 0 <= i < |vs| => vs[i].p)
  }

  function Normals(vs: seq<JsdVertex>): (ns: seq<Vec3>)
    ensures |ns| == |vs| && forall i :: 0 <= i < |vs| ==> ns[i] == vs[i].n
  {
    seq(|vs|, i requires 0 <= i < |vs| => vs[i].n)
  }

  /** The materials an object adds to the scene's list. */
  function ObjectMaterials(obj: JsdObject): (ms: seq<Material>)
    ensures |ms| == |obj.materials| && forall s :: 0 <= s < |ms| ==> ms[s] == MakeMaterial(obj.materials[s])
  {
    seq(|obj.materials|, s requires 0 <= s < |obj.materials| => MakeMaterial(obj.materials[s]))
  }

  /** An object's material slots: where its materials land in the scene's list, starting at `base`. */
  function Slots(base: nat, count: nat): (slots: seq<nat>)
    ensures |slots| == count && forall s :: 0 <= s < count ==> slots[s] == base + s
  {
    seq(count, s requires 0 <= s < count => base + s)
  }

  /** The triangles of an object whose materials start at `base` in the scene's list. */
  function ObjectTriangles(obj: JsdObject, base: nat): Result<seq<Triangle>, LoadError> {
    Collect(FaceResults(obj.faces, Positions(obj.vertices), Normals(obj.vertices), Slots(base, |obj.materials|)))
  }

  /** The material list after the first `k` objects: the default, then each object's materials in order. */
  function MaterialList(objects: seq<JsdObject>, k: nat): (ms: seq<Material>)
    requires k <= |objects|
    ensures |ms| >= 1 && ms[0] == DefaultMaterial
  {
    if k == 0 then [DefaultMaterial] else MaterialList(objects, k - 1) + ObjectMaterials(objects[k - 1])
  }

  /** Where object `k`'s materials start in the scene's list. */
  function Base(objects: seq<JsdObject>, k: nat): nat
    requires k <= |objects|
  {
    |MaterialList(objects, k)|
  }

  /** The objects loop's steps for the first `n` objects. */
  function ObjectResults(objects: seq<JsdObject>, n: nat): (rs: seq<Result<seq<Triangle>, LoadError>>)
    requires n <= |objects|
    ensures |rs| == n && forall k :: 0 <= k < n ==> rs[k] == ObjectTriangles(objects[k], Base(objects, k))
  {
    seq(n, k requires 0 <= k < n => ObjectTriangles(objects[k], Base(objects, k)))
  }

  /** The loaded scene, or the first exception: the objects are loaded before the camera is made. */
  function Loaded(data: JsdScene): Result<LoadedScene, LoadError> {
    match Collect(ObjectResults(data.objects, |data.objects|))
    case Failure(e) => Failure(e)
    case Success(os) =>
      var materials := MaterialList(data.objects, |data.objects|);
      if |data.cameras| > 0 then
        match MakeCamera(data.cameras[0])
        case Failure(e) => Failure(e)
        case Success(c) => Success(LoadedScene(os, materials, c))
      else Success(LoadedScene(os, materials, DefaultCamera))
  }

  // ---------------------------------------------------------------------
  // The loops

  /**
    The body of the objects loop for one object: its materials are made and
    appended both to its slots and to the scene's list, its vertices are split
    into positions and normals, and its faces become triangles.
  */
  method LoadObject(obj: JsdObject, materials: seq<Material>) returns (res: Result<seq<Triangle>, LoadError>, materials': seq<Material>)
    ensures materials' == materials + ObjectMaterials(obj)
    ensures res == ObjectTriangles(obj, |materials|)
  {
    var slots: seq<nat> := [];
    materials' := materials;
    for s := 0 to |obj.materials|
      invariant slots == Slots(|materials|, s)
      invariant materials' == materials + ObjectMaterials(obj)[..s]
    {
      var mat := MakeMaterial(obj.materials[s]);
      assert ObjectMaterials(obj)[..s + 1] == ObjectMaterials(obj)[..s] + [mat];
      slots := slots + [|materials'|];
      materials' := materials' + [mat];
    }
    assert ObjectMaterials(obj)[..|obj.materials|] == ObjectMaterials(obj);
    var positions: seq<Vec3> := [];
    var normals: seq<Vec3> := [];
    for v := 0 to |obj.vertices|
      invariant positions == Positions(obj.vertices[..v])
      invariant normals == Normals(obj.vertices[..v])
    {
      assert obj.vertices[..v + 1] == obj.vertices[..v] + [obj.vertices[v]];
      positions := positions + [obj.vertices[v].p];
      normals := normals + [obj.vertices[v].n];
    }
    assert obj.vertices[..|obj.vertices|] == obj.vertices;
    var triangles: seq<Triangle> := [];
    ghost var rs := FaceResults(obj.faces, positions, normals, slots);
    for j := 0 to |obj.faces|
      invariant Collect(rs[..j]) == Success(triangles)
    {
      var t := FaceTriangle(obj.faces[j], positions, normals, slots);
      if t.Failure? {
        CollectFailure(rs, j);
        return Failure(t.error), materials';
      }
      CollectStep(rs, j, triangles);
      triangles := triangles + [t.value];
    }
    assert rs[..|rs|] == rs;
    res := Success(triangles);
  }

  /**
    load_jsd_scene after parsing: the material list starts with the default
    material, each object's collection is loaded in turn, and the camera is
    the first listed one or the default.
  */
  method LoadScene(data: JsdScene) returns (res: Result<LoadedScene, LoadError>)
    ensures res == Loaded(data)
  {
    var loaded, materials := LoadObjects(data.objects);
    if loaded.Failure? {
      return Failure(loaded.error);
    }
    var camera := DefaultCamera;
    if |data.cameras| > 0 {
      var c := MakeCamera(data.cameras[0]);
      if c.Failure? {
        return Failure(c.error);
      }
      camera := c.value;
    }
    return Success(LoadedScene(loaded.value, materials, camera));
  }

  /** The objects loop: each object's triangles in turn, the material list growing with each object. */
  method LoadObjects(objects: seq<JsdObject>) returns (res: Result<seq<seq<Triangle>>, LoadError>, materials: seq<Material>)
    ensures res == Collect(ObjectResults(objects, |objects|))
    ensures res.Success? ==> materials == MaterialList(objects, |objects|)
  {
    materials := [DefaultMaterial];
    var loaded: seq<seq<Triangle>> := [];
    ghost var rs := ObjectResults(objects, |objects|);
    for k := 0 to |objects|
      invariant materials == MaterialList(objects, k)
      invariant Collect(rs[..k]) == Success(loaded)
    {
      var r;
      r, materials := LoadObject(objects[k], materials);
      if r.Failure? {
        CollectFailure(rs, k);
        return Failure(r.error), materials;
      }
      CollectStep(rs, k, loaded);
      loaded := loaded + [r.value];
    }
    assert rs[..|rs|] == rs;
    return Success(loaded), materials;
  }

  // ---------------------------------------------------------------------
  // What a loaded scene holds

  /** The material list holds the default and then every object's materials, slot by slot. */
  lemma {:induction false} MaterialListSlots(objects: seq<JsdObject>, n: nat, k: nat, s: nat)
    requires k < n <= |objects| && s < |objects[k].materials|
    ensures Base(objects, k) + s < |MaterialList(objects, n)|
    ensures MaterialList(objects, n)[Base(objects, k) + s] == MakeMaterial(objects[k].materials[s])
    decreases n
  {
    if n > k + 1 {
      MaterialListSlots(objects, n - 1, k, s);
    }
  }

  /** Every exception an object's faces raise is out_of_range. */
  lemma ObjectTrianglesError(obj: JsdObject, base: nat)
    ensures ObjectTriangles(obj, base).Failure? ==> ObjectTriangles(obj, base).error == IndexOutOfRange
  {
    var rs := FaceResults(obj.faces, Positions(obj.vertices), Normals(obj.vertices), Slots(base, |obj.materials|));
    CollectExact(rs);
    if Collect(rs).Failure? {
      var j :| 0 <= j < |rs| && rs[j] == Failure(Collect(rs).error);
    }
  }

  /** Every exception the objects loop raises is out_of_range; only the camera raises anything else. */
  lemma LoadedError(data: JsdScene)
    ensures Loaded(data).Failure? && Loaded(data).error != IndexOutOfRange ==>
      |data.cameras| > 0 && data.cameras[0].kind != "camera" && Loaded(data).error == NotACamera
  {
    var rs := ObjectResults(data.objects, |data.objects|);
    CollectExact(rs);
    if Collect(rs).Failure? {
      var k :| 0 <= k < |rs| && rs[k] == Failure(Collect(rs).error);
      ObjectTrianglesError(data.objects[k], Base(data.objects, k));
    }
  }

  /** The scene's camera is the first listed camera when there is one, otherwise the default. */
  lemma LoadedCamera(data: JsdScene)
    requires Loaded(data).Success?
    ensures |data.cameras| > 0 ==> data.cameras[0].kind == "camera" && Loaded(data).value.camera == MakeCamera(data.cameras[0]).value
    ensures |data.cameras| == 0 ==> Loaded(data).value.camera == DefaultCamera
  {
  }

  /** A loaded scene holds what the objects loop collected and the full material list. */
  lemma LoadedObjects(data: JsdScene)
    requires Loaded(data).Success?
    ensures Collect(ObjectResults(data.objects, |data.objects|)).Success?
    ensures Loaded(data).value.objects == Collect(ObjectResults(data.objects, |data.objects|)).value
    ensures Loaded(data).value.materials == MaterialList(data.objects, |data.objects|)
  {
  }

  /**
    A loaded scene holds one collection per object, and object `k`'s `j`-th
    triangle is its `j`-th face's, with the object's materials starting at
    its base in the scene's list.
  */
  lemma LoadedTriangle(data: JsdScene, k: nat, j: nat)
    requires Loaded(data).Success? && k < |data.objects| && j < |data.objects[k].faces|
    ensures var sc := Loaded(data).value;
      var obj := data.objects[k];
      var t := FaceTriangle(obj.faces[j], Positions(obj.vertices), Normals(obj.vertices), Slots(Base(data.objects, k), |obj.materials|));
      |sc.objects| == |data.objects| && |sc.objects[k]| == |obj.faces| && t.Success? && sc.objects[k][j] == t.value
  {
    var objects := data.objects;
    var obj := objects[k];
    var rs := ObjectResults(objects, |objects|);
    LoadedObjects(data);
    CollectExact(rs);
    var os := Collect(rs).value;
    assert os[k] == rs[k].value;
    var fs := FaceResults(obj.faces, Positions(obj.vertices), Normals(obj.vertices), Slots(Base(objects, k), |obj.materials|));
    assert rs[k] == Collect(fs);
    CollectExact(fs);
    assert os[k][j] == fs[j].value;
  }

  /** The material list entry a face's `mat_id` selects: its slot's material, or the default. */
  lemma SlotMaterial(objects: seq<JsdObject>, k: nat, matId: int)
    requires k < |objects|
    ensures var m := FaceMaterial(matId, Slots(Base(objects, k), |objects[k].materials|));
      m < |MaterialList(objects, |objects|)|
      && MaterialList(objects, |objects|)[m]
         == (if InRange(objects[k].materials, matId) then MakeMaterial(objects[k].materials[matId]) else DefaultMaterial)
  {
    if InRange(objects[k].materials, matId) {
      MaterialListSlots(objects, |objects|, k, matId);
    }
  }

  /**
    Every triangle of a loaded scene refers to a material of the scene's list:
    the material made from its face's slot, or the default material when the
    face's `mat_id` names no slot of its object.
  */
  lemma TriangleMaterial(data: JsdScene, k: nat, j: nat)
    requires Loaded(data).Success? && k < |data.objects| && j < |data.objects[k].faces|
    ensures var sc := Loaded(data).value;
      var obj := data.objects[k];
      var f := obj.faces[j];
      k < |sc.objects| && j < |sc.objects[k]| && sc.objects[k][j].material.Some?
      && sc.objects[k][j].material.value < |sc.materials|
      && sc.materials[sc.objects[k][j].material.value]
         == (if InRange(obj.materials, f.matId) then MakeMaterial(obj.materials[f.matId]) else DefaultMaterial)
  {
    LoadedTriangle(data, k, j);
    LoadedObjects(data);
    SlotMaterial(data.objects, k, data.objects[k].faces[j].matId);
  }

  /** Every face of every object becomes exactly one triangle, in face order, with its vertices' positions. */
  lemma TriangleVertices(data: JsdScene, k: nat, j: nat)
    requires Loaded(data).Success? && k < |data.objects| && j < |data.objects[k].faces|
    ensures var sc := Loaded(data).value;
      var obj := data.objects[k];
      var f := obj.faces[j];
      |sc.objects| == |data.objects| && |sc.objects[k]| == |obj.faces|
      && InRange(obj.vertices, f.vi0) && InRange(obj.vertices, f.vi1) && InRange(obj.vertices, f.vi2)
      && sc.objects[k][j].v0 == obj.vertices[f.vi0].p
      && sc.objects[k][j].v1 == obj.vertices[f.vi1].p
      && sc.objects[k][j].v2 == obj.vertices[f.vi2].p
  {
    LoadedTriangle(data, k, j);
  }

  /** A face with a bad vertex index makes its object fail. */
  lemma BadVertexObject(obj: JsdObject, base: nat, j: nat)
    requires j < |obj.faces|
    requires var f := obj.faces[j];
      !(InRange(obj.vertices, f.vi0) && InRange(obj.vertices, f.vi1) && InRange(obj.vertices, f.vi2))
    ensures ObjectTriangles(obj, base).Failure?
  {
    var fs := FaceResults(obj.faces, Positions(obj.vertices), Normals(obj.vertices), Slots(base, |obj.materials|));
    CollectExact(fs);
    assert fs[j].Failure?;
  }

  /** An object that fails makes the objects loop fail with out_of_range. */
  lemma FailingObject(objects: seq<JsdObject>, k: nat)
    requires k < |objects| && ObjectTriangles(objects[k], Base(objects, k)).Failure?
    ensures Collect(ObjectResults(objects, |objects|)) == Failure(IndexOutOfRange)
  {
    var rs := ObjectResults(objects, |objects|);
    CollectExact(rs);
    assert rs[k].Failure?;
    var k' :| 0 <= k' < |rs| && rs[k'] == Failure(Collect(rs).error);
    ObjectTrianglesError(objects[k'], Base(objects, k'));
  }

  /** A face with a bad vertex index makes the whole load fail with out_of_range. */
  lemma BadVertexFails(data: JsdScene, k: nat, j: nat)
    requires k < |data.objects| && j < |data.objects[k].faces|
    requires var f := data.objects[k].faces[j];
      !(InRange(data.objects[k].vertices, f.vi0) && InRange(data.objects[k].vertices, f.vi1) && InRange(data.objects[k].vertices, f.vi2))
    ensures Loaded(data) == Failure(IndexOutOfRange)
  {
    BadVertexObject(data.objects[k], Base(data.objects, k), j);
    FailingObject(data.objects, k);
  }
}

=== FILE: linear_stack.dfy ===
/**
  The fixed-capacity stack kept inside the object (src/linear_stack.hpp): a
  buffer of `N` elements and a top pointer, with overflow and underflow
  reported as exceptions.
*/
module LinearStacks {
  import opened Wrappers

  datatype StackError = StackOverflow | StackUnderflow | StackOutOfRange

  class LinearStack<T(0)> {
    /** The capacity, a template argument in the C++. */
    const capacity: nat
    /** The in-object buffer `m_data`. */
    const data: array<T>
    /** `m_top_ptr - m_data`: the number of elements on the stack. */
    var top: nat

    ghost predicate Valid()
      reads this
    {
      data.Length == capacity && top <= capacity
    }

    /** The elements on the stack, bottom first. */
    function Contents(): seq<T>
      reads this, data
      requires Valid()
    {
      data[..top]
    }

    /** A new stack starts empty: the top pointer is the start of the buffer. */
    constructor(n: nat)
      ensures Valid() && capacity == n && Contents() == []
      ensures fresh(data)
    {
      capacity := n;
      data := new T[n];
      top := 0;
    }

    /** empty(). */
    predicate Empty()
      reads this, data
      requires Valid()
      ensures Empty() <==> Contents() == []
    {
      top == 0
    }

    /** push: overflow_error when full, otherwise the element goes on top. */
    method Push(x: T) returns (r: Outcome<StackError>)
      requires Valid()
      modifies this, data
      ensures Valid()
      ensures |old(Contents())| == capacity ==> r == Fail(StackOverflow) && Contents() == old(Contents())
      ensures |old(Contents())| < capacity ==> r == Pass && Contents() == old(Contents()) + [x]
    {
      if top == capacity {
        return Fail(StackOverflow);
      }
      data[top] := x;
      top := top + 1;
      r := Pass;
    }

    /** emplace: the same as push, with the element built in place. */
    method Emplace(x: T) returns (r: Outcome<StackError>)
      requires Valid()
      modifies this, data
      ensures Valid()
      ensures |old(Contents())| == capacity ==> r == Fail(StackOverflow) && Contents() == old(Contents())
      ensures |old(Contents())| < capacity ==> r == Pass && Contents() == old(Contents()) + [x]
    {
      r := Push(x);
    }

    /** pop: underflow_error when empty, otherwise the top element is dropped. */
    method Pop() returns (r: Outcome<StackError>)
      requires Valid()
      modifies this
      ensures Valid()
      ensures old(Contents()) == [] ==> r == Fail(StackUnderflow) && Contents() == old(Contents())
      ensures old(Contents()) != [] ==> r == Pass && Contents() == old(Contents())[..|old(Contents())| - 1]
    {
      if Empty() {
        return Fail(StackUnderflow);
      }
      top := top - 1;
      r := Pass;
    }

    /** top: out_of_range when empty, otherwise the element pushed last. */
    function Top(): (r: Result<T, StackError>)
      reads this, data
      requires Valid()
      ensures Contents() == [] <==> r == Failure(StackOutOfRange)
      ensures Contents() != [] ==> r == Success(Contents()[|Contents()| - 1])
    {
      if Empty() then Failure(StackOutOfRange) else Success(data[top - 1])
    }
  }

  /** Last in, first out: a push followed by a pop leaves the stack as it was. */
  method PushThenPop<T(0)>(s: LinearStack<T>, x: T) returns (seen: Result<T, StackError>)
    requires s.Valid() && |s.Contents()| < s.capacity
    modifies s, s.data
    ensures s.Valid() && s.Contents() == old(s.Contents())
    ensures seen == Success(x)
  {
    var _ := s.Push(x);
    seen := s.Top();
    var _ := s.Pop();
  }
}

=== FILE: linear_tree.dfy ===
/**
  The array-backed binary tree (src/linear_tree.hpp). Node `i` has children
  `2i+1` and `2i+2`; an iterator is just the tree plus an unsigned 32-bit
  index, so the index arithmetic wraps modulo 2^32 as the C++ does.
*/
module LinearTrees {
  import opened Wrappers

  const U32: int := 0x1_0000_0000

  /** The iterator's `unsigned int` node index. */
  type Index = i: int | 0 <= i < U32

  /** set_height refuses heights above this. */
  const MaxHeight: int := 25

  /** The node count of a tree of the largest height: 1 << 24. */
  const MaxNodes: nat := 0x100_0000

  datatype TreeError = Overflow | OutOfRange | BadOptionalAccess

  function Pow2(k: nat): (p: nat)
    ensures p >= 1
  {
    if k == 0 then 1 else 2 * Pow2(k - 1)
  }

  lemma {:induction false} Pow2Monotone(a: nat, b: nat)
    requires a <= b
    ensures Pow2(a) <= Pow2(b)
  {
    if a < b {
      Pow2Monotone(a, b - 1);
    }
  }

  /** `1 << (height - 1)` for every height set_height accepts is at most 2^24. */
  lemma HeightBound(h: int)
    requires 1 <= h <= MaxHeight
    ensures Pow2(h - 1) <= MaxNodes
  {
    Pow2Monotone(h - 1, 24);
    assert Pow2(4) == 16;
    assert Pow2(8) == 256;
    assert Pow2(12) == 4096;
    assert Pow2(16) == 65536;
    assert Pow2(20) == 1048576;
    assert Pow2(24) == MaxNodes;
  }

  // ---------------------------------------------------------------------
  // Index arithmetic of the iterator

  const Root: Index := 0

  function Left(i: Index): Index { (2 * i + 1) % U32 }

  function Right(i: Index): Index { (2 * i + 2) % U32 }

  /** `(m_index - 1) / 2` in unsigned arithmetic: the root's parent wraps to 2^31 - 1. */
  function Parent(i: Index): Index { ((i - 1) % U32) / 2 }

  /** floor(log2(n)), characterised by the powers of two around `n`. */
  function Log2(n: nat): (k: nat)
    requires n >= 1
    ensures Pow2(k) <= n < Pow2(k + 1)
  {
    if n == 1 then 0 else 1 + Log2(n / 2)
  }

  /**
    get_layer: the depth of a node. The index `2^32 - 1` would wrap `m_index + 1`
    to zero and take the logarithm of zero, so it is excluded.
  */
  function Layer(i: Index): (k: nat)
    requires i + 1 < U32
    ensures Pow2(k) - 1 <= i < Pow2(k + 1) - 1
  {
    Log2(i + 1)
  }

  lemma RootParentWraps()
    ensures Parent(Root) == 0x7FFF_FFFF
  {
  }

  /** Below the wrap-around, both children of a node have that node as parent. */
  lemma ParentOfChildren(i: Index)
    requires i < 0x7FFF_FFFF
    ensures Left(i) == 2 * i + 1 && Right(i) == 2 * i + 2
    ensures Parent(Left(i)) == i && Parent(Right(i)) == i
  {
  }

  /** Every node but the root is a child of its parent: the left one exactly when odd. */
  lemma ChildOfParent(i: Index)
    requires i > 0
    ensures Parent(i) < i
    ensures i % 2 == 1 ==> Left(Parent(i)) == i
    ensures i % 2 == 0 ==> Right(Parent(i)) == i
  {
  }

  /** Children lie exactly one layer below their parent. */
  lemma LayerOfChildren(i: Index)
    requires i < 0x7FFF_FFFF
    ensures Layer(Left(i)) == Layer(i) + 1 && Layer(Right(i)) == Layer(i) + 1
  {
    var k := Layer(i);
    ParentOfChildren(i);
    LayerUnique(2 * i + 1, k + 1);
    LayerUnique(2 * i + 2, k + 1);
  }

  lemma LayerUnique(i: Index, k: nat)
    requires i + 1 < U32 && Pow2(k) - 1 <= i < Pow2(k + 1) - 1
    ensures Layer(i) == k
  {
    var l := Layer(i);
    if l < k {
      Pow2Monotone(l + 1, k);
    } else if k < l {
      Pow2Monotone(k + 1, l);
    }
  }

  // ---------------------------------------------------------------------
  // Node storage: the vector of optional values

  /** has_value: the index is in range and the slot holds a value. */
  predicate HasValue<T>(nodes: seq<Option<T>>, i: Index) {
    i < |nodes| && nodes[i].Some?
  }

  /** can_emplace: the node has a value, has a parent with a value, or is the root. */
  predicate CanEmplace<T>(nodes: seq<Option<T>>, i: Index) {
    HasValue(nodes, i) || HasValue(nodes, Parent(i)) || i == Root
  }

  /** std::vector::resize: keeps a prefix and pads with empty slots. */
  function Resize<T>(nodes: seq<Option<T>>, n: nat): (r: seq<Option<T>>)
    ensures |r| == n
    ensures forall k :: 0 <= k < n && k < |nodes| ==> r[k] == nodes[k]
    ensures forall k :: |nodes| <= k < n ==> r[k] == None
  {
    if n <= |nodes| then nodes[..n] else nodes + seq(n - |nodes|, _ => None)
  }

  /** Every node with a value, except the root, has a parent with a value. */
  predicate NoOrphans<T>(nodes: seq<Option<T>>)
    requires |nodes| <= MaxNodes
  {
    forall j :: 0 < j < |nodes| && nodes[j].Some? ==> HasValue(nodes, Parent(j))
  }

  /**
    A node that can be emplaced but lies beyond the storage is at most twice the
    node count, and exactly twice it only as the right child of the last slot:
    growing one layer (doubling the storage) does not always make room for it.
  */
  lemma EmplaceReach<T>(nodes: seq<Option<T>>, i: Index)
    requires 1 <= |nodes| <= MaxNodes && CanEmplace(nodes, i) && i >= |nodes|
    ensures i <= 2 * |nodes|
    ensures i == 2 * |nodes| <==> i == Right(|nodes| - 1)
  {
    assert HasValue(nodes, Parent(i));
  }

  /** Both children of a node with a value can be emplaced. */
  lemma ChildrenCanEmplace<T>(nodes: seq<Option<T>>, i: Index)
    requires |nodes| <= MaxNodes && HasValue(nodes, i)
    ensures CanEmplace(nodes, Left(i)) && CanEmplace(nodes, Right(i))
  {
    ParentOfChildren(i);
  }

  /** The root never has a parent: its wrapped parent index lies beyond any storage. */
  lemma RootHasNoParent<T>(nodes: seq<Option<T>>)
    requires |nodes| <= MaxNodes
    ensures !HasValue(nodes, Parent(Root))
  {
  }

  // ---------------------------------------------------------------------
  // Recursive removal

  /** `j` lies in the subtree rooted at `i`. */
  predicate Desc(j: nat, i: nat)
    decreases j
  {
    j == i || (j > i && Desc((j - 1) / 2, i))
  }

  /**
    The nodes that remove() on `i` clears: `i` itself, and recursively the
    subtrees of the children of `i` that have a value.
  */
  predicate Cleared<T>(nodes: seq<Option<T>>, j: nat, i: Index)
    requires |nodes| <= MaxNodes
    decreases |nodes| - i
  {
    j == i
    || (i < |nodes|
        && ((HasValue(nodes, Left(i)) && Cleared(nodes, j, Left(i)))
            || (HasValue(nodes, Right(i)) && Cleared(nodes, j, Right(i)))))
  }

  /** The storage after remove() on `i`: every cleared slot emptied, every other slot as it was. */
  function Removed<T>(nodes: seq<Option<T>>, i: Index): (r: seq<Option<T>>)
    requires |nodes| <= MaxNodes
    ensures |r| == |nodes|
  {
    seq(|nodes|, j requires 0 <= j < |nodes| => if Cleared(nodes, j, i) then None else nodes[j])
  }

  lemma {:induction false} DescOfChild(j: nat, c: nat, p: nat)
    requires c == 2 * p + 1 || c == 2 * p + 2
    requires Desc(j, c)
    ensures Desc(j, p)
    decreases j
  {
    if j != c {
      DescOfChild((j - 1) / 2, c, p);
    }
  }

  /** The subtrees of two siblings are disjoint. */
  lemma {:induction false} SiblingsDisjoint(j: nat, p: nat)
    ensures !(Desc(j, 2 * p + 1) && Desc(j, 2 * p + 2))
    decreases j
  {
    if j > 2 * p + 2 {
      SiblingsDisjoint((j - 1) / 2, p);
    }
  }

  /** remove() only clears nodes of the subtree it is called on. */
  lemma {:induction false} ClearedDescends<T>(nodes: seq<Option<T>>, j: nat, i: Index)
    requires |nodes| <= MaxNodes && Cleared(nodes, j, i)
    ensures Desc(j, i)
    decreases |nodes| - i
  {
    if j != i {
      ParentOfChildren(i);
      if HasValue(nodes, Left(i)) && Cleared(nodes, j, Left(i)) {
        ClearedDescends(nodes, j, Left(i));
        DescOfChild(j, Left(i), i);
      } else {
        ClearedDescends(nodes, j, Right(i));
        DescOfChild(j, Right(i), i);
      }
    }
  }

  /** Every cleared node other than the starting one has a value. */
  lemma {:induction false} ClearedHasValue<T>(nodes: seq<Option<T>>, j: nat, i: Index)
    requires |nodes| <= MaxNodes && Cleared(nodes, j, i) && j != i
    ensures j < |nodes| && nodes[j].Some?
    decreases |nodes| - i
  {
    ParentOfChildren(i);
    var c := if HasValue(nodes, Left(i)) && Cleared(nodes, j, Left(i)) then Left(i) else Right(i);
    if j != c {
      ClearedHasValue(nodes, j, c);
    }
  }

  /** Which nodes are cleared depends only on the subtree below `i`. */
  lemma {:induction false} ClearedFrame<T>(n: seq<Option<T>>, m: seq<Option<T>>, j: nat, i: Index)
    requires |n| == |m| <= MaxNodes
    requires forall k :: 0 <= k < |n| && Desc(k, i) ==> n[k] == m[k]
    ensures Cleared(n, j, i) == Cleared(m, j, i)
    decreases |n| - i
  {
    if i < |n| {
      ParentOfChildren(i);
      forall k | 0 <= k < |n| && Desc(k, Left(i))
        ensures n[k] == m[k]
      {
        DescOfChild(k, Left(i), i);
      }
      forall k | 0 <= k < |n| && Desc(k, Right(i))
        ensures n[k] == m[k]
      {
        DescOfChild(k, Right(i), i);
      }
      if HasValue(n, Left(i)) {
        ClearedFrame(n, m, j, Left(i));
      }
      if HasValue(n, Right(i)) {
        ClearedFrame(n, m, j, Right(i));
      }
    }
  }

  /** The cleared set is closed under children that have a value. */
  lemma {:induction false} ClearedDownward<T>(nodes: seq<Option<T>>, p: nat, i: Index, c: Index)
    requires |nodes| <= MaxNodes && Cleared(nodes, p, i) && p < |nodes|
    requires c == 2 * p + 1 || c == 2 * p + 2
    requires HasValue(nodes, c)
    ensures Cleared(nodes, c, i)
    decreases |nodes| - i
  {
    ParentOfChildren(i);
    if p != i {
      var d := if HasValue(nodes, Left(i)) && Cleared(nodes, p, Left(i)) then Left(i) else Right(i);
      ClearedDownward(nodes, p, d, c);
    }
  }

  /**
    When no node is orphaned, remove() on `i` clears exactly `i` and the nodes
    with a value in its subtree.
  */
  lemma {:induction false} ClearedIsSubtree<T>(nodes: seq<Option<T>>, j: nat, i: Index)
    requires |nodes| <= MaxNodes && NoOrphans(nodes) && i < |nodes| && j < |nodes|
    ensures Cleared(nodes, j, i) <==> j == i || (Desc(j, i) && nodes[j].Some?)
    decreases j
  {
    if Cleared(nodes, j, i) {
      ClearedDescends(nodes, j, i);
      if j != i {
        ClearedHasValue(nodes, j, i);
      }
    } else if j != i && Desc(j, i) && nodes[j].Some? {
      var p := (j - 1) / 2;
      assert HasValue(nodes, Parent(j));
      ClearedIsSubtree(nodes, p, i);
      assert Cleared(nodes, p, i);
      ClearedDownward(nodes, p, i, j);
      assert false;
    }
  }

  // ---------------------------------------------------------------------
  // The tree object

  class LinearTree<T> {
    var height: int
    var nodes: seq<Option<T>>

    /** The storage holds `1 << (height - 1)` slots for a height set_height accepted. */
    ghost predicate Valid()
      reads this
    {
      1 <= height <= MaxHeight && |nodes| == Pow2(height - 1) && |nodes| <= MaxNodes
    }

    /**
      The constructor with an initial height (4 by default in the C++); a height
      above 25 would make set_height throw from the constructor.
    */
    constructor(initialHeight: int)
      requires 1 <= initialHeight <= MaxHeight
      ensures Valid() && height == initialHeight
      ensures forall k :: 0 <= k < |nodes| ==> nodes[k] == None
    {
      HeightBound(initialHeight);
      height := initialHeight;
      nodes := Resize([], Pow2(initialHeight - 1));
    }

    /**
      set_height: above 25 throws overflow_error and changes nothing; otherwise
      resizes the storage to `1 << (h - 1)` slots, keeping the prefix. A height
      below one shifts by a negative amount, which the caller must avoid.
    */
    method SetHeight(h: int) returns (r: Outcome<TreeError>)
      requires h >= 1
      modifies this
      ensures h > MaxHeight ==> r == Fail(Overflow) && height == old(height) && nodes == old(nodes)
      ensures h <= MaxHeight ==> r == Pass && Valid() && height == h && nodes == Resize(old(nodes), Pow2(h - 1))
    {
      if h > MaxHeight {
        return Fail(Overflow);
      }
      HeightBound(h);
      height := h;
      nodes := Resize(nodes, Pow2(h - 1));
      r := Pass;
    }

    /** grow_layer: one more layer, which doubles the storage. */
    method GrowLayer() returns (r: Outcome<TreeError>)
      requires Valid()
      modifies this
      ensures Valid()
      ensures old(height) == MaxHeight ==> r == Fail(Overflow) && height == old(height) && nodes == old(nodes)
      ensures old(height) < MaxHeight ==> r == Pass && height == old(height) + 1
                                          && nodes == Resize(old(nodes), 2 * |old(nodes)|)
    {
      r := SetHeight(height + 1);
    }

    /**
      emplace: fails with out_of_range when the node cannot be emplaced; grows
      one layer when the node lies beyond the storage (which may overflow), and
      then fails with out_of_range from `.at` if the node is still beyond it.
    */
    method Emplace(i: Index, v: T) returns (r: Outcome<TreeError>)
      requires Valid()
      modifies this
      ensures Valid()
      ensures !CanEmplace(old(nodes), i) ==>
        r == Fail(OutOfRange) && height == old(height) && nodes == old(nodes)
      ensures CanEmplace(old(nodes), i) && i < |old(nodes)| ==>
        r == Pass && height == old(height) && nodes == old(nodes)[i := Some(v)]
      ensures CanEmplace(old(nodes), i) && i >= |old(nodes)| && old(height) == MaxHeight ==>
        r == Fail(Overflow) && height == old(height) && nodes == old(nodes)
      ensures CanEmplace(old(nodes), i) && i >= |old(nodes)| && old(height) < MaxHeight ==>
        height == old(height) + 1
        && (i < 2 * |old(nodes)| ==> r == Pass && nodes == Resize(old(nodes), 2 * |old(nodes)|)[i := Some(v)])
        && (i >= 2 * |old(nodes)| ==> r == Fail(OutOfRange) && nodes == Resize(old(nodes), 2 * |old(nodes)|))
      ensures NoOrphans(old(nodes)) ==> NoOrphans(nodes)
    {
      ghost var n0 := nodes;
      if !CanEmplace(nodes, i) {
        return Fail(OutOfRange);
      }
      if i >= |nodes| {
        var g := GrowLayer();
        if g.Fail? {
          return g;
        }
      }
      if NoOrphans(n0) && nodes != n0 {
        GrowKeepsNoOrphans(n0, |nodes|);
      }
      if i >= |nodes| {
        return Fail(OutOfRange);
      }
      if NoOrphans(nodes) {
        EmplaceKeepsNoOrphans(nodes, i, v);
      }
      nodes := nodes[i := Some(v)];
      r := Pass;
    }

    /** operator*: the value of a node; an empty slot throws bad_optional_access. */
    function Get(i: Index): (r: Result<T, TreeError>)
      reads this
      requires i < |nodes|
      ensures r.Success? <==> HasValue(nodes, i)
      ensures r.Success? ==> nodes[i] == Some(r.value)
      ensures r.Failure? ==> r.error == BadOptionalAccess
    {
      match nodes[i]
      case Some(x) => Success(x)
      case None => Failure(BadOptionalAccess)
    }

    /** Assignment through operator->: replaces the value of a node that has one. */
    method Update(i: Index, v: T) returns (r: Outcome<TreeError>)
      requires Valid() && i < |nodes|
      modifies this
      ensures Valid() && height == old(height)
      ensures HasValue(old(nodes), i) ==> r == Pass && nodes == old(nodes)[i := Some(v)]
      ensures !HasValue(old(nodes), i) ==> r == Fail(BadOptionalAccess) && nodes == old(nodes)
    {
      if nodes[i].None? {
        return Fail(BadOptionalAccess);
      }
      nodes := nodes[i := Some(v)];
      r := Pass;
    }

    /**
      remove: removes the children that have a value recursively, then empties
      the node itself. Indexing the node's own slot needs it to be in range.
    */
    method Remove(i: Index)
      requires Valid() && i < |nodes|
      modifies this
      ensures Valid() && height == old(height)
      ensures nodes == Removed(old(nodes), i)
      decreases |nodes| - i
    {
      ghost var n0 := nodes;
      ParentOfChildren(i);
      var l, rt := Left(i), Right(i);
      if HasValue(nodes, l) {
        Remove(l);
      }
      if HasValue(nodes, rt) {
        Remove(rt);
      }
      RemoveSteps(n0, i);
      nodes := nodes[i := None];
    }
  }

  /** The second recursive call of remove() sees the same subtree as before the first. */
  lemma ClearedFramed<T>(n0: seq<Option<T>>, n1: seq<Option<T>>, c: Index)
    requires |n0| == |n1| <= MaxNodes
    requires forall k :: 0 <= k < |n1| && Desc(k, c) ==> n1[k] == n0[k]
    ensures HasValue(n1, c) == HasValue(n0, c)
    ensures forall j: nat :: Cleared(n1, j, c) == Cleared(n0, j, c)
  {
    if c < |n0| {
      assert Desc(c, c);
    }
    forall j: nat
      ensures Cleared(n1, j, c) == Cleared(n0, j, c)
    {
      ClearedFrame(n1, n0, j, c);
    }
  }

  /** The first recursive call of remove() leaves the right sibling's subtree alone. */
  lemma RemoveLeftFrame<T>(n0: seq<Option<T>>, n1: seq<Option<T>>, i: Index)
    requires |n0| == |n1| <= MaxNodes && i < |n0|
    requires forall j :: 0 <= j < |n1| ==>
      n1[j] == if HasValue(n0, Left(i)) && Cleared(n0, j, Left(i)) then None else n0[j]
    ensures HasValue(n1, Right(i)) == HasValue(n0, Right(i))
    ensures forall j: nat :: Cleared(n1, j, Right(i)) == Cleared(n0, j, Right(i))
  {
    ParentOfChildren(i);
    var l := Left(i);
    forall k | 0 <= k < |n1| && Desc(k, Right(i))
      ensures n1[k] == n0[k]
    {
      SiblingsDisjoint(k, i);
      if HasValue(n0, l) && Cleared(n0, k, l) {
        ClearedDescends(n0, k, l);
      }
    }
    ClearedFramed(n0, n1, Right(i));
  }

  /** The effect of both recursive calls and the final reset is remove()'s cleared set. */
  lemma RemoveCombine<T>(n0: seq<Option<T>>, n1: seq<Option<T>>, n2: seq<Option<T>>, i: Index)
    requires |n0| == |n1| == |n2| <= MaxNodes && i < |n0|
    requires forall j :: 0 <= j < |n1| ==>
      n1[j] == if HasValue(n0, Left(i)) && Cleared(n0, j, Left(i)) then None else n0[j]
    requires HasValue(n1, Right(i)) == HasValue(n0, Right(i))
    requires forall j: nat :: Cleared(n1, j, Right(i)) == Cleared(n0, j, Right(i))
    requires forall j :: 0 <= j < |n2| ==>
      n2[j] == if HasValue(n1, Right(i)) && Cleared(n1, j, Right(i)) then None else n1[j]
    ensures forall j :: 0 <= j < |n2| ==>
      n2[i := None][j] == if Cleared(n0, j, i) then None else n0[j]
  {
    ParentOfChildren(i);
    var l, rt := Left(i), Right(i);
    forall j | 0 <= j < |n2| && j != i
      ensures n2[j] == if Cleared(n0, j, i) then None else n0[j]
    {
      assert Cleared(n0, j, i) == ((HasValue(n0, l) && Cleared(n0, j, l)) || (HasValue(n0, rt) && Cleared(n0, j, rt)));
    }
  }

  /**
    remove() on `i` is remove() on each child that has a value, left first,
    followed by emptying `i` itself.
  */
  lemma RemoveSteps<T>(n0: seq<Option<T>>, i: Index)
    requires |n0| <= MaxNodes && i < |n0|
    ensures var n1 := if HasValue(n0, Left(i)) then Removed(n0, Left(i)) else n0;
      var n2 := if HasValue(n1, Right(i)) then Removed(n1, Right(i)) else n1;
      n2[i := None] == Removed(n0, i)
  {
    var n1 := if HasValue(n0, Left(i)) then Removed(n0, Left(i)) else n0;
    RemoveLeftFrame(n0, n1, i);
    var n2 := if HasValue(n1, Right(i)) then Removed(n1, Right(i)) else n1;
    RemoveCombine(n0, n1, n2, i);
    assert forall j :: 0 <= j < |n0| ==> n2[i := None][j] == Removed(n0, i)[j];
  }

  /** remove() never leaves an orphan behind in a tree without orphans. */
  lemma RemoveKeepsNoOrphans<T>(n0: seq<Option<T>>, i: Index)
    requires |n0| <= MaxNodes && NoOrphans(n0)
    ensures NoOrphans(Removed(n0, i))
  {
    var n3 := Removed(n0, i);
    forall j | 0 < j < |n3| && n3[j].Some?
      ensures HasValue(n3, Parent(j))
    {
      var p := Parent(j);
      assert n0[j].Some? && !Cleared(n0, j, i);
      assert HasValue(n0, p);
      KeptParent(n0, i, j);
      assert n3[p] == n0[p];
    }
  }

  /** A node remove() keeps, whose parent has a value, keeps its parent too. */
  lemma KeptParent<T>(n0: seq<Option<T>>, i: Index, j: Index)
    requires |n0| <= MaxNodes && 0 < j < |n0| && n0[j].Some? && !Cleared(n0, j, i)
    requires HasValue(n0, Parent(j))
    ensures !Cleared(n0, Parent(j), i)
  {
    var p := Parent(j);
    assert j == 2 * p + 1 || j == 2 * p + 2;
    if Cleared(n0, p, i) {
      ClearedDownward(n0, p, i, j);
      assert false;
    }
  }

  /** Growing the storage adds only empty slots, which are never orphans. */
  lemma GrowKeepsNoOrphans<T>(nodes: seq<Option<T>>, n: nat)
    requires |nodes| <= n <= MaxNodes && NoOrphans(nodes)
    ensures NoOrphans(Resize(nodes, n))
    ensures forall i: Index :: CanEmplace(nodes, i) ==> CanEmplace(Resize(nodes, n), i)
  {
  }

  /** Emplacing a node that can be emplaced never creates an orphan. */
  lemma EmplaceKeepsNoOrphans<T>(nodes: seq<Option<T>>, i: Index, v: T)
    requires |nodes| <= MaxNodes && NoOrphans(nodes) && i < |nodes|
    requires CanEmplace(nodes, i)
    ensures NoOrphans(nodes[i := Some(v)])
  {
    var m := nodes[i := Some(v)];
    forall j | 0 < j < |m| && m[j].Some?
      ensures HasValue(m, Parent(j))
    {
      if j == i {
        RootHasNoParent(nodes);
      }
    }
  }
}

=== FILE: primitive_collection.dfy ===
/**
  primitive_collection (src/primitive_collection.cpp): the triangles, spheres
  and planes of one scene object, with transforms and materials applied to all
  of them at once, each through a loop that rewrites the elements in place.
*/
module PrimitiveCollections {
  import opened Wrappers
  import opened Primitives

  /** The material a primitive ends up with after assign_material(m). */
  function Assigned(own: MatRef, m: MatRef): (r: MatRef)
    ensures own.Some? ==> r == own
    ensures own.None? ==> r == m
  {
    if own.None? then m else own
  }

  /** Assigning a material twice is assigning it once. */
  lemma AssignedIdempotent(own: MatRef, m: MatRef)
    ensures Assigned(Assigned(own, m), m) == Assigned(own, m)
  {
  }

  /** After a non-null material was set, assigning any material keeps it. */
  lemma AssignedAfterSet(m: MatRef, m': MatRef)
    requires m.Some?
    ensures Assigned(m, m') == m
  {
  }

  /** The contents of a collection, as returned by value from a scene object. */
  datatype CollectionValue = CollectionValue(triangles: seq<Triangle>, spheres: seq<Sphere>, planes: seq<Plane>)

  class PrimitiveCollection {
    var triangles: seq<Triangle>
    var spheres: seq<Sphere>
    var planes: seq<Plane>

    /** A copy of the collection. */
    function Value(): (v: CollectionValue)
      reads this
      ensures v.triangles == triangles && v.spheres == spheres && v.planes == planes
    {
      CollectionValue(triangles, spheres, planes)
    }

    /** The mesh constructors: the mesh's triangles, copied or moved unchanged. */
    constructor FromMesh(mesh: seq<Triangle>)
      ensures triangles == mesh && spheres == [] && planes == []
    {
      triangles, spheres, planes := mesh, [], [];
    }

    /** A single triangle. */
    constructor FromTriangle(t: Triangle)
      ensures triangles == [t] && spheres == [] && planes == []
    {
      triangles, spheres, planes := [t], [], [];
    }

    /** A single sphere. */
    constructor FromSphere(s: Sphere)
      ensures triangles == [] && spheres == [s] && planes == []
    {
      triangles, spheres, planes := [], [s], [];
    }

    /** A single plane. */
    constructor FromPlane(p: Plane)
      ensures triangles == [] && spheres == [] && planes == [p]
    {
      triangles, spheres, planes := [], [], [p];
    }

    /**
      apply_transform: every primitive is replaced by its transformed copy.
      The per-primitive `transform(mat)` bodies are not part of this model, so
      the three transforms are parameters.
    */
    method ApplyTransform(ft: Triangle -> Triangle, fs: Sphere -> Sphere, fp: Plane -> Plane)
      modifies this
      ensures |triangles| == |old(triangles)| && |spheres| == |old(spheres)| && |planes| == |old(planes)|
      ensures forall k :: 0 <= k < |triangles| ==> triangles[k] == ft(old(triangles)[k])
      ensures forall k :: 0 <= k < |spheres| ==> spheres[k] == fs(old(spheres)[k])
      ensures forall k :: 0 <= k < |planes| ==> planes[k] == fp(old(planes)[k])
    {
      for k := 0 to |triangles|
        invariant |triangles| == |old(triangles)| && spheres == old(spheres) && planes == old(planes)
        invariant forall j :: 0 <= j < k ==> triangles[j] == ft(old(triangles)[j])
        invariant forall j :: k <= j < |triangles| ==> triangles[j] == old(triangles)[j]
      {
        triangles := triangles[k := ft(triangles[k])];
      }
      for k := 0 to |spheres|
        invariant |spheres| == |old(spheres)| && planes == old(planes)
        invariant |triangles| == |old(triangles)| && forall j :: 0 <= j < |triangles| ==> triangles[j] == ft(old(triangles)[j])
        invariant forall j :: 0 <= j < k ==> spheres[j] == fs(old(spheres)[j])
        invariant forall j :: k <= j < |spheres| ==> spheres[j] == old(spheres)[j]
      {
        spheres := spheres[k := fs(spheres[k])];
      }
      for k := 0 to |planes|
        invariant |planes| == |old(planes)|
        invariant |triangles| == |old(triangles)| && forall j :: 0 <= j < |triangles| ==> triangles[j] == ft(old(triangles)[j])
        invariant |spheres| == |old(spheres)| && forall j :: 0 <= j < |spheres| ==> spheres[j] == fs(old(spheres)[j])
        invariant forall j :: 0 <= j < k ==> planes[j] == fp(old(planes)[j])
        invariant forall j :: k <= j < |planes| ==> planes[j] == old(planes)[j]
      {
        planes := planes[k := fp(planes[k])];
      }
    }

    /**
      assign_material: a primitive without a material gets `m`; one that has a
      material keeps it, and nothing else about any primitive changes.
    */
    method AssignMaterial(m: MatRef)
      modifies this
      ensures |triangles| == |old(triangles)| && |spheres| == |old(spheres)| && |planes| == |old(planes)|
      ensures forall k :: 0 <= k < |triangles| ==>
        triangles[k] == old(triangles)[k].(material := Assigned(old(triangles)[k].material, m))
      ensures forall k :: 0 <= k < |spheres| ==>
        spheres[k] == old(spheres)[k].(material := Assigned(old(spheres)[k].material, m))
      ensures forall k :: 0 <= k < |planes| ==>
        planes[k] == old(planes)[k].(material := Assigned(old(planes)[k].material, m))
    {
      for k := 0 to |triangles|
        invariant |triangles| == |old(triangles)| && spheres == old(spheres) && planes == old(planes)
        invariant forall j :: 0 <= j < k ==>
          triangles[j] == old(triangles)[j].(material := Assigned(old(triangles)[j].material, m))
        invariant forall j :: k <= j < |triangles| ==> triangles[j] == old(triangles)[j]
      {
        if triangles[k].material.None? {
          triangles := triangles[k := triangles[k].(material := m)];
        }
      }
      for k := 0 to |spheres|
        invariant |spheres| == |old(spheres)| && planes == old(planes)
        invariant |triangles| == |old(triangles)| && forall j :: 0 <= j < |triangles| ==> triangles[j] == old(triangles)[j].(material := Assigned(old(triangles)[j].material, m))
        invariant forall j :: 0 <= j < k ==>
          spheres[j] == old(spheres)[j].(material := Assigned(old(spheres)[j].material, m))
        invariant forall j :: k <= j < |spheres| ==> spheres[j] == old(spheres)[j]
      {
        if spheres[k].material.None? {
          spheres := spheres[k := spheres[k].(material := m)];
        }
      }
      for k := 0 to |planes|
        invariant |planes| == |old(planes)|
        invariant |triangles| == |old(triangles)| && forall j :: 0 <= j < |triangles| ==> triangles[j] == old(triangles)[j].(material := Assigned(old(triangles)[j].material, m))
        invariant |spheres| == |old(spheres)| && forall j :: 0 <= j < |spheres| ==> spheres[j] == old(spheres)[j].(material := Assigned(old(spheres)[j].material, m))
        invariant forall j :: 0 <= j < k ==>
          planes[j] == old(planes)[j].(material := Assigned(old(planes)[j].material, m))
        invariant forall j :: k <= j < |planes| ==> planes[j] == old(planes)[j]
      {
        if planes[k].material.None? {
          planes := planes[k := planes[k].(material := m)];
        }
      }
    }

    /** set_material: every primitive gets `m`, whatever it had, and nothing else changes. */
    method SetMaterial(m: MatRef)
      modifies this
      ensures |triangles| == |old(triangles)| && |spheres| == |old(spheres)| && |planes| == |old(planes)|
      ensures forall k :: 0 <= k < |triangles| ==> triangles[k] == old(triangles)[k].(material := m)
      ensures forall k :: 0 <= k < |spheres| ==> spheres[k] == old(spheres)[k].(material := m)
      ensures forall k :: 0 <= k < |planes| ==> planes[k] == old(planes)[k].(material := m)
    {
      for k := 0 to |triangles|
        invariant |triangles| == |old(triangles)| && spheres == old(spheres) && planes == old(planes)
        invariant forall j :: 0 <= j < k ==> triangles[j] == old(triangles)[j].(material := m)
        invariant forall j :: k <= j < |triangles| ==> triangles[j] == old(triangles)[j]
      {
        triangles := triangles[k := triangles[k].(material := m)];
      }
      for k := 0 to |spheres|
        invariant |spheres| == |old(spheres)| && planes == old(planes)
        invariant |triangles| == |old(triangles)| && forall j :: 0 <= j < |triangles| ==> triangles[j] == old(triangles)[j].(material := m)
        invariant forall j :: 0 <= j < k ==> spheres[j] == old(spheres)[j].(material := m)
        invariant forall j :: k <= j < |spheres| ==> spheres[j] == old(spheres)[j]
      {
        spheres := spheres[k := spheres[k].(material := m)];
      }
      for k := 0 to |planes|
        invariant |planes| == |old(planes)|
        invariant |triangles| == |old(triangles)| && forall j :: 0 <= j < |triangles| ==> triangles[j] == old(triangles)[j].(material := m)
        invariant |spheres| == |old(spheres)| && forall j :: 0 <= j < |spheres| ==> spheres[j] == old(spheres)[j].(material := m)
        invariant forall j :: 0 <= j < k ==> planes[j] == old(planes)[j].(material := m)
        invariant forall j :: k <= j < |planes| ==> planes[j] == old(planes)[j]
      {
        planes := planes[k := planes[k].(material := m)];
      }
    }
  }

  /** assign_material is idempotent: a second call with the same material changes nothing. */
  method AssignTwice(c: PrimitiveCollection, m: MatRef)
    modifies c
    ensures |c.triangles| == |old(c.triangles)| && |c.spheres| == |old(c.spheres)| && |c.planes| == |old(c.planes)|
    ensures forall k :: 0 <= k < |c.triangles| ==>
      c.triangles[k] == old(c.triangles)[k].(material := Assigned(old(c.triangles)[k].material, m))
    ensures forall k :: 0 <= k < |c.spheres| ==>
      c.spheres[k] == old(c.spheres)[k].(material := Assigned(old(c.spheres)[k].material, m))
    ensures forall k :: 0 <= k < |c.planes| ==>
      c.planes[k] == old(c.planes)[k].(material := Assigned(old(c.planes)[k].material, m))
  {
    c.AssignMaterial(m);
    c.AssignMaterial(m);
  }

  /** After set_material with a non-null material, assign_material changes nothing. */
  method SetThenAssign(c: PrimitiveCollection, m: MatRef, m': MatRef)
    requires m.Some?
    modifies c
    ensures |c.triangles| == |old(c.triangles)| && |c.spheres| == |old(c.spheres)| && |c.planes| == |old(c.planes)|
    ensures forall k :: 0 <= k < |c.triangles| ==> c.triangles[k] == old(c.triangles)[k].(material := m)
    ensures forall k :: 0 <= k < |c.spheres| ==> c.spheres[k] == old(c.spheres)[k].(material := m)
    ensures forall k :: 0 <= k < |c.planes| ==> c.planes[k] == old(c.planes)[k].(material := m)
  {
    c.SetMaterial(m);
    c.AssignMaterial(m');
  }
}

=== FILE: primitive_soup.dfy ===
/**
  Decomposing a scene into a primitive soup (src/primitive_soup.cpp): each
  scene object's geometry is tried, in order, as a plane, a sphere, a mesh and
  a single triangle, and its primitives are appended to the soup's planes,
  spheres or triangles tagged with the object; any other geometry throws.

  A scene object is identified by its index in the scene's object list,
  which stands for the `scene_object*` a soup primitive keeps.
*/
module PrimitiveSoups {
  import opened Wrappers
  import opened Primitives
  import opened SoupTriangles

  /** The geometry behind a scene object, as the dynamic casts see it. */
  datatype Geometry =
    | PlaneGeometry(plane: Plane)
    | SphereGeometry(sphere: Sphere)
    | MeshGeometry(triangles: seq<Triangle>)
    | TriangleGeometry(triangle: Triangle)
    | OtherGeometry

  /** primitive_soup: the three primitive vectors. */
  datatype Soup = Soup(triangles: seq<SoupTriangle>, planes: seq<SoupPlane>, spheres: seq<SoupSphere>)

  /** The runtime_error for a geometry none of the casts accepts. */
  datatype SoupError = UnsupportedPrimitive

  /** One soup triangle per mesh triangle, in mesh order, tagged with object `i`. */
  function MeshTriangles(mesh: seq<Triangle>, i: nat): (ts: seq<SoupTriangle>)
    ensures |ts| == |mesh| && forall j :: 0 <= j < |mesh| ==> ts[j] == SoupTriangle(mesh[j], i)
  {
    seq(|mesh|, j requires 0 <= j < |mesh| => SoupTriangle(mesh[j], i))
  }

  /** The soup triangles object `i` contributes: its mesh's triangles in order, or its one triangle. */
  function ObjectTriangles(g: Geometry, i: nat): (ts: seq<SoupTriangle>)
    ensures forall j :: 0 <= j < |ts| ==> ts[j].obj == i
  {
    if g.MeshGeometry? then MeshTriangles(g.triangles, i)
    else if g.TriangleGeometry? then [SoupTriangle(g.triangle, i)]
    else []
  }

  /** The soup triangles of the first `k` objects. */
  function TrianglesOf(objects: seq<Geometry>, k: nat): seq<SoupTriangle>
    requires k <= |objects|
  {
    if k == 0 then [] else TrianglesOf(objects, k - 1) + ObjectTriangles(objects[k - 1], k - 1)
  }

  /** The soup planes of the first `k` objects. */
  function PlanesOf(objects: seq<Geometry>, k: nat): seq<SoupPlane>
    requires k <= |objects|
  {
    if k == 0 then []
    else PlanesOf(objects, k - 1) + (if objects[k - 1].PlaneGeometry? then [SoupPlane(objects[k - 1].plane, k - 1)] else [])
  }

  /** The soup spheres of the first `k` objects. */
  function SpheresOf(objects: seq<Geometry>, k: nat): seq<SoupSphere>
    requires k <= |objects|
  {
    if k == 0 then []
    else SpheresOf(objects, k - 1) + (if objects[k - 1].SphereGeometry? then [SoupSphere(objects[k - 1].sphere, k - 1)] else [])
  }

  /** Every object is one of the four kinds the soup handles. */
  predicate Supported(objects: seq<Geometry>) {
    forall i :: 0 <= i < |objects| ==> !objects[i].OtherGeometry?
  }

  /**
    The primitive_soup constructor: succeeds exactly when every object is
    supported, with the planes, spheres and triangles of all objects in
    object order.
  */
  method MakeSoup(objects: seq<Geometry>) returns (res: Result<Soup, SoupError>)
    ensures res.Success? <==> Supported(objects)
    ensures res.Failure? ==> res.error == UnsupportedPrimitive
    ensures res.Success? ==> res.value == Soup(TrianglesOf(objects, |objects|), PlanesOf(objects, |objects|), SpheresOf(objects, |objects|))
  {
    var triangles: seq<SoupTriangle> := [];
    var planes: seq<SoupPlane> := [];
    var spheres: seq<SoupSphere> := [];
    for i := 0 to |objects|
      invariant triangles == TrianglesOf(objects, i)
      invariant planes == PlanesOf(objects, i)
      invariant spheres == SpheresOf(objects, i)
      invariant forall j :: 0 <= j < i ==> !objects[j].OtherGeometry?
    {
      var g := objects[i];
      PrefixStep(objects, i);
      if g.PlaneGeometry? {
        planes := planes + [SoupPlane(g.plane, i)];
      } else if g.SphereGeometry? {
        spheres := spheres + [SoupSphere(g.sphere, i)];
      } else if g.MeshGeometry? {
        triangles := AppendMesh(triangles, g.triangles, i);
      } else if g.TriangleGeometry? {
        triangles := triangles + [SoupTriangle(g.triangle, i)];
      } else {
        return Failure(UnsupportedPrimitive);
      }
    }
    return Success(Soup(triangles, planes, spheres));
  }

  /** One more object extends each of the three prefixes by that object's primitives. */
  lemma PrefixStep(objects: seq<Geometry>, i: nat)
    requires i < |objects|
    ensures TrianglesOf(objects, i + 1) == TrianglesOf(objects, i) + ObjectTriangles(objects[i], i)
    ensures PlanesOf(objects, i + 1)
         == if objects[i].PlaneGeometry? then PlanesOf(objects, i) + [SoupPlane(objects[i].plane, i)] else PlanesOf(objects, i)
    ensures SpheresOf(objects, i + 1)
         == if objects[i].SphereGeometry? then SpheresOf(objects, i) + [SoupSphere(objects[i].sphere, i)] else SpheresOf(objects, i)
  {
    assert PlanesOf(objects, i) + [] == PlanesOf(objects, i);
    assert SpheresOf(objects, i) + [] == SpheresOf(objects, i);
  }

  /** The inner loop over a mesh: one soup triangle per mesh triangle, tagged with the object. */
  method AppendMesh(triangles: seq<SoupTriangle>, mesh: seq<Triangle>, i: nat) returns (ts: seq<SoupTriangle>)
    ensures ts == triangles + MeshTriangles(mesh, i)
  {
    ghost var own := MeshTriangles(mesh, i);
    ts := triangles;
    for m := 0 to |mesh|
      invariant ts == triangles + own[..m]
    {
      assert own[..m + 1] == own[..m] + [SoupTriangle(mesh[m], i)];
      ts := ts + [SoupTriangle(mesh[m], i)];
    }
    assert own[..|mesh|] == own;
  }

  // ---------------------------------------------------------------------
  // What the soup holds

  /** The soup triangles of a prefix all come from objects of that prefix. */
  lemma {:induction false} TrianglesTagged(objects: seq<Geometry>, k: nat)
    requires k <= |objects|
    ensures forall j :: 0 <= j < |TrianglesOf(objects, k)| ==> TrianglesOf(objects, k)[j].obj < k
  {
    if k > 0 {
      TrianglesTagged(objects, k - 1);
    }
  }

  /** The soup triangles are in object order. */
  lemma {:induction false} TrianglesInObjectOrder(objects: seq<Geometry>, k: nat)
    requires k <= |objects|
    ensures forall j, j' :: 0 <= j < j' < |TrianglesOf(objects, k)| ==>
      TrianglesOf(objects, k)[j].obj <= TrianglesOf(objects, k)[j'].obj
  {
    if k > 0 {
      TrianglesTagged(objects, k - 1);
      TrianglesInObjectOrder(objects, k - 1);
    }
  }

  /** The triangles tagged with one object. */
  function TaggedWith(ts: seq<SoupTriangle>, i: nat): seq<SoupTriangle> {
    if |ts| == 0 then []
    else TaggedWith(ts[..|ts| - 1], i) + (if ts[|ts| - 1].obj == i then [ts[|ts| - 1]] else [])
  }

  lemma {:induction false} TaggedWithAppend(a: seq<SoupTriangle>, b: seq<SoupTriangle>, i: nat)
    ensures TaggedWith(a + b, i) == TaggedWith(a, i) + TaggedWith(b, i)
    decreases |b|
  {
    if |b| > 0 {
      assert (a + b)[..|a + b| - 1] == a + b[..|b| - 1];
      TaggedWithAppend(a, b[..|b| - 1], i);
    } else {
      assert a + b == a;
    }
  }

  lemma {:induction false} TaggedWithAll(ts: seq<SoupTriangle>, i: nat)
    requires forall j :: 0 <= j < |ts| ==> ts[j].obj == i
    ensures TaggedWith(ts, i) == ts
    decreases |ts|
  {
    if |ts| > 0 {
      TaggedWithAll(ts[..|ts| - 1], i);
    }
  }

  lemma {:induction false} TaggedWithNone(ts: seq<SoupTriangle>, i: nat)
    requires forall j :: 0 <= j < |ts| ==> ts[j].obj != i
    ensures TaggedWith(ts, i) == []
    decreases |ts|
  {
    if |ts| > 0 {
      TaggedWithNone(ts[..|ts| - 1], i);
    }
  }

  /**
    The triangles tagged with object `i` are exactly that object's: the mesh's
    triangles in mesh order, the single triangle, or none for a plane or a
    sphere.
  */
  lemma {:induction false} TaggedTrianglesAreObjects(objects: seq<Geometry>, k: nat, i: nat)
    requires i < k <= |objects|
    ensures TaggedWith(TrianglesOf(objects, k), i) == ObjectTriangles(objects[i], i)
    decreases k
  {
    if i == k - 1 {
      TaggedLastObject(objects, k);
    } else {
      TaggedEarlierObject(objects, k, i);
      TaggedTrianglesAreObjects(objects, k - 1, i);
    }
  }

  /** The last object of a prefix owns exactly the triangles it appended. */
  lemma TaggedLastObject(objects: seq<Geometry>, k: nat)
    requires 0 < k <= |objects|
    ensures TaggedWith(TrianglesOf(objects, k), k - 1) == ObjectTriangles(objects[k - 1], k - 1)
  {
    var prev := TrianglesOf(objects, k - 1);
    var own := ObjectTriangles(objects[k - 1], k - 1);
    assert TrianglesOf(objects, k) == prev + own;
    TrianglesTagged(objects, k - 1);
    TaggedOnlyLast(prev, own, k - 1);
  }

  /** The last object of a prefix adds nothing tagged with an earlier one. */
  lemma TaggedEarlierObject(objects: seq<Geometry>, k: nat, i: nat)
    requires i < k - 1 && k <= |objects|
    ensures TaggedWith(TrianglesOf(objects, k), i) == TaggedWith(TrianglesOf(objects, k - 1), i)
  {
    var prev := TrianglesOf(objects, k - 1);
    var own := ObjectTriangles(objects[k - 1], k - 1);
    assert TrianglesOf(objects, k) == prev + own;
    TaggedSkipLast(prev, own, i);
  }

  lemma TaggedOnlyLast(prev: seq<SoupTriangle>, own: seq<SoupTriangle>, i: nat)
    requires forall j :: 0 <= j < |prev| ==> prev[j].obj != i
    requires forall j :: 0 <= j < |own| ==> own[j].obj == i
    ensures TaggedWith(prev + own, i) == own
  {
    TaggedWithAppend(prev, own, i);
    TaggedWithNone(prev, i);
    TaggedWithAll(own, i);
  }

  lemma TaggedSkipLast(prev: seq<SoupTriangle>, own: seq<SoupTriangle>, i: nat)
    requires forall j :: 0 <= j < |own| ==> own[j].obj != i
    ensures TaggedWith(prev + own, i) == TaggedWith(prev, i)
  {
    TaggedWithAppend(prev, own, i);
    TaggedWithNone(own, i);
  }

  /** A mesh object contributes one soup triangle per mesh triangle. */
  lemma MeshContributes(objects: seq<Geometry>, i: nat)
    requires i < |objects| && objects[i].MeshGeometry?
    ensures TaggedWith(TrianglesOf(objects, |objects|), i) == MeshTriangles(objects[i].triangles, i)
  {
    TaggedTrianglesAreObjects(objects, |objects|, i);
  }

  /** The planes of a prefix come from its plane objects, tagged with them, in object order. */
  lemma {:induction false} PlanesTagged(objects: seq<Geometry>, k: nat)
    requires k <= |objects|
    ensures forall j :: 0 <= j < |PlanesOf(objects, k)| ==>
      PlanesOf(objects, k)[j].obj < k && objects[PlanesOf(objects, k)[j].obj] == PlaneGeometry(PlanesOf(objects, k)[j].plane)
    ensures forall j, j' :: 0 <= j < j' < |PlanesOf(objects, k)| ==> PlanesOf(objects, k)[j].obj < PlanesOf(objects, k)[j'].obj
  {
    if k > 0 {
      PlanesTagged(objects, k - 1);
    }
  }

  /** Every plane object of a prefix is among its planes. */
  lemma {:induction false} PlanesComplete(objects: seq<Geometry>, k: nat, i: nat)
    requires i < k <= |objects| && objects[i].PlaneGeometry?
    ensures SoupPlane(objects[i].plane, i) in PlanesOf(objects, k)
    decreases k
  {
    if i < k - 1 {
      PlanesComplete(objects, k - 1, i);
    }
  }

  /** The spheres of a prefix come from its sphere objects, tagged with them, in object order. */
  lemma {:induction false} SpheresTagged(objects: seq<Geometry>, k: nat)
    requires k <= |objects|
    ensures forall j :: 0 <= j < |SpheresOf(objects, k)| ==>
      SpheresOf(objects, k)[j].obj < k && objects[SpheresOf(objects, k)[j].obj] == SphereGeometry(SpheresOf(objects, k)[j].sphere)
    ensures forall j, j' :: 0 <= j < j' < |SpheresOf(objects, k)| ==> SpheresOf(objects, k)[j].obj < SpheresOf(objects, k)[j'].obj
  {
    if k > 0 {
      SpheresTagged(objects, k - 1);
    }
  }

  /** Every sphere object of a prefix is among its spheres. */
  lemma {:induction false} SpheresComplete(objects: seq<Geometry>, k: nat, i: nat)
    requires i < k <= |objects| && objects[i].SphereGeometry?
    ensures SoupSphere(objects[i].sphere, i) in SpheresOf(objects, k)
    decreases k
  {
    if i < k - 1 {
      SpheresComplete(objects, k - 1, i);
    }
  }
}

=== FILE: primitives.dfy ===
/**
  The geometric primitives (src/primitive.hpp): triangles with per-vertex
  normals, spheres and planes, each carrying a material pointer.
*/
module Primitives {
  import opened Wrappers
  import opened Vectors
  import opened Aabb

  /**
    A material pointer: `None` is the null pointer and `Some(k)` the `k`-th
    material of the scene's material list.
  */
  type MatRef = Option<nat>

  datatype Triangle = Triangle(v0: Vec3, v1: Vec3, v2: Vec3, n0: Vec3, n1: Vec3, n2: Vec3, material: MatRef)

  datatype Sphere = Sphere(origin: Vec3, radius: real, material: MatRef)

  datatype Plane = Plane(origin: Vec3, normal: Vec3, material: MatRef)

  /**
    The triangle's bounding box (`get_aabb`, whose body is not part of this
    model): the componentwise extremes of the three vertices.
  */
  function TriBox(t: Triangle): (b: Box)
    ensures Ordered(b)
    ensures PointInside(b, t.v0, 0.0) && PointInside(b, t.v1, 0.0) && PointInside(b, t.v2, 0.0)
  {
    Box(VMin(VMin(t.v0, t.v1), t.v2), VMax(VMax(t.v0, t.v1), t.v2))
  }

  /** `(v0 + v1 + v2) / 3`, the sort key of both BVH builders. */
  function Centroid(t: Triangle): Vec3 {
    Scale(1.0 / 3.0, Add(Add(t.v0, t.v1), t.v2))
  }

  /** The centroid's coordinate along one axis (`c.*axis`). */
  function CentroidKey(t: Triangle, a: Axis): real {
    Get(Centroid(t), a)
  }

  /** The centroid lies inside the triangle's box. */
  lemma CentroidInBox(t: Triangle)
    ensures PointInside(TriBox(t), Centroid(t), 0.0)
  {
  }
}

=== FILE: rays.dfy ===
/** Rays and the geometric part of a hit record (src/ray.hpp). */
module Rays {
  import opened Vectors

  /**
    The ray constructor normalises its direction, so a ray never has the zero
    vector as direction; the unit length itself is float maths and not modelled.
  */
  type Direction = v: Vec3 | v != Vec3(0.0, 0.0, 0.0) witness Vec3(1.0, 0.0, 0.0)

  datatype Ray = Ray(origin: Vec3, direction: Direction)

  /** The point `origin + t * direction`. */
  function PointAt(r: Ray, t: real): Vec3 { Add(r.origin, Scale(t, r.direction)) }

  /** ray_intersection: distance, incident direction, position and normal. */
  datatype Intersection = Intersection(distance: Float, direction: Vec3, position: Vec3, normal: Vec3)
}

=== FILE: soup_triangles.dfy ===
/**
  The primitives of a primitive soup and their ray casts
  (src/primitive_soup.hpp): the Möller–Trumbore closest-hit scan over a range
  of triangles, and the `cast_ray` wrappers that turn a geometric intersection
  into a hit record tagged with the owning scene object.
*/
module SoupTriangles {
  import opened Wrappers
  import opened Vectors
  import opened Rays
  import opened Aabb
  import opened Primitives

  /** soup_primitive: a primitive tagged with the index of the scene object it came from. */
  datatype SoupTriangle = SoupTriangle(tri: Triangle, obj: nat)

  datatype SoupSphere = SoupSphere(sphere: Sphere, obj: nat)

  datatype SoupPlane = SoupPlane(plane: Plane, obj: nat)

  /**
    ray_hit: the geometric fields and the object hit. The material pointer is
    the object's material, so it is determined by `object`.
  */
  datatype RayHit = RayHit(distance: Float, direction: Vec3, position: Vec3, normal: Vec3, obj: nat)

  const Zero: Vec3 := Vec3(0.0, 0.0, 0.0)

  /** A default-constructed hit whose distance is set to HUGE_VALF. */
  const MissHit: RayHit := RayHit(Huge, Zero, Zero, Zero, 0)

  /** The solution `(t, u, v)` of the Möller–Trumbore system. */
  datatype Solution = Solution(t: real, u: real, v: real)

  /** `det`: the determinant of the system for this ray and triangle. */
  function Det(tri: Triangle, r: Ray): real {
    Dot(Cross(r.direction, Sub(tri.v2, tri.v0)), Sub(tri.v1, tri.v0))
  }

  /**
    The loop body's computation of `tuv`: no solution when `det == 0`
    (the triangle is skipped), otherwise Cramer's rule with `1/det`.
  */
  function Solve(tri: Triangle, r: Ray): (s: Option<Solution>)
    ensures s.None? <==> Det(tri, r) == 0.0
  {
    var e1 := Sub(tri.v1, tri.v0);
    var e2 := Sub(tri.v2, tri.v0);
    var p := Cross(r.direction, e2);
    var det := Dot(p, e1);
    if det == 0.0 then None
    else
      var tv := Sub(r.origin, tri.v0);
      var q := Cross(tv, e1);
      var tuv := Scale(1.0 / det, Vec3(Dot(q, e2), Dot(p, tv), Dot(q, r.direction)));
      Some(Solution(tuv.x, tuv.y, tuv.z))
  }

  /** The barycentric bounds the scan checks: `0 <= u <= 1`, `v >= 0` and `u + v <= 1`. */
  predicate InTriangle(s: Solution) {
    !(s.u < 0.0 || s.u > 1.0) && !(s.v < 0.0 || s.u + s.v > 1.0)
  }

  /**
    The distance at which the scan accepts this triangle when nothing closer
    has been found, or HUGE_VALF when the triangle is never accepted.
  */
  function Cand(tri: Triangle, r: Ray): Float {
    match Solve(tri, r)
    case None => Huge
    case Some(s) => if InTriangle(s) && s.t >= 0.0 then Fin(s.t) else Huge
  }

  /** The normal `n0 (1 - u - v) + n1 u + n2 v` before normalisation. */
  function Interpolate(tri: Triangle, u: real, v: real): Vec3 {
    Add(Add(Scale(1.0 - u - v, tri.n0), Scale(u, tri.n1)), Scale(v, tri.n2))
  }

  // ---------------------------------------------------------------------
  // Geometry of an accepted candidate

  lemma CramerX(d: Vec3, e1: Vec3, e2: Vec3, t: Vec3)
    ensures Dot(Cross(d, e2), e1) * t.x + Dot(Cross(t, e1), e2) * d.x
         == Dot(Cross(d, e2), t) * e1.x + Dot(Cross(t, e1), d) * e2.x
  {
  }

  lemma CramerY(d: Vec3, e1: Vec3, e2: Vec3, t: Vec3)
    ensures Dot(Cross(d, e2), e1) * t.y + Dot(Cross(t, e1), e2) * d.y
         == Dot(Cross(d, e2), t) * e1.y + Dot(Cross(t, e1), d) * e2.y
  {
  }

  lemma CramerZ(d: Vec3, e1: Vec3, e2: Vec3, t: Vec3)
    ensures Dot(Cross(d, e2), e1) * t.z + Dot(Cross(t, e1), e2) * d.z
         == Dot(Cross(d, e2), t) * e1.z + Dot(Cross(t, e1), d) * e2.z
  {
  }

  /** Dividing one coordinate of Cramer's identity by the determinant. */
  lemma DivideThrough(det: real, x: real, a: real, y: real, b: real, z: real, c: real, w: real)
    requires det != 0.0 && det * x + a * y == b * z + c * w
    ensures x + ((1.0 / det) * a) * y == ((1.0 / det) * b) * z + ((1.0 / det) * c) * w
  {
    var inv := 1.0 / det;
    assert inv * det == 1.0;
    calc {
      x + (inv * a) * y;
      inv * (det * x) + inv * (a * y);
      inv * (det * x + a * y);
      inv * (b * z + c * w);
      (inv * b) * z + (inv * c) * w;
    }
  }

  /**
    The solution is where the ray meets the triangle's plane:
    `origin + t * direction == v0 + u (v1 - v0) + v (v2 - v0)`.
  */
  lemma SolveHitPoint(tri: Triangle, r: Ray)
    requires Solve(tri, r).Some?
    ensures var s := Solve(tri, r).value;
      PointAt(r, s.t) == Add(tri.v0, Add(Scale(s.u, Sub(tri.v1, tri.v0)), Scale(s.v, Sub(tri.v2, tri.v0))))
  {
    var e1, e2, d := Sub(tri.v1, tri.v0), Sub(tri.v2, tri.v0), r.direction;
    var tv := Sub(r.origin, tri.v0);
    SolveValue(tri, r);
    CramerSolution(r.origin, d, tri.v0, tv, e1, e2, Solve(tri, r).value);
  }

  /** The solution's three fields, as Cramer's rule gives them. */
  lemma SolveValue(tri: Triangle, r: Ray)
    requires Solve(tri, r).Some?
    ensures var e1, e2, d := Sub(tri.v1, tri.v0), Sub(tri.v2, tri.v0), r.direction;
      var tv := Sub(r.origin, tri.v0);
      var p, q := Cross(d, e2), Cross(tv, e1);
      var inv := 1.0 / Dot(p, e1);
      Solve(tri, r).value == Solution(inv * Dot(q, e2), inv * Dot(p, tv), inv * Dot(q, d))
  {
  }

  /** Cramer's rule for the Möller–Trumbore system, in the vectors it is built from. */
  lemma CramerSolution(o: Vec3, d: Vec3, v0: Vec3, tv: Vec3, e1: Vec3, e2: Vec3, s: Solution)
    requires tv == Sub(o, v0) && Dot(Cross(d, e2), e1) != 0.0
    requires var p, q := Cross(d, e2), Cross(tv, e1);
      var inv := 1.0 / Dot(p, e1);
      s == Solution(inv * Dot(q, e2), inv * Dot(p, tv), inv * Dot(q, d))
    ensures Add(o, Scale(s.t, d)) == Add(v0, Add(Scale(s.u, e1), Scale(s.v, e2)))
  {
    CramerHitX(o, d, v0, tv, e1, e2, s);
    CramerHitY(o, d, v0, tv, e1, e2, s);
    CramerHitZ(o, d, v0, tv, e1, e2, s);
  }

  /** One coordinate of `CramerSolution`. */
  lemma CramerHitX(o: Vec3, d: Vec3, v0: Vec3, tv: Vec3, e1: Vec3, e2: Vec3, s: Solution)
    requires tv == Sub(o, v0) && Dot(Cross(d, e2), e1) != 0.0
    requires var p, q := Cross(d, e2), Cross(tv, e1);
      var inv := 1.0 / Dot(p, e1);
      s == Solution(inv * Dot(q, e2), inv * Dot(p, tv), inv * Dot(q, d))
    ensures Add(o, Scale(s.t, d)).x == Add(v0, Add(Scale(s.u, e1), Scale(s.v, e2))).x
  {
    var p, q := Cross(d, e2), Cross(tv, e1);
    CramerX(d, e1, e2, tv);
    HitCoord(Dot(p, e1), tv.x, Dot(q, e2), d.x, Dot(p, tv), e1.x, Dot(q, d), e2.x, o.x, v0.x, s.t, s.u, s.v);
  }

  lemma CramerHitY(o: Vec3, d: Vec3, v0: Vec3, tv: Vec3, e1: Vec3, e2: Vec3, s: Solution)
    requires tv == Sub(o, v0) && Dot(Cross(d, e2), e1) != 0.0
    requires var p, q := Cross(d, e2), Cross(tv, e1);
      var inv := 1.0 / Dot(p, e1);
      s == Solution(inv * Dot(q, e2), inv * Dot(p, tv), inv * Dot(q, d))
    ensures Add(o, Scale(s.t, d)).y == Add(v0, Add(Scale(s.u, e1), Scale(s.v, e2))).y
  {
    var p, q := Cross(d, e2), Cross(tv, e1);
    CramerY(d, e1, e2, tv);
    HitCoord(Dot(p, e1), tv.y, Dot(q, e2), d.y, Dot(p, tv), e1.y, Dot(q, d), e2.y, o.y, v0.y, s.t, s.u, s.v);
  }

  lemma CramerHitZ(o: Vec3, d: Vec3, v0: Vec3, tv: Vec3, e1: Vec3, e2: Vec3, s: Solution)
    requires tv == Sub(o, v0) && Dot(Cross(d, e2), e1) != 0.0
    requires var p, q := Cross(d, e2), Cross(tv, e1);
      var inv := 1.0 / Dot(p, e1);
      s == Solution(inv * Dot(q, e2), inv * Dot(p, tv), inv * Dot(q, d))
    ensures Add(o, Scale(s.t, d)).z == Add(v0, Add(Scale(s.u, e1), Scale(s.v, e2))).z
  {
    var p, q := Cross(d, e2), Cross(tv, e1);
    CramerZ(d, e1, e2, tv);
    HitCoord(Dot(p, e1), tv.z, Dot(q, e2), d.z, Dot(p, tv), e1.z, Dot(q, d), e2.z, o.z, v0.z, s.t, s.u, s.v);
  }

  /** Dividing one coordinate of Cramer's identity by the determinant and moving back from the triangle's corner. */
  lemma HitCoord(det: real, t: real, a: real, dd: real, b: real, f: real, c: real, g: real, o: real, v0: real,
                 kt: real, ku: real, kv: real)
    requires det != 0.0 && t == o - v0 && det * t + a * dd == b * f + c * g
    requires kt == (1.0 / det) * a && ku == (1.0 / det) * b && kv == (1.0 / det) * c
    ensures o + kt * dd == v0 + (ku * f + kv * g)
  {
    DivideThrough(det, t, a, dd, b, f, c, g);
  }

  /** A convex combination of three numbers lies between their minimum and maximum. */
  lemma Convex(a: real, b: real, c: real, x0: real, x1: real, x2: real, p: real)
    requires a >= 0.0 && b >= 0.0 && c >= 0.0 && a + b + c == 1.0
    requires p == a * x0 + b * x1 + c * x2
    ensures RMin(RMin(x0, x1), x2) <= p <= RMax(RMax(x0, x1), x2)
  {
    var m, n := RMin(RMin(x0, x1), x2), RMax(RMax(x0, x1), x2);
    Shift(a, b, c, x0, x1, x2, m);
    Shift(a, b, c, x0, x1, x2, n);
    MulNonNeg(a, x0 - m);
    MulNonNeg(b, x1 - m);
    MulNonNeg(c, x2 - m);
    MulNonNeg(a, n - x0);
    MulNonNeg(b, n - x1);
    MulNonNeg(c, n - x2);
    assert a * (n - x0) == -(a * (x0 - n));
    assert b * (n - x1) == -(b * (x1 - n));
    assert c * (n - x2) == -(c * (x2 - n));
  }

  lemma Shift(a: real, b: real, c: real, x0: real, x1: real, x2: real, m: real)
    ensures a * (x0 - m) + b * (x1 - m) + c * (x2 - m) == a * x0 + b * x1 + c * x2 - (a + b + c) * m
  {
  }

  lemma MulNonNeg(w: real, d: real)
    requires w >= 0.0 && d >= 0.0
    ensures w * d >= 0.0
  {
  }

  /**
    An accepted candidate's hit point lies in the triangle's bounding box: the
    fact that makes box pruning safe.
  */
  lemma CandInBox(tri: Triangle, r: Ray)
    requires Cand(tri, r) != Huge
    ensures PointInside(TriBox(tri), PointAt(r, Cand(tri, r).v), 0.0)
  {
    var s := Solve(tri, r).value;
    SolveHitPoint(tri, r);
    var a := 1.0 - s.u - s.v;
    var v0, v1, v2 := tri.v0, tri.v1, tri.v2;
    var pt := PointAt(r, s.t);
    assert Cand(tri, r) == Fin(s.t);
    Convex(a, s.u, s.v, v0.x, v1.x, v2.x, pt.x);
    Convex(a, s.u, s.v, v0.y, v1.y, v2.y, pt.y);
    Convex(a, s.u, s.v, v0.z, v1.z, v2.z, pt.z);
    assert TriBox(tri).min == Vec3(RMin(RMin(v0.x, v1.x), v2.x), RMin(RMin(v0.y, v1.y), v2.y), RMin(RMin(v0.z, v1.z), v2.z));
    assert TriBox(tri).max == Vec3(RMax(RMax(v0.x, v1.x), v2.x), RMax(RMax(v0.y, v1.y), v2.y), RMax(RMax(v0.z, v1.z), v2.z));
  }

  /** A box that contains the triangle's box is hit by any ray that hits the triangle, no farther. */
  lemma CandInsideVolume(tri: Triangle, r: Ray, vol: Box)
    requires Contains(vol, TriBox(tri)) && Cand(tri, r) != Huge
    ensures RayDistance(vol, r) != Huge && Le(RayDistance(vol, r), Cand(tri, r))
  {
    CandInBox(tri, r);
    ContainsPoint(vol, TriBox(tri), PointAt(r, Cand(tri, r).v), 0.0);
    RayDistanceAtMost(vol, r, Cand(tri, r).v);
  }

  // ---------------------------------------------------------------------
  // The closest candidate of a sequence: the linear-scan reference

  /** The smallest candidate distance among `tris`, HUGE_VALF if none is accepted. */
  function MinCand(tris: seq<Triangle>, r: Ray): Float {
    if |tris| == 0 then Huge else FMin(Cand(tris[0], r), MinCand(tris[1..], r))
  }

  /** MinCand is a lower bound of every candidate and is attained unless it is HUGE_VALF. */
  lemma {:induction false} MinCandIsMin(tris: seq<Triangle>, r: Ray)
    ensures forall k :: 0 <= k < |tris| ==> Le(MinCand(tris, r), Cand(tris[k], r))
    ensures MinCand(tris, r) == Huge || exists k :: 0 <= k < |tris| && Cand(tris[k], r) == MinCand(tris, r)
  {
    if |tris| > 0 {
      MinCandIsMin(tris[1..], r);
      var m := MinCand(tris[1..], r);
      forall k | 0 <= k < |tris|
        ensures Le(MinCand(tris, r), Cand(tris[k], r))
      {
        if k > 0 {
          assert tris[1..][k - 1] == tris[k];
          LtTrans(MinCand(tris, r), m, Cand(tris[k], r));
        }
      }
      if MinCand(tris, r) != Cand(tris[0], r) && MinCand(tris, r) != Huge {
        var k :| 0 <= k < |tris[1..]| && Cand(tris[1..][k], r) == m;
        assert Cand(tris[k + 1], r) == MinCand(tris, r);
      }
    }
  }

  /** A lower bound of all candidates that is attained (or HUGE_VALF) is MinCand. */
  lemma MinCandUnique(tris: seq<Triangle>, r: Ray, v: Float)
    requires forall k :: 0 <= k < |tris| ==> Le(v, Cand(tris[k], r))
    requires v == Huge || exists k :: 0 <= k < |tris| && Cand(tris[k], r) == v
    ensures v == MinCand(tris, r)
  {
    MinCandIsMin(tris, r);
    LtTotal(v, MinCand(tris, r));
  }

  /** The closest candidate does not depend on the order of the triangles. */
  lemma MinCandPermutation(a: seq<Triangle>, b: seq<Triangle>, r: Ray)
    requires multiset(a) == multiset(b)
    ensures MinCand(a, r) == MinCand(b, r)
  {
    MinCandIsMin(a, r);
    var m := MinCand(a, r);
    forall k | 0 <= k < |b|
      ensures Le(m, Cand(b[k], r))
    {
      assert b[k] in multiset(a);
      var j :| 0 <= j < |a| && a[j] == b[k];
    }
    if m != Huge {
      var j :| 0 <= j < |a| && Cand(a[j], r) == m;
      assert a[j] in multiset(b);
      var k :| 0 <= k < |b| && b[k] == a[j];
    }
    MinCandUnique(b, r, m);
  }

  /** The closest candidate of a concatenation is the closer of the two parts'. */
  lemma MinCandAppend(a: seq<Triangle>, b: seq<Triangle>, r: Ray)
    ensures MinCand(a + b, r) == FMin(MinCand(a, r), MinCand(b, r))
  {
    MinCandIsMin(a, r);
    MinCandIsMin(b, r);
    var v := FMin(MinCand(a, r), MinCand(b, r));
    var ab := a + b;
    forall k | 0 <= k < |ab|
      ensures Le(v, Cand(ab[k], r))
    {
      if k < |a| {
        assert ab[k] == a[k];
        LtTrans(v, MinCand(a, r), Cand(a[k], r));
      } else {
        assert ab[k] == b[k - |a|];
        LtTrans(v, MinCand(b, r), Cand(b[k - |a|], r));
      }
    }
    if v != Huge {
      if v == MinCand(a, r) {
        var k :| 0 <= k < |a| && Cand(a[k], r) == v;
        assert ab[k] == a[k];
      } else {
        var k :| 0 <= k < |b| && Cand(b[k], r) == v;
        assert ab[|a| + k] == b[k];
      }
    }
    MinCandUnique(ab, r, v);
  }

  // ---------------------------------------------------------------------
  // The scan

  /**
    The loop of intersect_triangles over `tris[lo..hi]`, starting from the
    bound `start`: a triangle is skipped when `det == 0`, when `u` or `v` is
    out of bounds, or when `t < 0` or `t > best_t`; otherwise it becomes the
    best so far. Returns whether any triangle was accepted, the final `best_t`,
    and the index and solution of the last accepted triangle.
  */
  method ScanTriangles(tris: seq<Triangle>, lo: nat, hi: nat, r: Ray, start: Float)
    returns (found: bool, best: Float, idx: nat, sol: Solution)
    requires lo <= hi <= |tris|
    ensures found <==> exists k :: lo <= k < hi && Cand(tris[k], r) != Huge && Le(Cand(tris[k], r), start)
    ensures found ==> lo <= idx < hi && best == Cand(tris[idx], r) && Solve(tris[idx], r) == Some(sol) && best.Fin?
    ensures found ==> forall k :: idx < k < hi ==> Lt(best, Cand(tris[k], r))
    ensures !found ==> best == start
    ensures Le(best, start) && forall k :: lo <= k < hi ==> Le(best, Cand(tris[k], r))
    ensures best == FMin(start, MinCand(tris[lo..hi], r))
  {
    found, best, idx, sol := false, start, lo, Solution(0.0, 0.0, 0.0);
    var p := lo;
    while p < hi
      invariant lo <= p <= hi
      invariant found <==> exists k :: lo <= k < p && Cand(tris[k], r) != Huge && Le(Cand(tris[k], r), start)
      invariant found ==> lo <= idx < p && best == Cand(tris[idx], r) && Solve(tris[idx], r) == Some(sol) && best.Fin?
      invariant found ==> forall k :: idx < k < p ==> Lt(best, Cand(tris[k], r))
      invariant !found ==> best == start
      invariant Le(best, start)
      invariant forall k :: lo <= k < p ==> Le(best, Cand(tris[k], r))
    {
      var s := Solve(tris[p], r);
      if s.Some? {
        var t, u, v := s.value.t, s.value.u, s.value.v;
        if !(u < 0.0 || u > 1.0) && !(v < 0.0 || u + v > 1.0) && !(t < 0.0 || Lt(best, Fin(t))) {
          LtTotal(best, Fin(t));
          best, idx, sol, found := Fin(t), p, s.value, true;
        }
      }
      forall k | lo <= k <= p
        ensures Le(best, Cand(tris[k], r))
      {
        LtTrans(best, Cand(tris[p], r), Cand(tris[k], r));
        if k < p {
          LtTotal(best, Cand(tris[k], r));
        }
      }
      p := p + 1;
    }
    ScanIsMin(tris, lo, hi, r, start, found, best, idx);
  }

  lemma ScanIsMin(tris: seq<Triangle>, lo: nat, hi: nat, r: Ray, start: Float, found: bool, best: Float, idx: nat)
    requires lo <= hi <= |tris|
    requires found ==> lo <= idx < hi && best == Cand(tris[idx], r)
    requires !found ==> best == start
    requires Le(best, start)
    requires forall k :: lo <= k < hi ==> Le(best, Cand(tris[k], r))
    ensures best == FMin(start, MinCand(tris[lo..hi], r))
  {
    var s := tris[lo..hi];
    MinCandIsMin(s, r);
    var m := MinCand(s, r);
    if found {
      assert s[idx - lo] == tris[idx];
      LtTotal(best, m);
      if m != Huge {
        var k :| 0 <= k < |s| && Cand(s[k], r) == m;
        assert s[k] == tris[lo + k];
      }
    } else if m != Huge {
      var k :| 0 <= k < |s| && Cand(s[k], r) == m;
      assert s[k] == tris[lo + k];
      LtTotal(best, m);
    }
  }

  /** The triangles of a soup, seen through their `triangle` base. */
  function Tris(soup: seq<SoupTriangle>): (ts: seq<Triangle>)
    ensures |ts| == |soup| && forall i :: 0 <= i < |soup| ==> ts[i] == soup[i].tri
  {
    seq(|soup|, i requires 0 <= i < |soup| => soup[i].tri)
  }

  /**
    intersect_triangles: on a hit, the distance is the closest accepted `t`
    (at most `start_t`), the position is `origin + t * direction`, and the
    normal and object come from the last triangle accepted at that distance;
    with no accepted triangle only the distance is set, to HUGE_VALF.
  */
  method IntersectTriangles(soup: seq<SoupTriangle>, lo: nat, hi: nat, r: Ray, start: Float)
    returns (hit: RayHit)
    requires lo <= hi <= |soup|
    ensures var found := exists k :: lo <= k < hi && Cand(soup[k].tri, r) != Huge && Le(Cand(soup[k].tri, r), start);
      && (found ==> hit.distance == FMin(start, MinCand(Tris(soup)[lo..hi], r)) && hit.distance.Fin?
                    && Le(hit.distance, start)
                    && hit.position == PointAt(r, hit.distance.v) && hit.direction == r.direction)
      && (found ==> exists k :: lo <= k < hi && Cand(soup[k].tri, r) == hit.distance && hit.obj == soup[k].obj
                      && Solve(soup[k].tri, r).Some?
                      && hit.normal == Interpolate(soup[k].tri, Solve(soup[k].tri, r).value.u, Solve(soup[k].tri, r).value.v)
                      && forall j :: k < j < hi ==> Lt(hit.distance, Cand(soup[j].tri, r)))
      && (!found ==> hit.distance == Huge)
  {
    var tris := Tris(soup);
    var found, best, idx, sol := ScanTriangles(tris, lo, hi, r, start);
    if found {
      var p := soup[idx];
      hit := RayHit(best, r.direction, PointAt(r, best.v), Interpolate(p.tri, sol.u, sol.v), p.obj);
    } else {
      hit := MissHit;
    }
  }

  // ---------------------------------------------------------------------
  // The cast_ray wrappers

  /**
    The shared body of the three `cast_ray` wrappers: when the primitive's
    `ray_intersect` reports an intersection, its fields are copied into the hit
    together with the owning object and the result is true; otherwise the hit
    is left alone and the result is false.
  */
  function CastRayWith(isec: Option<Intersection>, obj: nat, hit: RayHit): (res: (bool, RayHit))
    ensures res.0 <==> isec.Some?
    ensures !res.0 ==> res.1 == hit
    ensures res.0 ==> res.1.distance == isec.value.distance && res.1.position == isec.value.position
                      && res.1.direction == isec.value.direction && res.1.normal == isec.value.normal
                      && res.1.obj == obj
  {
    match isec
    case None => (false, hit)
    case Some(i) => (true, RayHit(i.distance, i.direction, i.position, i.normal, obj))
  }

  /** The point of the triangle at barycentric coordinates `(u, v)`: `v0 + u (v1 - v0) + v (v2 - v0)`. */
  function Barycentric(tri: Triangle, u: real, v: real): Vec3 {
    Add(tri.v0, Add(Scale(u, Sub(tri.v1, tri.v0)), Scale(v, Sub(tri.v2, tri.v0))))
  }

  /**
    The single-triangle `triangle::ray_intersect` (its body is not part of this
    model), taken to be the scan's acceptance test with no distance bound. What
    it then reports is a genuine ray-triangle hit: the system has a solution
    with barycentric coordinates inside the triangle and `t >= 0`, the
    position is both the ray's point at `t` and the triangle's point at
    `(u, v)`, and the normal is interpolated there.
  */
  function TriangleIntersect(tri: Triangle, r: Ray): (isec: Option<Intersection>)
    ensures isec.Some? <==> Cand(tri, r) != Huge
    ensures isec.Some? ==> Solve(tri, r).Some? && InTriangle(Solve(tri, r).value) && 0.0 <= Solve(tri, r).value.t
    ensures isec.Some? ==> isec.value.distance == Cand(tri, r) && isec.value.position == PointAt(r, Cand(tri, r).v)
    ensures isec.Some? ==> isec.value.position == Barycentric(tri, Solve(tri, r).value.u, Solve(tri, r).value.v)
    ensures isec.Some? ==> isec.value.direction == r.direction
    ensures isec.Some? ==> isec.value.normal == Interpolate(tri, Solve(tri, r).value.u, Solve(tri, r).value.v)
  {
    var c := Cand(tri, r);
    if c == Huge then None
    else
      var s := Solve(tri, r).value;
      SolveHitPoint(tri, r);
      Some(Intersection(c, r.direction, PointAt(r, c.v), Interpolate(tri, s.u, s.v)))
  }

  /**
    A hit record that is triangle `st`'s accepted hit: its distance, the
    ray's point there, the ray's direction, the interpolated normal and the
    owning object.
  */
  predicate TriangleHit(st: SoupTriangle, h: RayHit, r: Ray) {
    && Cand(st.tri, r) != Huge && h.distance == Cand(st.tri, r)
    && h.position == PointAt(r, Cand(st.tri, r).v) && h.direction == r.direction
    && h.normal == Interpolate(st.tri, Solve(st.tri, r).value.u, Solve(st.tri, r).value.v)
    && h.obj == st.obj
  }

  /** soup_triangle::cast_ray. */
  function SoupTriangleCastRay(st: SoupTriangle, r: Ray, hit: RayHit): (res: (bool, RayHit))
    ensures res.0 <==> Cand(st.tri, r) != Huge
    ensures !res.0 ==> res.1 == hit
    ensures res.0 ==> res.1.distance == Cand(st.tri, r) && res.1.position == PointAt(r, Cand(st.tri, r).v)
                      && res.1.direction == r.direction && res.1.obj == st.obj
    ensures res.0 ==> Solve(st.tri, r).Some?
                      && res.1.normal == Interpolate(st.tri, Solve(st.tri, r).value.u, Solve(st.tri, r).value.v)
  {
    CastRayWith(TriangleIntersect(st.tri, r), st.obj, hit)
  }

  /**
    soup_sphere::cast_ray, given the result of sphere::ray_intersect, whose
    square-root geometry is not part of this model.
  */
  function SoupSphereCastRay(s: SoupSphere, isec: Option<Intersection>, hit: RayHit): (res: (bool, RayHit))
    ensures res.0 <==> isec.Some?
    ensures !res.0 ==> res.1 == hit
    ensures res.0 ==> res.1.distance == isec.value.distance && res.1.position == isec.value.position
                      && res.1.direction == isec.value.direction && res.1.normal == isec.value.normal
                      && res.1.obj == s.obj
  {
    CastRayWith(isec, s.obj, hit)
  }

  /** soup_plane::cast_ray, given the result of plane::ray_intersect. */
  function SoupPlaneCastRay(p: SoupPlane, isec: Option<Intersection>, hit: RayHit): (res: (bool, RayHit))
    ensures res.0 <==> isec.Some?
    ensures !res.0 ==> res.1 == hit
    ensures res.0 ==> res.1.distance == isec.value.distance && res.1.position == isec.value.position
                      && res.1.direction == isec.value.direction && res.1.normal == isec.value.normal
                      && res.1.obj == p.obj
  {
    CastRayWith(isec, p.obj, hit)
  }

  /**
    A single triangle's cast_ray finds exactly what the range scan finds on the
    one-triangle range with no bound.
  */
  lemma CastRayMatchesScan(soup: seq<SoupTriangle>, k: nat, r: Ray, hit: RayHit)
    requires k < |soup|
    ensures SoupTriangleCastRay(soup[k], r, hit).0 <==> MinCand(Tris(soup)[k..k + 1], r) != Huge
    ensures SoupTriangleCastRay(soup[k], r, hit).0 ==>
      SoupTriangleCastRay(soup[k], r, hit).1.distance == MinCand(Tris(soup)[k..k + 1], r)
  {
    var s := Tris(soup)[k..k + 1];
    assert s == [soup[k].tri];
    assert MinCand(s[1..], r) == Huge;
  }
}

=== FILE: vectors.dfy ===
/**
  The numeric vocabulary of the model: glm::vec3 over exact reals, and the
  single-precision float of the C++ code as an extended real whose positive
  infinity is HUGE_VALF (the renderer's ray_miss sentinel).
*/
module Vectors {

  datatype Vec3 = Vec3(x: real, y: real, z: real)

  /** The three coordinate axes, selected in the C++ code by a member pointer. */
  datatype Axis = X | Y | Z

  function Get(v: Vec3, a: Axis): real {
    match a
    case X => v.x
    case Y => v.y
    case Z => v.z
  }

  function Add(a: Vec3, b: Vec3): Vec3 { Vec3(a.x + b.x, a.y + b.y, a.z + b.z) }
  function Sub(a: Vec3, b: Vec3): Vec3 { Vec3(a.x - b.x, a.y - b.y, a.z - b.z) }
  function Scale(s: real, v: Vec3): Vec3 { Vec3(s * v.x, s * v.y, s * v.z) }
  function Neg(v: Vec3): Vec3 { Vec3(-v.x, -v.y, -v.z) }
  function Dot(a: Vec3, b: Vec3): real { a.x * b.x + a.y * b.y + a.z * b.z }
  function Cross(a: Vec3, b: Vec3): Vec3 {
    Vec3(a.y * b.z - a.z * b.y, a.z * b.x - a.x * b.z, a.x * b.y - a.y * b.x)
  }

  function RMin(a: real, b: real): real { if b < a then b else a }
  function RMax(a: real, b: real): real { if a < b then b else a }

  /** glm::min and glm::max: componentwise. */
  function VMin(a: Vec3, b: Vec3): Vec3 { Vec3(RMin(a.x, b.x), RMin(a.y, b.y), RMin(a.z, b.z)) }
  function VMax(a: Vec3, b: Vec3): Vec3 { Vec3(RMax(a.x, b.x), RMax(a.y, b.y), RMax(a.z, b.z)) }

  /** `a <= b` on every axis. */
  predicate VLe(a: Vec3, b: Vec3) { a.x <= b.x && a.y <= b.y && a.z <= b.z }

  /**
    A float distance: a finite value or one of the two infinities. NaN is not
    part of the model.
  */
  datatype Float = NegInf | Fin(v: real) | PosInf

  /** HUGE_VALF, which the renderer also calls ray_miss. */
  const Huge: Float := PosInf

  /** `a < b` on floats. */
  predicate Lt(a: Float, b: Float) {
    match (a, b)
    case (NegInf, NegInf) => false
    case (NegInf, _) => true
    case (Fin(x), Fin(y)) => x < y
    case (Fin(_), PosInf) => true
    case _ => false
  }

  predicate Le(a: Float, b: Float) { !Lt(b, a) }

  /** std::min on floats: the second argument only when it is strictly smaller. */
  function FMin(a: Float, b: Float): Float { if Lt(b, a) then b else a }

  /** std::max on floats: the second argument only when it is strictly larger. */
  function FMax(a: Float, b: Float): Float { if Lt(a, b) then b else a }

  /** IEEE division of a real by a real; a zero numerator over zero (NaN) is not modelled. */
  function FDiv(n: real, d: real): Float
    requires d != 0.0 || n != 0.0
  {
    if d != 0.0 then Fin(n / d) else if n > 0.0 then PosInf else NegInf
  }

  lemma LtTotal(a: Float, b: Float)
    ensures Lt(a, b) || a == b || Lt(b, a)
    ensures !(Lt(a, b) && Lt(b, a))
  {
  }

  lemma LtTrans(a: Float, b: Float, c: Float)
    ensures Lt(a, b) && Lt(b, c) ==> Lt(a, c)
    ensures Le(a, b) && Le(b, c) ==> Le(a, c)
    ensures Lt(a, b) && Le(b, c) ==> Lt(a, c)
    ensures Le(a, b) && Lt(b, c) ==> Lt(a, c)
  {
  }

  /** The larger of two floats is below `x` exactly when both are. */
  lemma MaxLe(a: Float, b: Float, x: Float)
    ensures Le(FMax(a, b), x) <==> Le(a, x) && Le(b, x)
  {
  }

  /** The smaller of two floats is above `x` exactly when both are. */
  lemma LeMin(x: Float, a: Float, b: Float)
    ensures Le(x, FMin(a, b)) <==> Le(x, a) && Le(x, b)
  {
  }

  /** std::min on floats is commutative and associative, with HUGE_VALF as its unit. */
  lemma FMinAlgebra(a: Float, b: Float, c: Float)
    ensures FMin(a, b) == FMin(b, a)
    ensures FMin(FMin(a, b), c) == FMin(a, FMin(b, c))
    ensures FMin(a, Huge) == a && FMin(Huge, a) == a
  {
  }
}

=== FILE: wrappers.dfy ===
/** Failure-compatible result types used for the C++ exceptions of the model. */
module Wrappers {

  datatype Option<+T> = None | Some(value: T)

  /** A value or the error the C++ code would have thrown. */
  datatype Result<+R, +E> = Success(value: R) | Failure(error: E) {
    predicate IsFailure() { Failure? }
    function PropagateFailure<U>(): Result<U, E> requires Failure? { Failure(error) }
    function Extract(): R requires Success? { value }
  }

  /** Success without a value, or the error the C++ code would have thrown. */
  datatype Outcome<+E> = Pass | Fail(error: E) {
    predicate IsFailure() { Fail? }
    function PropagateFailure(): Outcome<E> requires Fail? { this }
  }
}
